=== FILE: README.md ===
# F4EE body morphs, modelled in Dafny

This project models the sequential core of F4EE's `BodyMorphInterface`, together with the two KD-trees of `kd_matcher.hpp`. Every piece is written as pure functions over immutable values.

- **Vertex deltas** (`VertexDeltas`). The two `ApplyMorph`s add weighted deltas into a vertex buffer and report out-of-range indices. Full deltas carry an index and a displacement. Packed deltas carry an index and three signed 16-bit components, scaled by the morph's multiplier.
- **Blend** (`Blend`). This is the loop inside `ApplyMorphsToShape`. It applies each of an actor's morphs with its effective value as the factor, skipping the morph when that value is 0 or the shape has no morph of that name. Map iteration order is a parameter.
- **.tri parser** (`TriFormat`). `GetTrishapeMap`'s decoder reads the `TRI\0` (full) and `TRIP` (packed) layouts from a byte sequence. Float fields go through an abstract `f32` decoder.
- **Writer side** (`TriEncoding`). It gives an abstract file and its byte encoding, and proves that the parser reads back exactly the records that were written.
- **Morph cache** (`MorphCache`). This is a state machine for the hit and insert paths of `GetTrishapeMap`, plus `ShrinkMorphCache`, `SetCacheLimit` and `PrefixMeshPath`.
- **Weights** (`Weights`). `UserValues` is keyword → value; `MorphValueMap` is morph name → `UserValues`. Both have their set, get and remove operations and the pruning rule.
- **Weight store** (`WeightStore`). This holds the per-actor operations of `BodyMorphInterface`. The two tables (male, female) map an actor to a map id, and a heap maps ids to `MorphValueMap`s. This is how `CloneMorphs`' sharing is represented.
- **Persistence** (`Persistence`). `Save` and both `Load`s work over a stream of typed tokens. The string table, form-id, handle, keyword and actor lookups are partial maps passed in.
- **KD-trees** (`KdTree`, `KdMatcher`, `KdQuery`).
  - Both tree kinds share one node type and one branch test.
  - `kd_matcher` finds duplicates; `kd_tree` holds `add`, the constructor, `find_closest` and `kd_nn`.
  - Coordinates are reals. `DistanceTo` is a parameter `dist`, constrained only to be non-negative and to bound every single-axis gap. `EPSILON` is a parameter `eps > 0`.

Shared definitions live in `Wrappers` (Option/Result), `Bytes` (bytes, little-endian fields, C strings), `Geometry` (Vec3) and `Listing` (a sequence that lists a map's keys once).

## Model

| member | source | states |
|---|---|---|
| VertexDeltas.ApplyPrefix | src/BodyMorphInterface.cpp:49-104 | After the first n deltas, each vertex below vertCount has gained the weighted sum of the deltas naming it, vertices from vertCount on are unchanged, and the flag is set exactly when some delta so far named an index ≥ vertCount |
| VertexDeltas.ApplyMorph | src/BodyMorphInterface.cpp:49-104 | A null buffer gives (no buffer, false). Otherwise every in-range vertex gains the weighted sum of its deltas (diff·factor for full, component·multiplier·factor for packed), the rest are unchanged, and the result is true exactly when some index is out of range |
| VertexDeltas.UntouchedVertex | src/BodyMorphInterface.cpp:60-65 | A vertex named by no delta receives nothing |
| VertexDeltas.ZeroFactorAddsNothing | src/BodyMorphInterface.cpp:62-64 | A factor of 0 moves no vertex |
| VertexDeltas.FullExample | src/BodyMorphInterface.cpp:49-74 | A full delta at index 2 with factor 0.5 moves vertex 2 by half its diff; a delta at index 5 of 3 vertices changes nothing and reports out of bounds |
| VertexDeltas.PackedExample | src/BodyMorphInterface.cpp:76-104 | Packed components (100, -100, 0) with multiplier 0.01 and factor 2 move the vertex by (2, -2, 0) |
| Blend.BlendSteps | src/BodyMorphInterface.cpp:611-625 | After the loop has visited the names of `order` in turn, each vertex below the count has gained the sum of their shares; the share is 0 when the effective value is 0 or the shape lacks the morph, and otherwise the morph applied with the effective value as factor; later vertices are unchanged |
| Blend.BlendInOrder | src/BodyMorphInterface.cpp:611-625 | Given an iteration order of the actor's morph map, each vertex below the count gains the share of every morph of the map exactly once, a sum that does not depend on the order; later vertices are unchanged |
| Blend.ListingTotal | src/BodyMorphInterface.cpp:611-625 | Summing the shares along an iteration order of the actor's map gives the order-free sum over the map's names |
| Blend.TotalIsMapTotal | src/BodyMorphInterface.cpp:611-625 | Summing along any repetition-free listing of a set of names gives the order-free sum over that set |
| Blend.EachMorphOnce | src/BodyMorphInterface.cpp:611-625 | The order-free sum is any one name's share plus the sum over the other names: each morph counts once |
| Blend.TotalPermutation | src/BodyMorphInterface.cpp:611-625 | The summed displacement of a vertex is the same for any reordering of the morph names |
| Blend.BlendOrderIndependent | src/BodyMorphInterface.cpp:611-625 | Blending along any two iteration orders of the actor's morph map gives the same vertices |
| Blend.MorphShape | src/BodyMorphInterface.cpp:554-625 | A result exists exactly when the .tri map, the shape's morph set and the actor's morph map all exist; then, for an iteration order of the actor's map, each vertex below the count gains every morph's share once and later vertices are unchanged |
| Blend.WeightedMorphApplied | src/BodyMorphInterface.cpp:611-625 | A morph weighted 1 whose one full delta moves vertex 0 by (1, 0, 0) moves that vertex there |
| Listing.ListingsAgree | src/BodyMorphInterface.cpp:611-625 | Any two iteration orders of the same map hold the same names, each once |
| Bytes.CString | src/BodyMorphInterface.cpp:171-176 | A name is the bytes before the first NUL, each byte as one character |
| Bytes.DecodeEncodeLE | src/BodyMorphInterface.cpp:153-166 | Reading back an n-byte little-endian field that was written from a value below 256^n gives that value |
| Bytes.SignedRoundTrip | src/BodyMorphInterface.cpp:269-271 | Reading an SInt16's two bytes back as signed gives the value written |
| TriFormat.ParseFullDeltas | src/BodyMorphInterface.cpp:247-259 | count full deltas read exactly when 16·count bytes remain; delta k is the 16 bytes at pos+16k, with the 4-byte index kept modulo 2^16 |
| TriFormat.ParsePackedDeltas | src/BodyMorphInterface.cpp:260-275 | count packed deltas read exactly when 8·count bytes remain; delta k is the u16 index and three s16 components at pos+8k |
| TriFormat.ParseMorphBody | src/BodyMorphInterface.cpp:212-277 | A full morph whose vertex count is above 65535 fails with that count, carrying the warnings logged for it first (its zero-multiplier warning among them); a full morph always carries the zero-multiplier warning; the data has the file's format and at most 65535 deltas |
| TriFormat.ParseMorph | src/BodyMorphInterface.cpp:199-279 | A morph that reads ends after its start within the input, has the file's format, at most 65535 deltas, and in the full format the zero-multiplier warning |
| TriFormat.ParseMorphs | src/BodyMorphInterface.cpp:197-280 | count morphs read in sequence, all of the file's format; a too-many-vertices failure only occurs in the full format, and carries the warnings of the morphs read before it, the first morph's first, ending with the failing morph's zero-multiplier warning |
| TriFormat.ParseShape | src/BodyMorphInterface.cpp:171-284 | A shape that reads ends after its start, and its morphs all have the file's format |
| TriFormat.ParseShapes | src/BodyMorphInterface.cpp:169-284 | count shapes read in sequence, every morph of every shape in the file's format; a too-many-vertices failure carries the warnings of the shapes read before it, the first shape's first |
| TriFormat.ParseRecords | src/BodyMorphInterface.cpp:150-284 | An unknown magic fails with that magic; success means the magic is `TRI\0` or `TRIP` and every morph is packed exactly when it is `TRIP`; too many vertices only fails a `TRI\0` file, after logging the failing morph's zero-multiplier warning |
| TriFormat.FirstWinsKeys | src/BodyMorphInterface.cpp:279-282 | The name map holds exactly the names that occur in the list |
| TriFormat.FirstWinsFirst | src/BodyMorphInterface.cpp:279-282 | For a duplicated name, the map keeps the first occurrence's value (emplace) |
| TriFormat.InterpretKeepsFormat | src/BodyMorphInterface.cpp:244-282 | Collecting the records into maps keeps every morph in the file's format |
| TriFormat.ParseFile | src/BodyMorphInterface.cpp:150-286 | The decoder's result: bad magic fails with the magic, a successful parse consumed at most the input, and every stored morph's format matches the magic; a too-many-vertices failure carries the warnings logged before it |
| TriEncoding.FullDeltasRoundTrip | src/BodyMorphInterface.cpp:247-259 | Reading written full deltas gives them back, index truncated to 16 bits and floats through f32, ending 16 bytes per delta later |
| TriEncoding.PackedDeltasRoundTrip | src/BodyMorphInterface.cpp:260-275 | Reading written packed deltas gives exactly those deltas, ending 8 bytes per delta later |
| TriEncoding.MorphRoundTrip | src/BodyMorphInterface.cpp:199-279 | Reading a written morph gives its decoded record and ends right after its bytes |
| TriEncoding.MorphsRoundTrip | src/BodyMorphInterface.cpp:197-280 | Reading a written morph list gives every morph in order and ends right after the list |
| TriEncoding.ShapeRoundTrip | src/BodyMorphInterface.cpp:171-282 | Reading a written shape gives its name and morphs and ends right after its bytes |
| TriEncoding.ShapesRoundTrip | src/BodyMorphInterface.cpp:169-284 | Reading a written shape list gives every shape in order and ends right after the list |
| TriEncoding.HeaderRoundTrip | src/BodyMorphInterface.cpp:150-167 | A written file starts with its format's magic and a shape count of the format's width (u32 full, u16 packed) |
| TriEncoding.RoundTrip | src/BodyMorphInterface.cpp:150-286 | Parsing the bytes of any well-formed file, followed by anything, succeeds with exactly its shapes (first name wins), consumes exactly its bytes, and logs the warnings its morphs carry |
| MorphCache.MemoryUsage | include/BodyMorphInterface.h:89-97 | memoryUsage is sizeof(TriShapeMap) plus the bytes read, kept as a 32-bit value |
| MorphCache.AddUsage | src/BodyMorphInterface.cpp:292 | Adding an entry's usage to the 64-bit total wraps modulo 2^64 |
| MorphCache.SubUsage | src/BodyMorphInterface.cpp:316-318 | Subtracting an erased entry's usage from the 64-bit total wraps modulo 2^64 |
| MorphCache.LookupAsWritten | src/BodyMorphInterface.cpp:128-304 | A hit returns the stored shapes and refreshes only that entry's accessed time; a miss with a file that parses inserts it with its memoryUsage and adds that to the total; a miss with no file or a failed parse changes nothing and returns nothing |
| MorphCache.EmptyPathPassesGuard | src/BodyMorphInterface.cpp:130-132 | As written, an empty path that is not a literal is looked up and cached like any other |
| MorphCache.Lookup | src/BodyMorphInterface.cpp:128-304 | The empty path returns nothing and changes nothing; any other path behaves as the decoder above |
| MorphCache.HitIgnoresFile | src/BodyMorphInterface.cpp:134-141 | A hit does not depend on the file, so nothing is parsed |
| MorphCache.BadMagicNotCached | src/BodyMorphInterface.cpp:156-157 | A file with an unknown magic returns nothing and leaves the cache unchanged |
| MorphCache.LookupKeepsAccounted | src/BodyMorphInterface.cpp:286-292 | When the total is at least the sum of the entries' usages, it stays so after a lookup (absent 64-bit overflow), so subtracting one entry's usage never wraps |
| MorphCache.HitKeepsAccounted | src/BodyMorphInterface.cpp:134-141 | Refreshing a hit's accessed time keeps the total at least the sum of the entries' usages, so subtracting one never wraps |
| MorphCache.InsertKeepsAccounted | src/BodyMorphInterface.cpp:286-292 | Inserting a new entry and adding its usage keeps the total at least the sum of the entries' usages, so subtracting one never wraps |
| MorphCache.SetCacheLimit | src/BodyMorphInterface.cpp:326-329 | Only the limit changes |
| MorphCache.Oldest | src/BodyMorphInterface.cpp:310-314 | The chosen entry has the least accessed time, and among ties it is the first in iteration order (min_element) |
| MorphCache.EvictLoop | src/BodyMorphInterface.cpp:309-319 | The loop stops with the total within the limit or no entries; survivors are untouched; every evicted entry was accessed no later than any survivor; nothing is evicted when already within the limit |
| MorphCache.EvictionMinimal | src/BodyMorphInterface.cpp:309-319 | The loop evicts no more than it must: with the usage of the last entry it evicted added back, the total exceeds the limit |
| MorphCache.Shrink | src/BodyMorphInterface.cpp:306-324 | After shrinking, the total is within the limit or the cache is empty; an empty cache's total is sizeof(map), not 0; oldest entries go first; a cache within its limit is unchanged; when entries survive, some evicted entry would have put the total back over the limit |
| MorphCache.SetLimitThenShrink | src/BodyMorphInterface.cpp:306-329 | After setting a limit and shrinking, the total is within that limit or the cache is empty |
| MorphCache.PrefixMeshPathAsWritten | src/BodyMorphInterface.cpp:678-687 | As written, the key is "meshes\\" followed by the lower-cased path, even for an empty path |
| MorphCache.PrefixAsWrittenOfEmpty | src/BodyMorphInterface.cpp:680-681 | As written, a runtime empty path yields "meshes\\", not "" |
| MorphCache.PrefixMeshPath | src/BodyMorphInterface.cpp:678-687 | The key is empty exactly when the path is, and otherwise "meshes\\" plus the lower-cased path |
| MorphCache.KeyIsLowerCase | src/BodyMorphInterface.cpp:685 | A cache key holds no upper-case ASCII letter |
| MorphCache.SameKeyIffSameIgnoringCase | src/BodyMorphInterface.cpp:678-687 | Two paths get the same key exactly when they are equal ignoring ASCII case |
| Weights.SetValue | src/BodyMorphInterface.cpp:831-844 | 0 erases the keyword's entry and any other value upserts it; a null keyword is key 0; other keys are untouched |
| Weights.GetValue | src/BodyMorphInterface.cpp:821-829 | A non-zero read is the stored value of that keyword (null is key 0); on a zero-free table a read is non-zero exactly when the keyword is stored |
| Weights.GetAfterSetValue | src/BodyMorphInterface.cpp:821-844 | After SetValue the keyword reads back the value set, and every other keyword reads as before |
| Weights.RemoveKeyword | src/BodyMorphInterface.cpp:846-852 | The keyword's entry is gone and the others are untouched |
| Weights.RevertValues | include/BodyMorphInterface.h:114-117 | After Revert every keyword reads 0 |
| Weights.EffectiveValue | src/BodyMorphInterface.cpp:854-862 | The effective value is 0 for an empty map and otherwise a stored value no smaller than any other (so it may be negative) |
| Weights.EffectiveValueExample | src/BodyMorphInterface.cpp:854-862 | Values 0.3, 0.7 and 0.1 have effective value 0.7 |
| Weights.GetMorph | src/BodyMorphInterface.cpp:886-896 | 0 when the morph or the keyword is missing, otherwise the stored value |
| Weights.SetMorph | src/BodyMorphInterface.cpp:864-884 | Reading back gives the value set; other morphs and other keywords are unchanged; a morph left with no keywords is erased, so a pruned map stays pruned |
| Weights.PrunedAfterUpdate | src/BodyMorphInterface.cpp:876-883 | Writing the updated UserValues back, or erasing the morph when they are empty, leaves a pruned map pruned |
| Weights.SetZeroOnAbsentIsNoOp | src/BodyMorphInterface.cpp:864-884 | On a pruned map, setting 0 for an absent morph or keyword changes nothing |
| Weights.GetKeywords | src/BodyMorphInterface.cpp:898-907 | Nothing for an absent morph; every keyword the morph reads non-zero under is listed, and in a map without stored zeros the listed keywords are exactly those |
| Weights.ListedIffNonZero | src/BodyMorphInterface.cpp:898-907 | In a pruned map a keyword is listed for a morph exactly when the morph reads non-zero under it |
| Weights.KeywordsAfterSetMorph | src/BodyMorphInterface.cpp:864-907 | On a pruned map, setting a non-zero value adds the keyword to the morph's listed keywords and setting 0 removes it, nothing else changing |
| Weights.RemoveMorphsByName | src/BodyMorphInterface.cpp:909-917 | Only that morph is erased |
| Weights.RemoveMorphsByKeyword | src/BodyMorphInterface.cpp:919-926 | Every morph keeps its entry, the keyword reads 0 everywhere, and other keywords are unchanged |
| Weights.RemoveByKeywordLeavesEmptyEntry | src/BodyMorphInterface.cpp:919-926 | Removing a morph's only keyword leaves an empty, unpruned entry |
| Weights.RevertMorphs | include/BodyMorphInterface.h:138-142 | After Revert every morph and keyword reads 0 |
| WeightStore.GetMorphMap | src/BodyMorphInterface.cpp:689-699 | An actor has a map exactly when its table holds it, and the map is the one its id names |
| WeightStore.GetMorph | src/BodyMorphInterface.cpp:809-819 | 0 when the actor has no map, otherwise the map's value |
| WeightStore.SetMorph | src/BodyMorphInterface.cpp:701-723 | A null actor changes nothing; otherwise the actor then reads the value set, whether or not it had a map |
| WeightStore.SetExisting | src/BodyMorphInterface.cpp:708-723 | For an actor with a map, the map is updated in place and the actor then reads the value set |
| WeightStore.SetNew | src/BodyMorphInterface.cpp:709-723 | For an actor without a map, a map is created only when the write leaves something in it, and the actor then reads the value set |
| WeightStore.SetMorphFrame | src/BodyMorphInterface.cpp:701-723 | Setting one actor's weight changes no other actor's table membership, nor the map of any actor that does not share its map |
| WeightStore.SetExistingFrame | src/BodyMorphInterface.cpp:716-722 | Writing an existing map changes no other actor's membership, nor the map of an actor not sharing it |
| WeightStore.SetNewFrame | src/BodyMorphInterface.cpp:709-714 | When the actor had no map, a new one is made under a fresh id, so every other actor keeps its table membership and its map |
| WeightStore.SetMorphThroughSharedMap | src/BodyMorphInterface.cpp:716-718 | An actor sharing the map sees the write |
| WeightStore.SetMorphKeepsPruned | src/BodyMorphInterface.cpp:717-722 | Without sharing, every actor map stays non-empty and pruned: an actor whose map empties is erased |
| WeightStore.GetKeywords | src/BodyMorphInterface.cpp:725-736 | Nothing for a null or unknown actor; every keyword the actor's morph reads non-zero under is listed, and in a store without stored zeros exactly those |
| WeightStore.GetMorphs | src/BodyMorphInterface.cpp:738-752 | Nothing for a null actor; every morph the actor reads non-zero under some keyword is listed, and in a store without stored zeros or empty entries exactly those |
| WeightStore.RemoveMorphsByName | src/BodyMorphInterface.cpp:754-765 | Only that morph of the actor is removed: it reads 0 under every keyword, every other morph reads as before, and every actor not sharing the map keeps its map; the tables are unchanged, so an emptied actor map is not pruned |
| WeightStore.RemoveMorphsByKeyword | src/BodyMorphInterface.cpp:767-778 | The keyword reads 0 for every morph of the actor, every other keyword reads as before, the actor keeps its morph names, every actor not sharing the map keeps its map, and the tables are unchanged |
| WeightStore.ClearMorphs | src/BodyMorphInterface.cpp:780-790 | The actor's entry is gone and every other entry is unchanged |
| WeightStore.CloneMorphs | src/BodyMorphInterface.cpp:792-807 | The target's entry becomes the source's map itself (shared, not copied); every other entry of either table keeps its map; nothing happens for a null or unknown source |
| WeightStore.CloneIsShallow | include/BodyMorphInterface.h:236-237 | After cloning, a write through the target is read back through the source |
| WeightStore.ClonedMapCanBeLeftEmpty | src/BodyMorphInterface.cpp:792-807 | With a shared map, pruning through one actor leaves the other holding an empty map |
| WeightStore.SetZeroOnAbsentIsNoOp | src/BodyMorphInterface.cpp:701-723 | On a pruned store, setting 0 where the value already reads 0 changes nothing |
| WeightStore.SetZeroOnExistingIsNoOp | src/BodyMorphInterface.cpp:708-722 | For an actor with a map, setting 0 where the value already reads 0 changes nothing |
| WeightStore.Revert | src/BodyMorphInterface.cpp:1191-1196 | After Revert every read gives 0 and the store is valid, unshared and pruned |
| Persistence.SaveKeys | src/BodyMorphInterface.cpp:983-987 | Each key is written as its keyword word followed by its float |
| Persistence.MorphBody | src/BodyMorphInterface.cpp:978-988 | One morph's tokens are its string id, its key count truncated to 32 bits, then for each key in key order its keyword word and its float; two tokens per key plus two |
| Persistence.SaveMorphs | src/BodyMorphInterface.cpp:974-990 | Each morph, in the given order, is written at its offset as its string id and its key count, then its (keyword, value) pairs in key order; the tokens after the last morph are the rest of the stream |
| Persistence.SaveValueMap | src/BodyMorphInterface.cpp:965-991 | A value map starts with an `MRVM` header and its morph count |
| Persistence.SaveEntries | src/BodyMorphInterface.cpp:933-962 | Each actor record starts with the table's tag (`MRPM` male, `MRPH` female) and the actor's form id |
| Persistence.Save | src/BodyMorphInterface.cpp:928-963 | Nothing is written exactly when both tables are empty |
| Persistence.ReadRef | src/BodyMorphInterface.cpp:1037-1054 | Version 2 reads a u32 form id, version 1 a u64 handle, earlier versions read nothing |
| Persistence.Resolve | src/BodyMorphInterface.cpp:1066-1080 | A form id or handle resolves exactly when the resolver knows it, and keeps its kind |
| Persistence.KeywordOf | src/BodyMorphInterface.cpp:1082-1092 | A form id is a keyword exactly when the keyword lookup knows it, and then the keyword is that id |
| Persistence.ActorOf | src/BodyMorphInterface.cpp:1168-1176 | A form id names an actor exactly when the actor lookup knows it, and then the actor is that id; no reference names no actor |
| Persistence.AddPair | src/BodyMorphInterface.cpp:1063-1092 | A zero value or an unresolvable reference leaves the table as it is; otherwise the resolved keyword's key (0 for a non-keyword) is present afterwards, existing keys keep their values, a new key gets the value read, and a zero-free table stays zero-free |
| Persistence.LoadKeys | src/BodyMorphInterface.cpp:1035-1093 | Keys already loaded are kept and no zero value is ever stored |
| Persistence.LoadMorphs | src/BodyMorphInterface.cpp:1011-1101 | Morphs already loaded are kept, the map stays pruned, and an unknown string id fails the load |
| Persistence.LoadValueMap | src/BodyMorphInterface.cpp:993-1113 | No record leaves an empty map; a record other than `MRVM` fails; a loaded map is pruned |
| Persistence.LoadActor | src/BodyMorphInterface.cpp:1116-1189 | A successful load with morphs disabled leaves the store unchanged; otherwise it only adds a non-empty pruned map for a new actor of that table (existing entries win) |
| Persistence.Adopt | src/BodyMorphInterface.cpp:1181 | After the emplace the actor has an entry: its old map if it had one, otherwise the loaded map; every other entry of either table is unchanged |
| Persistence.KeysRoundTrip | src/BodyMorphInterface.cpp:1035-1093 | Loading saved keys (non-zero, resolvable) recovers exactly those keys and stops after them |
| Persistence.MorphKeysRoundTrip | src/BodyMorphInterface.cpp:980-1093 | The key count written for a morph is its key count, and loading that many keys gives back the morph's whole UserValues |
| Persistence.MorphsRoundTrip | src/BodyMorphInterface.cpp:1011-1101 | Loading the saved morphs of a pruned map whose names and keywords resolve recovers each of them |
| Persistence.ValueMapRoundTrip | src/BodyMorphInterface.cpp:965-1113 | Loading a saved pruned value map whose names and keywords resolve gives the map back and stops after it |
| Persistence.LoadOfSave | src/BodyMorphInterface.cpp:928-1189 | Loading everything saved places each saved actor's map into the starting store, male table first, each actor once |
| Persistence.StoreRoundTrip | src/BodyMorphInterface.cpp:928-1189 | From empty tables, loading what was saved from a pruned store whose references resolve restores every actor's map |
| Persistence.ZeroValueDropped | src/BodyMorphInterface.cpp:1063-1064 | A zero value is read and dropped |
| Persistence.UnresolvedKeywordDropped | src/BodyMorphInterface.cpp:1069-1073 | A keyword form id that no longer resolves is read and dropped |
| Persistence.NonKeywordStoredUnderZero | src/BodyMorphInterface.cpp:1082-1092 | A form id that resolves to something other than a keyword stores its value under key 0 |
| Persistence.HandleKeyLoaded | src/BodyMorphInterface.cpp:1047-1092 | Version 1 reads a u64 handle per key and stores the value under the keyword it resolves to |
| Persistence.FormIdIsNoHandle | src/BodyMorphInterface.cpp:1047-1054 | In the typed token stream, a u32 token where a version 1 record needs its u64 handle is a failed read |
| Persistence.EmptyMorphSkipped | src/BodyMorphInterface.cpp:1095-1096 | A morph with no surviving keys is not stored |
| Persistence.DisabledReadsThenDrops | src/BodyMorphInterface.cpp:1138-1147 | With morphs disabled the record is read exactly as when enabled (same failures, same remaining stream) and then discarded |
| Persistence.UnresolvedActorDropped | src/BodyMorphInterface.cpp:1152-1156 | An actor that no longer resolves is read, stores nothing, and the load still succeeds |
| KdTree.Add | include/kd_matcher.hpp:169-195 | add keeps the root and stores the new point once more in the tree |
| KdTree.AddKeepsOrdered | include/kd_matcher.hpp:169-195 | add keeps the search-tree invariant: below a node, `more` holds points strictly smaller on the level's axis and `less` the rest |
| KdTree.Build | include/kd_matcher.hpp:113-120 | A count of 0 or less leaves the root unset; otherwise point 0 is the root and the tree holds points 0 .. count-1 with their indices |
| KdTree.GrowOrdered | include/kd_matcher.hpp:113-120 | The constructor's loop of adds builds a search tree |
| KdTree.BuildStoresEachPointOnce | include/kd_matcher.hpp:113-120 | Every one of the count points is stored exactly once, under its own index, in a search tree of count entries |
| KdMatcher.Insert | include/kd_matcher.hpp:62-91 | A hit returns a stored point within eps on all three axes and leaves the tree unchanged; a miss stores the new point once more |
| KdMatcher.InsertFollowsSearchPath | include/kd_matcher.hpp:62-91 | add returns the first point within eps along the new point's search path, and without one it is kd_tree's add |
| KdMatcher.InsertKeepsOrdered | include/kd_matcher.hpp:62-91 | add keeps the search-tree invariant |
| KdMatcher.FirstNear | include/kd_matcher.hpp:69-70 | The first entry on a path within eps on all axes; none exactly when no entry is near |
| KdMatcher.StoredPointIsMatched | include/kd_matcher.hpp:62-91 | Inserting a copy of a stored point always returns a match |
| KdMatcher.Matching | include/kd_matcher.hpp:24-36 | A count of 0 or less gives no root and no matches; otherwise point 0 is the root, every point is either stored or the new point of one match, and each match pairs a later point with an earlier stored one within eps |
| KdMatcher.MatchFirst | include/kd_matcher.hpp:24-36 | After points 1 .. n-1, the tree and matches account for every point once, and every match is sound |
| KdMatcher.StepCounts | include/kd_matcher.hpp:28-35 | One loop step adds the new point either to the tree or to the matched points |
| KdMatcher.MatchFirstCatches | include/kd_matcher.hpp:24-36 | After inserting points 1 .. n-1 the tree is a search tree, and the search path of every point so far meets a stored point within eps |
| KdMatcher.MatchFirstMatchesCopies | include/kd_matcher.hpp:24-36 | After inserting points 1 .. n-1, every point equal to an earlier one appears as the new point of a match |
| KdMatcher.ExactCopiesAreMatched | include/kd_matcher.hpp:24-36 | A point equal to an earlier point is among the matched points |
| KdQuery.ToHit | include/kd_matcher.hpp:246-252 | A result records the point, its index as a uint16_t and its distance to the query |
| KdQuery.Visit | include/kd_matcher.hpp:246-260 | Visiting a node never raises the minimum and appends at most that node's result |
| KdQuery.Find | include/kd_matcher.hpp:199-275 | find_closest never raises the running minimum |
| KdQuery.Around | include/kd_matcher.hpp:234-274 | Searching the near side, then the node, then the far side never raises the running minimum |
| KdQuery.InsertByDistance | include/kd_matcher.hpp:105-107 | Inserting into a sorted list keeps it sorted and adds exactly that result |
| KdQuery.SortByDistance | include/kd_matcher.hpp:105-107 | Results are reordered, not changed, into ascending distance |
| KdQuery.Nn | include/kd_matcher.hpp:129-139 | kd_nn starts from an empty list, returns the number of results, and the results are find_closest's sorted by distance |
| KdQuery.FindAppends | include/kd_matcher.hpp:199-275 | find_closest only appends, and only results for points of the tree |
| KdQuery.RadiusSearch | include/kd_matcher.hpp:246-273 | With radius > 0 the walk appends exactly the points within the radius, each once, whatever it prunes |
| KdQuery.NearestSearch | include/kd_matcher.hpp:246-273 | With radius 0 the final minimum is no farther than any point of the tree, and the last result appended is at that minimum |
| KdQuery.NnWithinRadius | include/kd_matcher.hpp:129-139 | For radius > 0, kd_nn returns exactly the input points within the radius, each once, sorted, with the count returned |
| KdQuery.NnNearestFirst | include/kd_matcher.hpp:129-139 | For radius 0, the first sorted result is an input point no farther than any other, and there is a result whenever some point is nearer than FLT_MAX |
| KdQuery.NnHeadIsCandidate | include/kd_matcher.hpp:129-139 | The first radius-0 result is the result of an input point |
| KdQuery.NnHeadIsNearest | include/kd_matcher.hpp:129-139 | The first radius-0 result is no farther than any input point |
| KdQuery.NnFindsSome | include/kd_matcher.hpp:129-139 | A radius-0 query finds something whenever some input point is nearer than FLT_MAX |
| KdQuery.NnNegativeRadius | include/kd_matcher.hpp:129-139 | A negative radius becomes the starting minimum, so nothing is found |
| KdQuery.RadiusZeroKeepsFartherCandidates | include/kd_matcher.hpp:197-198 | For the points (0,0,0), (1,0,0), (5,5,5) queried at (0.1,0,0) with any distance that puts them at non-decreasing distances within FLT_MAX (Euclidean distance does), the radius-0 search returns all three points, not the single closest one; the first is at the nearest distance |
| KdQuery.SquaredEuclideanOrdersThree | include/kd_matcher.hpp:197-198 | Straight-line distance (through its square, which orders points the same way) puts the three example points at non-decreasing distances within FLT_MAX |
| KdQuery.NearestOnlyIsSingleClosest | include/kd_matcher.hpp:197-198 | Keeping only the first sorted result yields at most one point, the closest one, whenever some point is nearer than FLT_MAX |

## Left out

- Truncated input: the stream class is not part of this model, so its short-read behaviour (zero-filled fields, the loop running on) is unknown. The decoder treats any read past the end as a failure (`Truncated`). That failure carries no warnings; only a too-many-vertices failure reports the warnings logged before it.
- Floating point: vertices, values and distances are reals. Float fields of a .tri file go through an abstract decoder `f32`. `DistanceTo` and `EPSILON` are parameters.
- Locks, `parallel_for_each` and the unlocked update of the cache total: the cache is modelled single-threaded.
- MorphCache.MemoryUsage: `sizeof(TriShapeMap)` and `sizeof(std::unordered_map)` depend on the platform; the model takes the x64 values 88 and 64.
- Persistence.LoadRecords: the loop that hands each `MRPM`/`MRPH` record to `Load` is the plugin's serialization callback, which is not part of this model. LoadRecords is a stand-in that stops at the first failure.
- Record framing (`OpenRecord`, `GetNextRecordInfo`) is one header token. The length field is not modelled.
- Unordered-map iteration order is a parameter: a listing of the keys (every key once) for `ShrinkMorphCache` and the blend, and a fixed enumeration for `Save`.
- Weights.GetKeywords, WeightStore.GetKeywords, WeightStore.GetMorphs: the source appends to a vector the caller passes in, without clearing it. It appends `LookupFormByID` pointers for keywords, and for morphs it skips null names. The model returns the set of keyword ids or names, so it says nothing about the caller's earlier contents, duplicates, order or unresolved pointers.
- Persistence.FormIdIsNoHandle: the serialization stream is a sequence of typed tokens, so a token of the wrong width fails to read. The source's `ReadData<UInt64>` would instead take the next 8 raw bytes, the u32 and what follows it, as the handle.
- The string table, `ResolveFormId`, `ResolveHandle`, `LookupFormByID` and the Papyrus handle lookup are partial maps passed in.
- `std::time` is an abstract `now` argument.
- WeightStore.CloneMorphs: the source reads the source actor's sex from its NPC record; the model takes that sex as an argument.
- KdQuery.SortByDistance: `std::sort` leaves the order of equal distances unspecified; the model states only ascending order and the same multiset.
- KdQuery.ToHit: the stored index is the point's index modulo 2^16, as a `uint16_t` holds it; no other integer width is modelled in the KD-trees.
- KdTree.Build: with a count of 0 or less the source leaves `root` uninitialised; the model returns None, and `kd_nn` requires a root.
- Slider loading, the scene-graph and renderer glue, geometry cloning and update queueing are outside the modelled core.

## Findings

| source | as written | input that shows it | evidently intended | confidence | as-written member | corrected member |
|---|---|---|---|---|---|---|
| src/BodyMorphInterface.cpp:680-681 | `relativePath == ""` compares the pointer with a string literal's address, so an empty path built at run time passes and becomes "meshes\\" | a runtime empty string | an empty path gives an empty key | not executed; high for non-literal callers | MorphCache.PrefixAsWrittenOfEmpty | MorphCache.PrefixMeshPath |
| src/BodyMorphInterface.cpp:130-132 | the same pointer comparison guards `GetTrishapeMap`, so an empty path is looked up, parsed and cached | a runtime empty string with a readable file under it | an empty path returns nothing and caches nothing | not executed; high for non-literal callers | MorphCache.EmptyPathPassesGuard | MorphCache.Lookup |
| include/kd_matcher.hpp:197-198 | with radius 0 the walk appends every point that lowered the running minimum, so farther candidates stay in the list | points (0,0,0), (1,0,0), (5,5,5) queried at (0.1,0,0) with Euclidean distance, or any distance ordering them the same way | only the single closest point is returned | not executed; high | KdQuery.RadiusZeroKeepsFartherCandidates | KdQuery.NearestOnlyIsSingleClosest |

=== FILE: blend.dfy ===
/**
 * The blend loop of ApplyMorphsToShape: every morph of the actor whose
 * effective value is non-zero and that the shape defines is added into the
 * cloned vertex buffer at that value. Over the reals the outcome does not
 * depend on the order the actor's map is visited in.
 */
module Blend {
  import opened Wrappers
  import opened Bytes
  import opened Geometry
  import opened VertexDeltas
  import opened Listing
  import W = Weights

  /** BodyMorphMap: morph name -> vertex data of one shape. */
  type ShapeMorphs = map<W.Name, MorphData>

  /**
   * What one morph of the actor adds to vertex i: nothing if its effective
   * value is 0 or the shape lacks it (the loop only visits names the actor's
   * map holds).
   */
  function Share(actorMorphs: W.MorphValueMap, shape: ShapeMorphs, name: W.Name, i: nat): Vec3 {
    if name !in actorMorphs then Origin
    else
      var eff := W.EffectiveValue(actorMorphs[name]);
      if eff == 0.0 || name !in shape then Origin
      else Contribution(shape[name], DeltaCount(shape[name]), i, eff)
  }

  /** Sum of the shares of the morphs in `order`. */
  function Total(actorMorphs: W.MorphValueMap, shape: ShapeMorphs, order: seq<W.Name>, i: nat): Vec3 {
    if |order| == 0 then Origin
    else Add(Total(actorMorphs, shape, order[..|order| - 1], i),
             Share(actorMorphs, shape, order[|order| - 1], i))
  }

  /** The sum of f over a sequence, last element added last. */
  function SumOf<T>(f: T -> Vec3, s: seq<T>): Vec3 {
    if |s| == 0 then Origin else Add(SumOf(f, s[..|s| - 1]), f(s[|s| - 1]))
  }

  lemma {:induction false} TotalIsSum(actorMorphs: W.MorphValueMap, shape: ShapeMorphs,
                                      order: seq<W.Name>, i: nat, f: W.Name -> Vec3)
    requires forall n :: f(n) == Share(actorMorphs, shape, n, i)
    ensures Total(actorMorphs, shape, order, i) == SumOf(f, order)
  {
    if |order| > 0 {
      TotalIsSum(actorMorphs, shape, order[..|order| - 1], i, f);
    }
  }

  lemma {:induction false} SumConcat<T>(f: T -> Vec3, a: seq<T>, b: seq<T>)
    ensures SumOf(f, a + b) == Add(SumOf(f, a), SumOf(f, b))
  {
    if |b| == 0 {
      assert a + b == a;
    } else {
      var b' := b[..|b| - 1];
      assert (a + b)[..|a + b| - 1] == a + b';
      SumConcat(f, a, b');
    }
  }

  lemma AddSwap(a: Vec3, b: Vec3, c: Vec3)
    ensures Add(Add(a, b), c) == Add(Add(a, c), b)
  {
  }

  lemma MultisetRemoveAt<T>(s: seq<T>, j: nat)
    requires j < |s|
    ensures multiset(s[..j] + s[j + 1..]) == multiset(s) - multiset{s[j]}
  {
    assert s == s[..j] + [s[j]] + s[j + 1..];
  }

  /** Taking one term out of the middle and adding it last leaves the sum unchanged. */
  lemma SumRemoveAt<T>(f: T -> Vec3, s: seq<T>, j: nat)
    requires j < |s|
    ensures SumOf(f, s) == Add(SumOf(f, s[..j] + s[j + 1..]), f(s[j]))
  {
    var x := s[j];
    var a, b := s[..j], s[j + 1..];
    assert s == (a + [x]) + b;
    SumConcat(f, a + [x], b);
    assert (a + [x])[..|a + [x]| - 1] == a;
    assert SumOf(f, a + [x]) == Add(SumOf(f, a), f(x));
    SumConcat(f, a, b);
    AddSwap(SumOf(f, a), f(x), SumOf(f, b));
  }

  /** A sum does not depend on the order of its terms. */
  lemma {:induction false} SumPermutation<T>(f: T -> Vec3, o1: seq<T>, o2: seq<T>)
    requires multiset(o1) == multiset(o2)
    ensures SumOf(f, o1) == SumOf(f, o2)
    decreases |o1|
  {
    if |o1| == 0 {
      assert |o2| == |multiset(o2)| == 0;
    } else {
      var x := o1[|o1| - 1];
      var rest1 := o1[..|o1| - 1];
      MultisetRemoveAt(o1, |o1| - 1);
      assert o1[..|o1| - 1] + o1[|o1|..] == rest1;
      assert x in multiset(o2);
      var j :| 0 <= j < |o2| && o2[j] == x;
      MultisetRemoveAt(o2, j);
      SumPermutation(f, rest1, o2[..j] + o2[j + 1..]);
      SumRemoveAt(f, o2, j);
    }
  }

  lemma TotalPermutation(actorMorphs: W.MorphValueMap, shape: ShapeMorphs,
                         o1: seq<W.Name>, o2: seq<W.Name>, i: nat)
    requires multiset(o1) == multiset(o2)
    ensures Total(actorMorphs, shape, o1, i) == Total(actorMorphs, shape, o2, i)
  {
    var f := (n: W.Name) => Share(actorMorphs, shape, n, i);
    TotalIsSum(actorMorphs, shape, o1, i, f);
    TotalIsSum(actorMorphs, shape, o2, i, f);
    SumPermutation(f, o1, o2);
  }

  /**
   * The share of every name in `keys`, each added once: the order-free sum
   * the blend loop computes over the actor's map.
   */
  ghost function MapTotal(actorMorphs: W.MorphValueMap, shape: ShapeMorphs, keys: set<W.Name>, i: nat): Vec3
    decreases keys
  {
    if keys == {} then Origin
    else Add(MapTotal(actorMorphs, shape, keys - {Pick(keys)}, i), Share(actorMorphs, shape, Pick(keys), i))
  }

  /** Summing along any repetition-free listing of a set of names gives the order-free sum. */
  lemma {:induction false} TotalIsMapTotal(actorMorphs: W.MorphValueMap, shape: ShapeMorphs,
                                           order: seq<W.Name>, keys: set<W.Name>, i: nat)
    requires Distinct(order) && forall n :: n in order <==> n in keys
    ensures Total(actorMorphs, shape, order, i) == MapTotal(actorMorphs, shape, keys, i)
    decreases |order|
  {
    if keys == {} {
      NoneListed(order, keys);
    } else {
      var k := Pick(keys);
      var j :| 0 <= j < |order| && order[j] == k;
      var rest := order[..j] + order[j + 1..];
      RemoveAtListing(order, keys, j);
      TotalIsMapTotal(actorMorphs, shape, rest, keys - {k}, i);
      var f := (n: W.Name) => Share(actorMorphs, shape, n, i);
      TotalIsSum(actorMorphs, shape, order, i, f);
      TotalIsSum(actorMorphs, shape, rest, i, f);
      SumRemoveAt(f, order, j);
    }
  }

  /** A listing of the empty set is empty. */
  lemma NoneListed(order: seq<W.Name>, keys: set<W.Name>)
    requires forall n :: n in order <==> n in keys
    ensures keys == {} ==> order == []
  {
    if order != [] {
      assert order[0] in keys;
    }
  }

  /** Taking position j out of a listing of keys lists keys without order[j]. */
  lemma RemoveAtListing(order: seq<W.Name>, keys: set<W.Name>, j: nat)
    requires Distinct(order) && forall n :: n in order <==> n in keys
    requires j < |order|
    ensures Distinct(order[..j] + order[j + 1..])
    ensures forall n :: n in order[..j] + order[j + 1..] <==> n in keys - {order[j]}
  {
    var k := order[j];
    var rest := order[..j] + order[j + 1..];
    assert order == order[..j] + [k] + order[j + 1..];
    forall n ensures n in rest <==> n in keys - {k} {
      if n in rest {
        var p :| 0 <= p < |rest| && rest[p] == n;
        if p < j { assert order[p] == n && p != j; } else { assert order[p + 1] == n && p + 1 != j; }
      }
    }
    forall a, b | 0 <= a < b < |rest| ensures rest[a] != rest[b] {
      var a' := if a < j then a else a + 1;
      var b' := if b < j then b else b + 1;
      assert rest[a] == order[a'] && rest[b] == order[b'] && a' < b';
    }
  }

  /** Every name of the set contributes its share exactly once, whichever is taken out first. */
  lemma EachMorphOnce(actorMorphs: W.MorphValueMap, shape: ShapeMorphs, keys: set<W.Name>, k: W.Name, i: nat)
    requires k in keys
    ensures MapTotal(actorMorphs, shape, keys, i)
         == Add(MapTotal(actorMorphs, shape, keys - {k}, i), Share(actorMorphs, shape, k, i))
  {
    var rest := ListOf(keys - {k});
    var order := rest + [k];
    assert order[..|order| - 1] == rest;
    assert Distinct(order) by {
      assert k !in rest;
    }
    TotalIsMapTotal(actorMorphs, shape, order, keys, i);
    TotalIsMapTotal(actorMorphs, shape, rest, keys - {k}, i);
  }

  /**
   * The first steps of the loop over the actor's morphs, in the order
   * `order`: skip on a zero effective value, skip when the shape has no such
   * morph, otherwise ApplyMorph with the effective value as factor.
   */
  function BlendSteps(actorMorphs: W.MorphValueMap, shape: ShapeMorphs, order: seq<W.Name>,
                      vertCount: U16, verts: seq<Vec3>): (r: seq<Vec3>)
    requires forall n :: n in order ==> n in actorMorphs
    requires vertCount as int <= |verts|
    ensures |r| == |verts|
    ensures forall i :: 0 <= i < vertCount ==> r[i] == Add(verts[i], Total(actorMorphs, shape, order, i))
    ensures forall i :: vertCount <= i < |verts| ==> r[i] == verts[i]
  {
    if |order| == 0 then verts
    else
      var prev := BlendSteps(actorMorphs, shape, order[..|order| - 1], vertCount, verts);
      var name := order[|order| - 1];
      var eff := W.EffectiveValue(actorMorphs[name]);
      if eff == 0.0 then prev
      else if name !in shape then prev
      else
        var (next, _) := ApplyMorph(shape[name], vertCount, Some(prev), eff);
        next.value
  }

  /**
   * The whole loop, visiting the actor's map in one of its iteration orders:
   * each vertex below the count gains the share of every morph of the actor,
   * each morph once, whatever the order.
   */
  function BlendInOrder(actorMorphs: W.MorphValueMap, shape: ShapeMorphs, order: seq<W.Name>,
                        vertCount: U16, verts: seq<Vec3>): (r: seq<Vec3>)
    requires Lists(order, actorMorphs)
    requires vertCount as int <= |verts|
    ensures |r| == |verts|
    ensures forall i :: 0 <= i < vertCount ==> r[i] == Add(verts[i], MapTotal(actorMorphs, shape, actorMorphs.Keys, i))
    ensures forall i :: vertCount <= i < |verts| ==> r[i] == verts[i]
  {
    ListingTotal(actorMorphs, shape, order);
    BlendSteps(actorMorphs, shape, order, vertCount, verts)
  }

  /** Along an iteration order of the actor's map, the running sum is the order-free sum. */
  lemma ListingTotal(actorMorphs: W.MorphValueMap, shape: ShapeMorphs, order: seq<W.Name>)
    requires Lists(order, actorMorphs)
    ensures forall i: nat :: Total(actorMorphs, shape, order, i) == MapTotal(actorMorphs, shape, actorMorphs.Keys, i)
  {
    forall i: nat ensures Total(actorMorphs, shape, order, i) == MapTotal(actorMorphs, shape, actorMorphs.Keys, i) {
      TotalIsMapTotal(actorMorphs, shape, order, actorMorphs.Keys, i);
    }
  }

  /** Visiting the actor's map in any two of its iteration orders gives the same buffer. */
  lemma BlendOrderIndependent(actorMorphs: W.MorphValueMap, shape: ShapeMorphs,
                              o1: seq<W.Name>, o2: seq<W.Name>, vertCount: U16, verts: seq<Vec3>)
    requires Lists(o1, actorMorphs) && Lists(o2, actorMorphs)
    requires vertCount as int <= |verts|
    ensures BlendSteps(actorMorphs, shape, o1, vertCount, verts)
         == BlendSteps(actorMorphs, shape, o2, vertCount, verts)
  {
    ListingsAgree(o1, o2, actorMorphs);
    var r1 := BlendSteps(actorMorphs, shape, o1, vertCount, verts);
    var r2 := BlendSteps(actorMorphs, shape, o2, vertCount, verts);
    forall i | 0 <= i < |verts|
      ensures r1[i] == r2[i]
    {
      if i < vertCount as int {
        TotalPermutation(actorMorphs, shape, o1, o2, i);
      }
    }
  }

  /**
   * The exits of ApplyMorphsToShape before the blend: no parsed file, no
   * morphs for this shape, or no weights for the actor leave the mesh as it
   * is (None); otherwise the blended copy of the buffer replaces it.
   */
  function MorphShape(shapes: Option<map<W.Name, ShapeMorphs>>, shapeName: W.Name,
                      actorMorphs: Option<W.MorphValueMap>, order: seq<W.Name>,
                      vertCount: U16, verts: seq<Vec3>): (r: Option<seq<Vec3>>)
    requires actorMorphs.Some? ==> Lists(order, actorMorphs.value)
    requires vertCount as int <= |verts|
    ensures r.Some? <==> shapes.Some? && shapeName in shapes.value && actorMorphs.Some?
    ensures r.Some? ==> |r.value| == |verts|
    ensures r.Some? ==> forall i :: 0 <= i < vertCount ==>
      r.value[i] == Add(verts[i], MapTotal(actorMorphs.value, shapes.value[shapeName], actorMorphs.value.Keys, i))
    ensures r.Some? ==> forall i :: vertCount <= i < |verts| ==> r.value[i] == verts[i]
  {
    if shapes.None? || shapeName !in shapes.value || actorMorphs.None? then None
    else Some(BlendInOrder(actorMorphs.value, shapes.value[shapeName], order, vertCount, verts))
  }

  /** A morph weighted 1 with a full delta on vertex 0 moves that vertex by the delta. */
  lemma WeightedMorphApplied()
    ensures MorphShape(Some(map["body" := map["Thin" := Full([FullDelta(0, Vec3(1.0, 0.0, 0.0))])]]), "body",
                       Some(map["Thin" := map[0 := 1.0]]), ["Thin"], 1, [Origin])
         == Some([Vec3(1.0, 0.0, 0.0)])
  {
    var md := Full([FullDelta(0, Vec3(1.0, 0.0, 0.0))]);
    var shape: ShapeMorphs := map["Thin" := md];
    var uv: W.UserValues := map[0 := 1.0];
    var m: W.MorphValueMap := map["Thin" := uv];
    assert Lists(["Thin"], m);
    assert W.EffectiveValue(uv) == 1.0 by {
      assert uv.Keys == {0};
    }
    assert ApplyPrefix(md, 0, 1, [Origin], 1.0) == ([Origin], false);
    assert [Origin][0 := Add(Origin, Scale(Vec3(1.0, 0.0, 0.0), 1.0))] == [Vec3(1.0, 0.0, 0.0)];
    assert ApplyPrefix(md, 1, 1, [Origin], 1.0) == ([Vec3(1.0, 0.0, 0.0)], false);
    assert Share(m, shape, "Thin", 0) == Vec3(1.0, 0.0, 0.0);
    assert m.Keys == {"Thin"} && Pick(m.Keys) == "Thin" && m.Keys - {"Thin"} == {};
    assert MapTotal(m, shape, m.Keys, 0) == Vec3(1.0, 0.0, 0.0);
    var r := BlendInOrder(m, shape, ["Thin"], 1, [Origin]);
    assert |r| == 1 && r[0] == Add(Origin, Vec3(1.0, 0.0, 0.0));
    assert r == [Vec3(1.0, 0.0, 0.0)];
  }
}

=== FILE: bytes.dfy ===
/** Bytes, little-endian unsigned and two's-complement fields, and NUL-terminated names. */
module Bytes {

  type Byte = b: int | 0 <= b < 256

  const TwoTo16: nat := 0x1_0000
  const TwoTo32: nat := 0x1_0000_0000
  const TwoTo64: nat := 0x1_0000_0000_0000_0000

  type U16 = v: int | 0 <= v < TwoTo16
  type S16 = v: int | -0x8000 <= v < 0x8000
  type U32 = v: int | 0 <= v < TwoTo32
  type U64 = v: int | 0 <= v < TwoTo64

  function Pow256(n: nat): (r: nat)
    ensures r > 0
  {
    if n == 0 then 1 else 256 * Pow256(n - 1)
  }

  /** The unsigned value of a little-endian byte string. */
  function DecodeLE(bs: seq<Byte>): (v: nat)
    ensures v < Pow256(|bs|)
  {
    if |bs| == 0 then 0 else bs[0] + 256 * DecodeLE(bs[1..])
  }

  /** The n low-order bytes of v, least significant first. */
  function EncodeLE(v: nat, n: nat): (bs: seq<Byte>)
    ensures |bs| == n
  {
    if n == 0 then [] else [v % 256] + EncodeLE(v / 256, n - 1)
  }

  lemma {:induction false} DecodeEncodeLE(v: nat, n: nat)
    requires v < Pow256(n)
    ensures DecodeLE(EncodeLE(v, n)) == v
  {
    if n > 0 {
      var bs := EncodeLE(v, n);
      assert bs[1..] == EncodeLE(v / 256, n - 1);
      DecodeEncodeLE(v / 256, n - 1);
    }
  }

  /** A stored SInt16 read back from its UInt16 bit pattern. */
  function ToSigned16(u: U16): S16 {
    if u < 0x8000 then u else u - TwoTo16
  }

  /** The UInt16 bit pattern of an SInt16. */
  function FromSigned16(s: S16): U16 {
    if s < 0 then s + TwoTo16 else s
  }

  lemma SignedRoundTrip(s: S16)
    ensures ToSigned16(FromSigned16(s)) == s
  {
  }

  /** Index of the first NUL byte, or the length when there is none. */
  function NulIndex(bs: seq<Byte>): (k: nat)
    ensures k <= |bs|
    ensures forall i :: 0 <= i < k ==> bs[i] != 0
    ensures k < |bs| ==> bs[k] == 0
  {
    if |bs| == 0 || bs[0] == 0 then 0 else 1 + NulIndex(bs[1..])
  }

  /**
   * The string a zero-filled char buffer holds after `bs` is copied into it:
   * the bytes up to the first NUL, each read as a character.
   */
  function CString(bs: seq<Byte>): (s: string)
    ensures |s| == NulIndex(bs)
    ensures forall i :: 0 <= i < |s| ==> s[i] as int == bs[i] && s[i] != 0 as char
  {
    seq(NulIndex(bs), i requires 0 <= i < NulIndex(bs) => bs[i] as char)
  }
}

=== FILE: geometry.dfy ===
/** Three-component points and displacements (NiPoint3 / Morpher::Vector3) over the reals. */
module Geometry {

  datatype Vec3 = Vec3(x: real, y: real, z: real)

  const Origin: Vec3 := Vec3(0.0, 0.0, 0.0)

  function Add(a: Vec3, b: Vec3): Vec3 {
    Vec3(a.x + b.x, a.y + b.y, a.z + b.z)
  }

  function Scale(a: Vec3, k: real): Vec3 {
    Vec3(a.x * k, a.y * k, a.z * k)
  }

  /** The coordinate a KD-tree level splits on: 0 is x, 1 is y, 2 is z. */
  function Coord(p: Vec3, axis: nat): real
    requires axis < 3
  {
    if axis == 0 then p.x else if axis == 1 then p.y else p.z
  }

  function Abs(r: real): real {
    if r < 0.0 then -r else r
  }
}

=== FILE: kd_matcher.dfy ===
/**
 * kd_matcher: the duplicate finder. Points are inserted in index order into
 * a KD-tree with the same branch test as kd_tree, except that the descent
 * stops at the first node whose point lies within eps of the new one on all
 * three axes; that pair is recorded and the new point is not stored.
 */
module KdMatcher {
  import opened Wrappers
  import opened Geometry
  import opened KdTree

  /** Within eps of each other on all three axes: kd_matcher's duplicate test (eps is EPSILON). */
  predicate Near(node: Vec3, q: Vec3, eps: real) {
    Abs(node.x - q.x) < eps && Abs(node.y - q.y) < eps && Abs(node.z - q.z) < eps
  }

  /** One entry of `matches`: the point being inserted and the stored point add returned for it. */
  datatype Match = Match(point: Entry, existing: Entry)

  /**
   * kd_matcher::kd_node::add: the tree after the call and the pair it
   * returns, None standing for (nullptr, -1).
   */
  function Insert(t: Tree, q: Entry, depth: nat, eps: real): (r: (Tree, Option<Entry>))
    ensures r.0.Node? && (t.Node? ==> r.0.e == t.e)
    ensures r.1.Some? ==> r.0 == t && r.1.value in Flatten(t) && Near(r.1.value.p, q.p, eps)
    ensures r.1.None? ==> multiset(Flatten(r.0)) == multiset(Flatten(t)) + multiset{q}
  {
    match t
    case Leaf => (Node(q, Leaf, Leaf), None)
    case Node(e, less, more) =>
      if Near(e.p, q.p, eps) then (t, Some(e))
      else if GoesMore(e.p, q.p, depth) then
        var (m, hit) := Insert(more, q, depth + 1, eps);
        (Node(e, less, m), hit)
      else
        var (l, hit) := Insert(less, q, depth + 1, eps);
        (Node(e, l, more), hit)
  }

  /** The entries a descent for q passes, root first, following the branch test alone. */
  function SearchPath(t: Tree, q: Vec3, depth: nat): seq<Entry>
    decreases t
  {
    match t
    case Leaf => []
    case Node(e, less, more) =>
      if GoesMore(e.p, q, depth) then [e] + SearchPath(more, q, depth + 1)
      else [e] + SearchPath(less, q, depth + 1)
  }

  /** The first entry of s near q, if any. */
  function FirstNear(s: seq<Entry>, q: Vec3, eps: real): (r: Option<Entry>)
    ensures r.Some? ==> r.value in s && Near(r.value.p, q, eps)
    ensures r.None? <==> forall x | x in s :: !Near(x.p, q, eps)
  {
    if s == [] then None
    else if Near(s[0].p, q, eps) then Some(s[0])
    else
      assert forall x | x in s :: x == s[0] || x in s[1..];
      FirstNear(s[1..], q, eps)
  }

  /**
   * The matcher's add is kd_tree's add with an early stop: it returns the
   * first entry on the search path near the new point, leaving the tree
   * alone, and when there is none it inserts exactly where kd_tree would.
   */
  lemma {:induction false} InsertFollowsSearchPath(t: Tree, q: Entry, depth: nat, eps: real)
    ensures Insert(t, q, depth, eps).1 == FirstNear(SearchPath(t, q.p, depth), q.p, eps)
    ensures Insert(t, q, depth, eps).1.None? ==> Insert(t, q, depth, eps).0 == KdTree.Add(t, q, depth)
  {
    match t
    case Leaf =>
    case Node(e, less, more) =>
      var next := if GoesMore(e.p, q.p, depth) then more else less;
      InsertFollowsSearchPath(next, q, depth + 1, eps);
      FirstNearCons(e, SearchPath(next, q.p, depth + 1), q.p, eps);
      assert SearchPath(t, q.p, depth) == [e] + SearchPath(next, q.p, depth + 1);
  }

  lemma FirstNearCons(e: Entry, rest: seq<Entry>, q: Vec3, eps: real)
    ensures FirstNear([e] + rest, q, eps) == if Near(e.p, q, eps) then Some(e) else FirstNear(rest, q, eps)
  {
    assert ([e] + rest)[0] == e && ([e] + rest)[1..] == rest;
  }

  /** The matcher's tree stays a search tree. */
  lemma InsertKeepsOrdered(t: Tree, q: Entry, depth: nat, eps: real)
    requires Ordered(t, depth)
    ensures Ordered(Insert(t, q, depth, eps).0, depth)
  {
    InsertFollowsSearchPath(t, q, depth, eps);
    AddKeepsOrdered(t, q, depth);
  }

  /**
   * An exact copy of a stored point is always caught: its descent follows
   * the stored point's own, so it meets that point, or an earlier near one.
   */
  lemma {:induction false} StoredPointIsMatched(t: Tree, x: Entry, q: Entry, depth: nat, eps: real)
    requires Ordered(t, depth) && x in Flatten(t) && q.p == x.p && 0.0 < eps
    ensures Insert(t, q, depth, eps).1.Some?
  {
    match t
    case Node(e, less, more) =>
      if !Near(e.p, q.p, eps) {
        assert x != e;
        assert x in Flatten(less) || x in Flatten(more);
        if GoesMore(e.p, q.p, depth) {
          StoredPointIsMatched(more, x, q, depth + 1, eps);
        } else {
          StoredPointIsMatched(less, x, q, depth + 1, eps);
        }
      }
  }

  /** The points of the matches that were caught as duplicates, in order. */
  function MatchedPoints(ms: seq<Match>): (r: seq<Entry>)
    ensures |r| == |ms| && forall k | 0 <= k < |ms| :: r[k] == ms[k].point
  {
    seq(|ms|, k requires 0 <= k < |ms| => ms[k].point)
  }

  /** What the constructor has built after n points: every match is sound and every point accounted for. */
  ghost predicate Accounts(points: seq<Vec3>, n: nat, t: Tree, ms: seq<Match>, eps: real)
    requires 1 <= n <= |points|
  {
    && t.Node? && t.e == Entry(points[0], 0)
    && multiset(Flatten(t)) + multiset(MatchedPoints(ms)) == multiset(Tagged(points, n))
    && (forall x | x in Flatten(t) :: x.i < n)
    && (forall m | m in ms ::
          && 1 <= m.point.i < n && m.point.p == points[m.point.i]
          && m.existing in Flatten(t) && m.existing.i < m.point.i
          && Near(m.existing.p, m.point.p, eps))
  }

  /** The constructor's state between loop iterations: the tree and the matches so far. */
  datatype Progress = Progress(tree: Tree, matches: seq<Match>)

  /** One iteration of the constructor's loop: add point n-1, recording the pair when add returns one. */
  function Step(points: seq<Vec3>, n: nat, s: Progress, eps: real): Progress
    requires 1 <= n <= |points|
  {
    var q := Entry(points[n - 1], n - 1);
    var (t', hit) := Insert(s.tree, q, 0, eps);
    Progress(t', if hit.Some? then s.matches + [Match(q, hit.value)] else s.matches)
  }

  /** The state after the root holds point 0 and points 1 .. n-1 have been added in order. */
  function MatchFirst(points: seq<Vec3>, n: nat, eps: real): (r: Progress)
    requires 1 <= n <= |points|
    ensures Accounts(points, n, r.tree, r.matches, eps)
  {
    if n == 1 then
      assert Tagged(points, 1) == [Entry(points[0], 0)];
      Progress(Node(Entry(points[0], 0), Leaf, Leaf), [])
    else
      var s := MatchFirst(points, n - 1, eps);
      StepAccounts(points, n, s, eps);
      Step(points, n, s, eps)
  }

  /** One constructor step keeps Accounts. */
  lemma StepAccounts(points: seq<Vec3>, n: nat, s: Progress, eps: real)
    requires 2 <= n <= |points| && Accounts(points, n - 1, s.tree, s.matches, eps)
    ensures Accounts(points, n, Step(points, n, s, eps).tree, Step(points, n, s, eps).matches, eps)
  {
    var q := Entry(points[n - 1], n - 1);
    var (t', hit) := Insert(s.tree, q, 0, eps);
    var ms' := if hit.Some? then s.matches + [Match(q, hit.value)] else s.matches;
    assert multiset(Tagged(points, n)) == multiset(Tagged(points, n - 1)) + multiset{q};
    StepCounts(s.tree, s.matches, q, eps, multiset(Tagged(points, n - 1)));
    InsertGrows(s.tree, q, eps);
    forall m | m in ms'
      ensures && 1 <= m.point.i < n && m.point.p == points[m.point.i]
              && m.existing in Flatten(t') && m.existing.i < m.point.i
              && Near(m.existing.p, m.point.p, eps)
    {
      if m !in s.matches {
        assert m == Match(q, hit.value);
      }
    }
  }

  /** One insertion adds the new point to the stored or to the matched points. */
  lemma StepCounts(t: Tree, ms: seq<Match>, q: Entry, eps: real, before: multiset<Entry>)
    requires multiset(Flatten(t)) + multiset(MatchedPoints(ms)) == before
    ensures var (t', hit) := Insert(t, q, 0, eps);
      multiset(Flatten(t')) + multiset(MatchedPoints(if hit.Some? then ms + [Match(q, hit.value)] else ms))
      == before + multiset{q}
  {
    var r := Insert(t, q, 0, eps);
    if r.1.Some? {
      MatchedAppend(ms, Match(q, r.1.value));
    }
  }

  /** Recording one more match records one more matched point. */
  lemma MatchedAppend(ms: seq<Match>, m: Match)
    ensures MatchedPoints(ms + [m]) == MatchedPoints(ms) + [m.point]
  {
  }

  /** Insertion loses no stored entry and stores nothing but the new point. */
  lemma InsertGrows(t: Tree, q: Entry, eps: real)
    ensures forall x | x in Flatten(t) :: x in Flatten(Insert(t, q, 0, eps).0)
    ensures forall x | x in Flatten(Insert(t, q, 0, eps).0) :: x in Flatten(t) || x == q
  {
    var r := Insert(t, q, 0, eps);
    GrowsBy(Flatten(t), Flatten(r.0), q);
  }

  /** kd_matcher after its constructor: the root (None when count <= 0 leaves it null) and the matches. */
  datatype Matcher = Matcher(root: Option<Tree>, matches: seq<Match>)

  /** The kd_matcher constructor. */
  function Matching(points: seq<Vec3>, count: int, eps: real): (r: Matcher)
    requires count <= |points|
    ensures r.root.None? <==> count <= 0
    ensures count <= 0 ==> r.matches == []
    ensures r.root.Some? ==> 0 < count && Accounts(points, count, r.root.value, r.matches, eps)
  {
    if count <= 0 then Matcher(None, [])
    else
      var s := MatchFirst(points, count, eps);
      Matcher(Some(s.tree), s.matches)
  }

  /** Adding a point below a tree only lengthens the search path of any other point. */
  lemma {:induction false} AddExtendsPath(t: Tree, q: Entry, p: Vec3, depth: nat)
    ensures SearchPath(t, p, depth) <= SearchPath(KdTree.Add(t, q, depth), p, depth)
  {
    match t
    case Leaf =>
    case Node(e, less, more) =>
      var t' := KdTree.Add(t, q, depth);
      var next := if GoesMore(e.p, p, depth) then more else less;
      var next' := if GoesMore(e.p, p, depth) then t'.more else t'.less;
      if next' != next {
        assert next' == KdTree.Add(next, q, depth + 1);
        AddExtendsPath(next, q, p, depth + 1);
      }
      PrefixCons(e, SearchPath(next, p, depth + 1), SearchPath(next', p, depth + 1));
  }

  lemma PrefixCons(e: Entry, a: seq<Entry>, b: seq<Entry>)
    requires a <= b
    ensures [e] + a <= [e] + b
  {
    assert ([e] + b)[..|[e] + a|] == [e] + b[..|a|];
  }

  /** Once a near entry is on a path, a longer path meets the same one first. */
  lemma {:induction false} FirstNearPrefix(a: seq<Entry>, b: seq<Entry>, q: Vec3, eps: real)
    requires a <= b && FirstNear(a, q, eps).Some?
    ensures FirstNear(b, q, eps) == FirstNear(a, q, eps)
  {
    if !Near(a[0].p, q, eps) {
      assert b[0] == a[0];
      FirstNearPrefix(a[1..], b[1..], q, eps);
    }
  }

  /** Point j would be caught by a near entry on its own search path. */
  predicate CaughtAt(points: seq<Vec3>, j: nat, t: Tree, eps: real)
    requires j < |points|
  {
    FirstNear(SearchPath(t, points[j], 0), points[j], eps).Some?
  }

  /** Every one of the first n points would be caught by a near entry on its own search path. */
  ghost predicate AllCaught(points: seq<Vec3>, n: nat, t: Tree, eps: real)
    requires n <= |points|
  {
    forall j | 0 <= j < n :: CaughtAt(points, j, t, eps)
  }

  /** If point i copies the earlier point j, point i is among the matched ones. */
  predicate CopyMatchedAt(points: seq<Vec3>, j: nat, i: nat, ms: seq<Match>)
    requires j < i < |points|
  {
    points[j] == points[i] ==> Entry(points[i], i) in MatchedPoints(ms)
  }

  /** Among the first n points, each exact copy of an earlier point is among the matched ones. */
  ghost predicate CopiesMatched(points: seq<Vec3>, n: nat, ms: seq<Match>)
    requires n <= |points|
  {
    forall j, i | 0 <= j < i < n :: CopyMatchedAt(points, j, i, ms)
  }

  /** A stored point is caught on its own search path. */
  lemma StoredIsCaught(t: Tree, q: Entry, eps: real)
    requires Ordered(t, 0) && q in Flatten(t) && 0.0 < eps
    ensures FirstNear(SearchPath(t, q.p, 0), q.p, eps).Some?
  {
    StoredPointIsMatched(t, q, q, 0, eps);
    InsertFollowsSearchPath(t, q, 0, eps);
  }

  /** One constructor step keeps the tree a search tree, keeps every earlier point caught and catches the new one. */
  lemma CatchStep(points: seq<Vec3>, n: nat, s: Progress, eps: real)
    requires 2 <= n <= |points| && 0.0 < eps && Ordered(s.tree, 0) && AllCaught(points, n - 1, s.tree, eps)
    ensures Ordered(Step(points, n, s, eps).tree, 0)
    ensures AllCaught(points, n, Step(points, n, s, eps).tree, eps)
  {
    var q := Entry(points[n - 1], n - 1);
    var (t', hit) := Insert(s.tree, q, 0, eps);
    InsertFollowsSearchPath(s.tree, q, 0, eps);
    InsertKeepsOrdered(s.tree, q, 0, eps);
    if hit.None? {
      forall j | 0 <= j < n - 1 ensures CaughtAt(points, j, t', eps) {
        assert CaughtAt(points, j, s.tree, eps);
        AddExtendsPath(s.tree, q, points[j], 0);
        FirstNearPrefix(SearchPath(s.tree, points[j], 0), SearchPath(t', points[j], 0), points[j], eps);
      }
      assert q in multiset(Flatten(t'));
      StoredIsCaught(t', q, eps);
      assert CaughtAt(points, n - 1, t', eps);
    } else {
      forall j | 0 <= j < n ensures CaughtAt(points, j, t', eps) {
        if j < n - 1 {
          assert CaughtAt(points, j, s.tree, eps);
        }
      }
    }
  }

  /** One constructor step matches the new point when it copies an earlier one. */
  lemma CopyStep(points: seq<Vec3>, n: nat, s: Progress, eps: real)
    requires 2 <= n <= |points| && AllCaught(points, n - 1, s.tree, eps) && CopiesMatched(points, n - 1, s.matches)
    ensures CopiesMatched(points, n, Step(points, n, s, eps).matches)
  {
    var q := Entry(points[n - 1], n - 1);
    var hit := Insert(s.tree, q, 0, eps).1;
    InsertFollowsSearchPath(s.tree, q, 0, eps);
    var ms' := Step(points, n, s, eps).matches;
    var before := MatchedPoints(s.matches);
    var after := MatchedPoints(ms');
    assert hit.Some? ==> after == before + [q];
    assert forall e | e in before :: e in after;
    forall j, i | 0 <= j < i < n ensures CopyMatchedAt(points, j, i, ms') {
      if points[j] == points[i] {
        if i == n - 1 {
          assert CaughtAt(points, j, s.tree, eps);
          assert q.p == points[j];
          assert hit.Some?;
        } else {
          assert CopyMatchedAt(points, j, i, s.matches);
        }
      }
    }
  }

  /** MatchFirst's tree is a search tree on which every point inserted so far is caught. */
  lemma {:induction false} MatchFirstCatches(points: seq<Vec3>, n: nat, eps: real)
    requires 1 <= n <= |points| && 0.0 < eps
    ensures Ordered(MatchFirst(points, n, eps).tree, 0)
    ensures AllCaught(points, n, MatchFirst(points, n, eps).tree, eps)
  {
    if n != 1 {
      var m := n - 1;
      MatchFirstCatches(points, m, eps);
      CatchStep(points, n, MatchFirst(points, m, eps), eps);
    } else {
      FirstPointCaught(points, eps);
    }
  }

  /** Every exact copy among the points MatchFirst has inserted is matched. */
  lemma {:induction false} MatchFirstMatchesCopies(points: seq<Vec3>, n: nat, eps: real)
    requires 1 <= n <= |points| && 0.0 < eps
    ensures CopiesMatched(points, n, MatchFirst(points, n, eps).matches)
  {
    if n != 1 {
      var m := n - 1;
      MatchFirstMatchesCopies(points, m, eps);
      MatchFirstCatches(points, m, eps);
      CopyStep(points, n, MatchFirst(points, m, eps), eps);
    } else {
      FirstPointCaught(points, eps);
    }
  }

  /** The root alone: point 0 is caught at the root, and there is no earlier point to copy. */
  lemma FirstPointCaught(points: seq<Vec3>, eps: real)
    requires 1 <= |points| && 0.0 < eps
    ensures Ordered(MatchFirst(points, 1, eps).tree, 0)
    ensures AllCaught(points, 1, MatchFirst(points, 1, eps).tree, eps)
    ensures CopiesMatched(points, 1, MatchFirst(points, 1, eps).matches)
  {
    var e := Entry(points[0], 0);
    assert MatchFirst(points, 1, eps).tree == Node(e, Leaf, Leaf);
    assert SearchPath(Node(e, Leaf, Leaf), points[0], 0) == [e];
    assert Near(e.p, points[0], eps);
    assert CaughtAt(points, 0, Node(e, Leaf, Leaf), eps);
  }

  /**
   * With a positive EPSILON, the constructor puts every exact copy of an
   * earlier point into `matches` as the new point of a pair.
   */
  lemma ExactCopiesAreMatched(points: seq<Vec3>, count: int, eps: real, j: nat, i: nat)
    requires 0 <= j < i < count <= |points| && points[j] == points[i] && 0.0 < eps
    ensures Entry(points[i], i) in MatchedPoints(Matching(points, count, eps).matches)
  {
    MatchFirstMatchesCopies(points, count, eps);
    assert CopyMatchedAt(points, j, i, MatchFirst(points, count, eps).matches);
  }
}

=== FILE: kd_query.dfy ===
/**
 * kd_tree's searches: find_closest walks the tree from the root, descending
 * first into the branch on the query's side of each splitting plane, and
 * kd_nn clears the result list, runs that walk and sorts the results by
 * distance. The distance function is a parameter: all the pruning argument
 * needs is that it is non-negative and bounds every single-axis difference.
 */
module KdQuery {
  import opened Wrappers
  import opened Geometry
  import opened KdTree

  /** kd_query_result; vertexIndex is a uint16_t, so the node's index is kept modulo 2^16. */
  datatype Hit = Hit(v: Vec3, vertexIndex: nat, distance: real)

  /** The list find_closest appends to and the running minimum it passes by reference. */
  datatype Found = Found(results: seq<Hit>, mindist: real)

  /** kd_nn's answer: the result list and the count it returns. */
  datatype Answer = Answer(results: seq<Hit>, count: int)

  /** FLT_MAX, the starting minimum of a radius-0 search. */
  const FltMax: real := 340282346638528859811704183484516925440.0

  /** A distance never negative and never below the gap on any one axis. */
  ghost predicate DistanceLike(dist: (Vec3, Vec3) -> real) {
    forall a, b :: && dist(a, b) >= 0.0
                   && dist(a, b) >= Abs(a.x - b.x)
                   && dist(a, b) >= Abs(a.y - b.y)
                   && dist(a, b) >= Abs(a.z - b.z)
  }

  /** The record find_closest pushes for a node's entry. */
  function ToHit(x: Entry, q: Vec3, dist: (Vec3, Vec3) -> real): (h: Hit)
    ensures h.v == x.p && h.vertexIndex < 0x1_0000 && h.distance == dist(q, x.p)
    ensures x.i < 0x1_0000 ==> h.vertexIndex == x.i
  {
    Hit(x.p, x.i % 0x1_0000, dist(q, x.p))
  }

  /** Distance from the query point to the node's splitting plane. */
  function AxisDist(p: Vec3, q: Vec3, depth: nat): real {
    Abs(Coord(p, depth % 3) - Coord(q, depth % 3))
  }

  /** The check of the node's own point on the way back out of the near branch. */
  function Visit(s: Found, e: Entry, q: Vec3, radius: real, dist: (Vec3, Vec3) -> real): (r: Found)
    ensures r.mindist <= s.mindist
    ensures r.results == s.results || r.results == s.results + [ToHit(e, q, dist)]
  {
    var pd := dist(q, e.p);
    if pd <= s.mindist then Found(s.results + [ToHit(e, q, dist)], pd)
    else if radius > s.mindist then
      if pd <= radius then Found(s.results + [ToHit(e, q, dist)], s.mindist) else s
    else s
  }

  /**
   * Whether find_closest goes on into the branch away from the query: with a
   * non-zero radius when the splitting plane lies within it, with radius 0
   * when the plane is strictly nearer than the running minimum.
   */
  predicate SearchAway(p: Vec3, q: Vec3, radius: real, mindist: real, depth: nat) {
    if radius != 0.0 then radius >= AxisDist(p, q, depth) else AxisDist(p, q, depth) < mindist
  }

  /** Number of nodes: the measure the mutually recursive walk decreases. */
  function Size(t: Tree): nat {
    match t
    case Leaf => 0
    case Node(_, less, more) => Size(less) + Size(more) + 1
  }

  /**
   * kd_node::find_closest: pick the branch on the query's side of the
   * splitting plane (`more` when the node's coordinate is the greater) and
   * the one away from it, then walk them around the node's own point.
   */
  function Find(t: Tree, q: Vec3, radius: real, dist: (Vec3, Vec3) -> real, acc: seq<Hit>, mindist: real, depth: nat): (r: Found)
    ensures r.mindist <= mindist
    decreases Size(t), 1
  {
    match t
    case Leaf => Found(acc, mindist)
    case Node(e, less, more) =>
      if GoesMore(e.p, q, depth) then Around(e, more, less, q, radius, dist, acc, mindist, depth)
      else Around(e, less, more, q, radius, dist, acc, mindist, depth)
  }

  /**
   * The rest of find_closest once the branches are chosen: search the
   * branch toward the query, check the node's point, then search the other
   * branch when SearchAway allows.
   */
  function Around(e: Entry, toward: Tree, away: Tree, q: Vec3, radius: real, dist: (Vec3, Vec3) -> real,
                  acc: seq<Hit>, mindist: real, depth: nat): (r: Found)
    ensures r.mindist <= mindist
    decreases Size(toward) + Size(away) + 1, 0
  {
    var s := Visit(Find(toward, q, radius, dist, acc, mindist, depth + 1), e, q, radius, dist);
    if away.Node? && SearchAway(e.p, q, radius, s.mindist, depth) then Find(away, q, radius, dist, s.results, s.mindist, depth + 1)
    else s
  }

  /** kd_query_result's operator<: ascending distance. */
  predicate Sorted(s: seq<Hit>) {
    forall i, j | 0 <= i < j < |s| :: s[i].distance <= s[j].distance
  }

  /** Insert into a list sorted by distance. */
  function InsertByDistance(h: Hit, s: seq<Hit>): (r: seq<Hit>)
    requires Sorted(s)
    ensures Sorted(r) && multiset(r) == multiset(s) + multiset{h}
  {
    if s == [] then [h]
    else if h.distance <= s[0].distance then [h] + s
    else
      var rest := InsertByDistance(h, s[1..]);
      assert s == [s[0]] + s[1..];
      LeastStaysFirst(s[0], s[1..], h, rest);
      [s[0]] + rest
  }

  /** A head no farther than anything in a sorted tail, or than the inserted hit, stays first. */
  lemma LeastStaysFirst(x: Hit, tail: seq<Hit>, h: Hit, rest: seq<Hit>)
    requires Sorted([x] + tail) && x.distance <= h.distance
    requires Sorted(rest) && multiset(rest) == multiset(tail) + multiset{h}
    ensures Sorted([x] + rest)
  {
    forall y | y in rest ensures x.distance <= y.distance {
      assert y in multiset(rest);
      if y != h {
        assert y in multiset(tail);
        var k :| 0 <= k < |tail| && tail[k] == y;
        assert ([x] + tail)[0] == x && ([x] + tail)[k + 1] == y;
      }
    }
  }

  /** The std::sort of kd_nn; the order among equal distances is the one thing it leaves open. */
  function SortByDistance(s: seq<Hit>): (r: seq<Hit>)
    ensures Sorted(r) && multiset(r) == multiset(s)
  {
    if s == [] then []
    else
      assert s == [s[0]] + s[1..];
      InsertByDistance(s[0], SortByDistance(s[1..]))
  }

  /** The starting minimum kd_nn passes: the radius, or FLT_MAX for a radius of 0. */
  function StartMin(radius: real): real {
    if radius != 0.0 then radius else FltMax
  }

  /** kd_tree::kd_nn on a root the constructor has set. */
  function Nn(root: Tree, q: Vec3, radius: real, dist: (Vec3, Vec3) -> real): (r: Answer)
    requires root.Node?
    ensures r.count == |r.results|
    ensures Sorted(r.results)
    ensures multiset(r.results) == multiset(Find(root, q, radius, dist, [], StartMin(radius), 0).results)
  {
    var found := Find(root, q, radius, dist, [], StartMin(radius), 0).results;
    var sorted := if |found| > 1 then SortByDistance(found) else found;
    Answer(sorted, |sorted|)
  }

  /** The hits of the entries of s whose distance from q passes `keep`, in order. */
  function Collect(s: seq<Entry>, keep: Entry -> bool, q: Vec3, dist: (Vec3, Vec3) -> real): seq<Hit> {
    if s == [] then []
    else (if keep(s[0]) then [ToHit(s[0], q, dist)] else []) + Collect(s[1..], keep, q, dist)
  }

  /** Hits of the entries within `radius` of q. */
  function Within(s: seq<Entry>, q: Vec3, radius: real, dist: (Vec3, Vec3) -> real): seq<Hit> {
    Collect(s, (x: Entry) => dist(q, x.p) <= radius, q, dist)
  }

  /** Hits of all the entries. */
  function Candidates(s: seq<Entry>, q: Vec3, dist: (Vec3, Vec3) -> real): seq<Hit> {
    Collect(s, (x: Entry) => true, q, dist)
  }

  lemma {:induction false} CollectConcat(a: seq<Entry>, b: seq<Entry>, keep: Entry -> bool, q: Vec3, dist: (Vec3, Vec3) -> real)
    ensures Collect(a + b, keep, q, dist) == Collect(a, keep, q, dist) + Collect(b, keep, q, dist)
  {
    if a == [] {
      assert a + b == b;
    } else {
      assert (a + b)[0] == a[0] && (a + b)[1..] == a[1..] + b;
      CollectConcat(a[1..], b, keep, q, dist);
    }
  }

  /** Collecting over a reordering of the entries yields a reordering of the hits. */
  lemma {:induction false} CollectPerm(a: seq<Entry>, b: seq<Entry>, keep: Entry -> bool, q: Vec3, dist: (Vec3, Vec3) -> real)
    requires multiset(a) == multiset(b)
    ensures multiset(Collect(a, keep, q, dist)) == multiset(Collect(b, keep, q, dist))
    decreases |a|
  {
    if a != [] {
      var x := a[0];
      assert x in multiset(b);
      var k :| 0 <= k < |b| && b[k] == x;
      var rest := b[..k] + b[k + 1..];
      PermTail(a, b, k);
      CollectPerm(a[1..], rest, keep, q, dist);
      CollectWithout(b, k, keep, q, dist);
      CollectConcat([x], a[1..], keep, q, dist);
      assert a == [x] + a[1..];
    } else {
      assert |multiset(b)| == 0;
    }
  }

  /** Matching a's head with b[k] leaves a's tail a reordering of b without k. */
  lemma PermTail<T>(a: seq<T>, b: seq<T>, k: nat)
    requires multiset(a) == multiset(b) && |a| > 0 && k < |b| && b[k] == a[0]
    ensures multiset(a[1..]) == multiset(b[..k] + b[k + 1..])
  {
    MultisetWithout(b, k);
    assert a == [a[0]] + a[1..];
    assert multiset(a) == multiset(a[1..]) + multiset{a[0]};
    assert multiset(a[1..]) == multiset(a) - multiset{a[0]};
    assert multiset(b[..k] + b[k + 1..]) == multiset(b) - multiset{b[k]};
  }

  /** Taking element k out of a sequence takes one copy of it out of its multiset. */
  lemma MultisetWithout<T>(b: seq<T>, k: nat)
    requires k < |b|
    ensures multiset(b) == multiset(b[..k] + b[k + 1..]) + multiset{b[k]}
  {
    assert b == b[..k] + [b[k]] + b[k + 1..];
  }

  /** Collecting without element k collects everything but k's share. */
  lemma CollectWithout(b: seq<Entry>, k: nat, keep: Entry -> bool, q: Vec3, dist: (Vec3, Vec3) -> real)
    requires k < |b|
    ensures multiset(Collect(b, keep, q, dist))
         == multiset(Collect(b[..k] + b[k + 1..], keep, q, dist)) + multiset(Collect([b[k]], keep, q, dist))
  {
    assert b == b[..k] + [b[k]] + b[k + 1..];
    CollectConcat(b[..k] + [b[k]], b[k + 1..], keep, q, dist);
    CollectConcat(b[..k], [b[k]], keep, q, dist);
    CollectConcat(b[..k], b[k + 1..], keep, q, dist);
  }

  /** Collect over the whole tree splits along its in-order listing. */
  lemma CollectNode(e: Entry, less: Tree, more: Tree, keep: Entry -> bool, q: Vec3, dist: (Vec3, Vec3) -> real)
    ensures Collect(Flatten(Node(e, less, more)), keep, q, dist)
         == Collect(Flatten(less), keep, q, dist) + Collect([e], keep, q, dist) + Collect(Flatten(more), keep, q, dist)
  {
    CollectConcat(Flatten(less) + [e], Flatten(more), keep, q, dist);
    CollectConcat(Flatten(less), [e], keep, q, dist);
  }

  /** No entry within the radius: nothing is collected. */
  lemma {:induction false} NoneWithin(s: seq<Entry>, q: Vec3, radius: real, dist: (Vec3, Vec3) -> real)
    requires forall x | x in s :: dist(q, x.p) > radius
    ensures Within(s, q, radius, dist) == []
  {
    if s != [] {
      assert s[0] in s;
      assert forall x | x in s[1..] :: x in s;
      NoneWithin(s[1..], q, radius, dist);
    }
  }

  /** The gap on the level's axis never exceeds the distance. */
  lemma AxisBound(dist: (Vec3, Vec3) -> real, a: Vec3, b: Vec3, axis: nat)
    requires DistanceLike(dist) && axis < 3
    ensures dist(a, b) >= Abs(Coord(a, axis) - Coord(b, axis))
  {
  }

  /**
   * The pruning argument: every entry of the branch away from the query is
   * at least as far from it as the splitting plane is.
   */
  lemma AwayIsFar(e: Entry, less: Tree, more: Tree, q: Vec3, depth: nat, dist: (Vec3, Vec3) -> real, x: Entry)
    requires DistanceLike(dist) && Ordered(Node(e, less, more), depth)
    requires x in Flatten(if GoesMore(e.p, q, depth) then less else more)
    ensures dist(q, x.p) >= AxisDist(e.p, q, depth)
  {
    AxisBound(dist, q, x.p, depth % 3);
  }

  /**
   * find_closest only appends, and everything it appends is the hit of an
   * entry of the tree it walks.
   */
  lemma {:induction false} FindAppends(t: Tree, q: Vec3, radius: real, dist: (Vec3, Vec3) -> real, acc: seq<Hit>, m: real, depth: nat)
    ensures var r := Find(t, q, radius, dist, acc, m, depth).results;
      && |acc| <= |r| && r[..|acc|] == acc
      && (forall k | |acc| <= k < |r| :: r[k] in Candidates(Flatten(t), q, dist))
    decreases Size(t), 1
  {
    match t
    case Leaf =>
    case Node(e, less, more) =>
      CollectNode(e, less, more, (x: Entry) => true, q, dist);
      assert Candidates([e], q, dist) == [ToHit(e, q, dist)];
      if GoesMore(e.p, q, depth) {
        AroundAppends(e, more, less, q, radius, dist, acc, m, depth);
      } else {
        AroundAppends(e, less, more, q, radius, dist, acc, m, depth);
      }
  }

  lemma {:induction false} AroundAppends(e: Entry, toward: Tree, away: Tree, q: Vec3, radius: real, dist: (Vec3, Vec3) -> real,
                                         acc: seq<Hit>, m: real, depth: nat)
    ensures var r := Around(e, toward, away, q, radius, dist, acc, m, depth).results;
      && |acc| <= |r| && r[..|acc|] == acc
      && (forall k | |acc| <= k < |r| ::
            || r[k] in Candidates(Flatten(toward), q, dist)
            || r[k] == ToHit(e, q, dist)
            || r[k] in Candidates(Flatten(away), q, dist))
    decreases Size(toward) + Size(away) + 1, 0
  {
    FindAppends(toward, q, radius, dist, acc, m, depth + 1);
    var s1 := Find(toward, q, radius, dist, acc, m, depth + 1);
    var s := Visit(s1, e, q, radius, dist);
    if away.Node? && SearchAway(e.p, q, radius, s.mindist, depth) {
      FindAppends(away, q, radius, dist, s.results, s.mindist, depth + 1);
    }
  }

  /** Hits of the entries of the away branch are all out of reach when the walk skips it. */
  lemma SkippedOutOfRadius(e: Entry, less: Tree, more: Tree, q: Vec3, radius: real, dist: (Vec3, Vec3) -> real, depth: nat)
    requires DistanceLike(dist) && Ordered(Node(e, less, more), depth)
    requires radius < AxisDist(e.p, q, depth)
    ensures Within(Flatten(if GoesMore(e.p, q, depth) then less else more), q, radius, dist) == []
  {
    var away := if GoesMore(e.p, q, depth) then less else more;
    forall x | x in Flatten(away) ensures dist(q, x.p) > radius {
      AwayIsFar(e, less, more, q, depth, dist, x);
    }
    NoneWithin(Flatten(away), q, radius, dist);
  }

  /** What Visit appends with a positive radius: the node's hit exactly when it is within the radius. */
  lemma VisitWithin(s: Found, e: Entry, q: Vec3, radius: real, dist: (Vec3, Vec3) -> real)
    requires s.mindist <= radius
    ensures Visit(s, e, q, radius, dist).results == s.results + Within([e], q, radius, dist)
  {
    CollectOne(e, (x: Entry) => dist(q, x.p) <= radius, q, dist);
  }

  lemma CollectOne(e: Entry, keep: Entry -> bool, q: Vec3, dist: (Vec3, Vec3) -> real)
    ensures Collect([e], keep, q, dist) == if keep(e) then [ToHit(e, q, dist)] else []
  {
    assert [e][1..] == [];
  }

  /**
   * With a positive radius the walk appends exactly the hits of the entries
   * within the radius, each once.
   */
  lemma {:induction false} RadiusSearch(t: Tree, q: Vec3, radius: real, dist: (Vec3, Vec3) -> real, acc: seq<Hit>, m: real, depth: nat)
    requires DistanceLike(dist) && Ordered(t, depth)
    requires 0.0 < radius && m <= radius
    ensures multiset(Find(t, q, radius, dist, acc, m, depth).results) == multiset(acc) + multiset(Within(Flatten(t), q, radius, dist))
    decreases Size(t), 1
  {
    match t
    case Leaf =>
    case Node(e, less, more) =>
      var toward := if GoesMore(e.p, q, depth) then more else less;
      var away := if GoesMore(e.p, q, depth) then less else more;
      if radius < AxisDist(e.p, q, depth) {
        SkippedOutOfRadius(e, less, more, q, radius, dist, depth);
      }
      RadiusAround(e, toward, away, q, radius, dist, acc, m, depth);
      WithinNode(e, less, more, toward, away, q, radius, dist);
      assert Find(t, q, radius, dist, acc, m, depth) == Around(e, toward, away, q, radius, dist, acc, m, depth);
  }

  /** The hits within the radius of a node's tree, split into the two branches and the node's own. */
  lemma WithinNode(e: Entry, less: Tree, more: Tree, toward: Tree, away: Tree, q: Vec3, radius: real, dist: (Vec3, Vec3) -> real)
    requires (toward, away) == (more, less) || (toward, away) == (less, more)
    ensures multiset(Within(Flatten(Node(e, less, more)), q, radius, dist))
         == multiset(Within(Flatten(toward), q, radius, dist)) + multiset(Within([e], q, radius, dist))
            + multiset(Within(Flatten(away), q, radius, dist))
  {
    CollectNode(e, less, more, (x: Entry) => dist(q, x.p) <= radius, q, dist);
  }

  lemma {:induction false} RadiusAround(e: Entry, toward: Tree, away: Tree, q: Vec3, radius: real, dist: (Vec3, Vec3) -> real,
                                        acc: seq<Hit>, m: real, depth: nat)
    requires DistanceLike(dist) && Ordered(toward, depth + 1) && Ordered(away, depth + 1)
    requires 0.0 < radius && m <= radius
    requires radius < AxisDist(e.p, q, depth) ==> Within(Flatten(away), q, radius, dist) == []
    ensures multiset(Around(e, toward, away, q, radius, dist, acc, m, depth).results)
         == multiset(acc) + multiset(Within(Flatten(toward), q, radius, dist)) + multiset(Within([e], q, radius, dist))
            + multiset(Within(Flatten(away), q, radius, dist))
    decreases Size(toward) + Size(away) + 1, 0
  {
    RadiusSearch(toward, q, radius, dist, acc, m, depth + 1);
    var s1 := Find(toward, q, radius, dist, acc, m, depth + 1);
    VisitWithin(s1, e, q, radius, dist);
    var s := Visit(s1, e, q, radius, dist);
    if away.Node? && SearchAway(e.p, q, radius, s.mindist, depth) {
      RadiusSearch(away, q, radius, dist, s.results, s.mindist, depth + 1);
    } else if away.Leaf? {
      assert Flatten(away) == [];
    }
  }

  /**
   * What a radius-0 walk over the entries `es` leaves behind, started from
   * the list `acc` and the minimum m: it only appends; the final minimum is
   * no farther than any entry and never above m; every appended hit is at
   * least that far; the last one appended sits at exactly the final minimum;
   * and with nothing appended the minimum is still m.
   */
  ghost predicate NearestWalk(r: Found, acc: seq<Hit>, m: real, es: seq<Entry>, q: Vec3, dist: (Vec3, Vec3) -> real) {
    && |acc| <= |r.results| && r.results[..|acc|] == acc
    && 0.0 <= r.mindist <= m
    && (forall x | x in es :: r.mindist <= dist(q, x.p))
    && (forall k | |acc| <= k < |r.results| :: r.mindist <= r.results[k].distance)
    && (|r.results| == |acc| ==> r.mindist == m)
    && (|r.results| > |acc| ==> r.results[|r.results| - 1].distance == r.mindist)
  }

  /** Checking the node's point with radius 0 extends the walk by that point. */
  lemma VisitNearest(s: Found, e: Entry, q: Vec3, dist: (Vec3, Vec3) -> real, acc: seq<Hit>, m: real, es: seq<Entry>)
    requires DistanceLike(dist) && NearestWalk(s, acc, m, es, q, dist)
    ensures NearestWalk(Visit(s, e, q, 0.0, dist), acc, m, es + [e], q, dist)
  {
    var r := Visit(s, e, q, 0.0, dist);
    if dist(q, e.p) <= s.mindist {
      assert r.results[..|acc|] == s.results[..|acc|];
      assert forall k | |acc| <= k < |s.results| :: r.results[k] == s.results[k];
    }
  }

  /** A walk followed by a walk that starts where it stopped is one walk over both entry lists. */
  lemma ChainNearest(s: Found, r: Found, q: Vec3, dist: (Vec3, Vec3) -> real, acc: seq<Hit>, m: real, es: seq<Entry>, fs: seq<Entry>)
    requires NearestWalk(s, acc, m, es, q, dist)
    requires NearestWalk(r, s.results, s.mindist, fs, q, dist)
    ensures NearestWalk(r, acc, m, es + fs, q, dist)
  {
    assert r.results[..|acc|] == r.results[..|s.results|][..|acc|];
    forall k | |acc| <= k < |r.results| ensures r.mindist <= r.results[k].distance {
      if k < |s.results| {
        assert r.results[k] == r.results[..|s.results|][k];
      }
    }
  }

  /** Entries no nearer than the walk's minimum can be skipped without breaking the walk's facts. */
  lemma SkipNearest(s: Found, q: Vec3, dist: (Vec3, Vec3) -> real, acc: seq<Hit>, m: real, es: seq<Entry>, fs: seq<Entry>)
    requires NearestWalk(s, acc, m, es, q, dist)
    requires forall x | x in fs :: s.mindist <= dist(q, x.p)
    ensures NearestWalk(s, acc, m, es + fs, q, dist)
  {
  }

  /** The walk's facts depend only on which entries the list holds. */
  lemma CoverNearest(r: Found, q: Vec3, dist: (Vec3, Vec3) -> real, acc: seq<Hit>, m: real, es: seq<Entry>, fs: seq<Entry>)
    requires NearestWalk(r, acc, m, es, q, dist)
    requires forall x | x in fs :: x in es
    ensures NearestWalk(r, acc, m, fs, q, dist)
  {
  }

  /** A radius-0 walk over a search tree is a NearestWalk over its entries. */
  lemma {:induction false} NearestSearch(t: Tree, q: Vec3, dist: (Vec3, Vec3) -> real, acc: seq<Hit>, m: real, depth: nat)
    requires DistanceLike(dist) && Ordered(t, depth) && 0.0 <= m
    ensures NearestWalk(Find(t, q, 0.0, dist, acc, m, depth), acc, m, Flatten(t), q, dist)
    decreases Size(t), 1
  {
    match t
    case Leaf =>
    case Node(e, less, more) =>
      var toward := if GoesMore(e.p, q, depth) then more else less;
      var away := if GoesMore(e.p, q, depth) then less else more;
      forall x | x in Flatten(away) ensures dist(q, x.p) >= AxisDist(e.p, q, depth) {
        AwayIsFar(e, less, more, q, depth, dist, x);
      }
      NearestAround(e, toward, away, q, dist, acc, m, depth);
      assert Find(t, q, 0.0, dist, acc, m, depth) == Around(e, toward, away, q, 0.0, dist, acc, m, depth);
      CoverNearest(Find(t, q, 0.0, dist, acc, m, depth), q, dist, acc, m, Flatten(toward) + [e] + Flatten(away), Flatten(t));
  }

  lemma {:induction false} NearestAround(e: Entry, toward: Tree, away: Tree, q: Vec3, dist: (Vec3, Vec3) -> real,
                                         acc: seq<Hit>, m: real, depth: nat)
    requires DistanceLike(dist) && Ordered(toward, depth + 1) && Ordered(away, depth + 1) && 0.0 <= m
    requires forall x | x in Flatten(away) :: dist(q, x.p) >= AxisDist(e.p, q, depth)
    ensures NearestWalk(Around(e, toward, away, q, 0.0, dist, acc, m, depth), acc, m, Flatten(toward) + [e] + Flatten(away), q, dist)
    decreases Size(toward) + Size(away) + 1, 0
  {
    NearestSearch(toward, q, dist, acc, m, depth + 1);
    var s1 := Find(toward, q, 0.0, dist, acc, m, depth + 1);
    VisitNearest(s1, e, q, dist, acc, m, Flatten(toward));
    var s := Visit(s1, e, q, 0.0, dist);
    if away.Node? && SearchAway(e.p, q, 0.0, s.mindist, depth) {
      NearestSearch(away, q, dist, s.results, s.mindist, depth + 1);
      ChainNearest(s, Find(away, q, 0.0, dist, s.results, s.mindist, depth + 1), q, dist, acc, m, Flatten(toward) + [e], Flatten(away));
    } else {
      SkipNearest(s, q, dist, acc, m, Flatten(toward) + [e], Flatten(away));
    }
  }

  /**
   * kd_nn with a positive radius on a tree the constructor built: the sorted
   * results are exactly the hits of the input points within the radius,
   * each once, and the count returned is their number.
   */
  lemma NnWithinRadius(points: seq<Vec3>, count: int, q: Vec3, radius: real, dist: (Vec3, Vec3) -> real)
    requires 0 < count <= |points| && DistanceLike(dist) && 0.0 < radius
    ensures var a := Nn(Build(points, count).value, q, radius, dist);
      && multiset(a.results) == multiset(Within(Tagged(points, count), q, radius, dist))
      && Sorted(a.results) && a.count == |a.results|
  {
    var root := Build(points, count).value;
    GrowOrdered(points, count);
    RadiusSearch(root, q, radius, dist, [], radius, 0);
    CollectPerm(Flatten(root), Tagged(points, count), (x: Entry) => dist(q, x.p) <= radius, q, dist);
  }

  /**
   * kd_nn with radius 0 on a tree the constructor built: the first result
   * is the hit of an input point no farther than any other input point,
   * and there is a result whenever some point is nearer than FLT_MAX.
   */
  lemma NnNearestFirst(points: seq<Vec3>, count: int, q: Vec3, dist: (Vec3, Vec3) -> real)
    requires 0 < count <= |points| && DistanceLike(dist)
    ensures var a := Nn(Build(points, count).value, q, 0.0, dist).results;
      && (|a| > 0 ==> a[0] in Candidates(Tagged(points, count), q, dist))
      && (|a| > 0 ==> forall k | 0 <= k < count :: a[0].distance <= dist(q, points[k]))
      && ((exists k | 0 <= k < count :: dist(q, points[k]) < FltMax) ==> |a| > 0)
  {
    var a := Nn(Build(points, count).value, q, 0.0, dist).results;
    NnFindsSome(points, count, q, dist);
    if |a| > 0 {
      NnHeadIsCandidate(points, count, q, dist);
      NnHeadIsNearest(points, count, q, dist);
    }
  }

  /** The first hit of nn with radius 0 is the hit of an input point. */
  lemma NnHeadIsCandidate(points: seq<Vec3>, count: int, q: Vec3, dist: (Vec3, Vec3) -> real)
    requires 0 < count <= |points|
    requires |Nn(Build(points, count).value, q, 0.0, dist).results| > 0
    ensures Nn(Build(points, count).value, q, 0.0, dist).results[0] in Candidates(Tagged(points, count), q, dist)
  {
    var root := Build(points, count).value;
    var a := Nn(root, q, 0.0, dist).results;
    var f := Find(root, q, 0.0, dist, [], FltMax, 0);
    FindAppends(root, q, 0.0, dist, [], FltMax, 0);
    SortedHead(a, f.results);
    CollectPerm(Flatten(root), Tagged(points, count), (x: Entry) => true, q, dist);
    assert a[0] in multiset(Candidates(Flatten(root), q, dist));
  }

  /** The first hit of nn with radius 0 is no farther than any input point. */
  lemma NnHeadIsNearest(points: seq<Vec3>, count: int, q: Vec3, dist: (Vec3, Vec3) -> real)
    requires 0 < count <= |points| && DistanceLike(dist)
    requires |Nn(Build(points, count).value, q, 0.0, dist).results| > 0
    ensures forall k | 0 <= k < count :: Nn(Build(points, count).value, q, 0.0, dist).results[0].distance <= dist(q, points[k])
  {
    var root := Build(points, count).value;
    var a := Nn(root, q, 0.0, dist).results;
    var f := Find(root, q, 0.0, dist, [], FltMax, 0);
    GrowOrdered(points, count);
    NearestSearch(root, q, dist, [], FltMax, 0);
    BuiltHoldsPoints(points, count);
    SortedHead(a, f.results);
  }

  /** nn with radius 0 finds something whenever some input point is nearer than FLT_MAX. */
  lemma NnFindsSome(points: seq<Vec3>, count: int, q: Vec3, dist: (Vec3, Vec3) -> real)
    requires 0 < count <= |points| && DistanceLike(dist)
    ensures (exists k | 0 <= k < count :: dist(q, points[k]) < FltMax) ==> |Nn(Build(points, count).value, q, 0.0, dist).results| > 0
  {
    var root := Build(points, count).value;
    var a := Nn(root, q, 0.0, dist).results;
    var f := Find(root, q, 0.0, dist, [], FltMax, 0);
    GrowOrdered(points, count);
    NearestSearch(root, q, dist, [], FltMax, 0);
    BuiltHoldsPoints(points, count);
    assert |a| == |multiset(a)| == |multiset(f.results)| == |f.results|;
  }

  /** Every input point is an entry of the tree the constructor builds. */
  lemma BuiltHoldsPoints(points: seq<Vec3>, count: int)
    requires 0 < count <= |points|
    ensures forall k | 0 <= k < count :: Entry(points[k], k) in Flatten(Build(points, count).value)
  {
    TaggedHolds(points, count);
    forall k | 0 <= k < count ensures Entry(points[k], k) in Flatten(Build(points, count).value) {
      assert Tagged(points, count)[k] == Entry(points[k], k);
      assert Entry(points[k], k) in multiset(Flatten(Build(points, count).value));
    }
  }

  /** The head of a sorted reordering of a non-empty list is one of its hits and no farther than its last. */
  lemma SortedHead(a: seq<Hit>, f: seq<Hit>)
    requires Sorted(a) && multiset(a) == multiset(f) && |f| > 0
    ensures |a| > 0 && a[0] in f && a[0].distance <= f[|f| - 1].distance
  {
    assert |a| == |multiset(a)| == |multiset(f)| == |f|;
    assert a[0] in multiset(f);
    assert f[|f| - 1] in multiset(a);
  }

  /** A negative radius starts the minimum below every distance: the walk appends nothing. */
  lemma {:induction false} NegativeRadiusWalk(t: Tree, q: Vec3, radius: real, dist: (Vec3, Vec3) -> real, acc: seq<Hit>, depth: nat)
    requires DistanceLike(dist) && radius < 0.0
    ensures Find(t, q, radius, dist, acc, radius, depth) == Found(acc, radius)
    decreases Size(t), 1
  {
    match t
    case Leaf =>
    case Node(e, less, more) =>
      NegativeRadiusAround(e, less, more, q, radius, dist, acc, depth);
      NegativeRadiusAround(e, more, less, q, radius, dist, acc, depth);
  }

  lemma {:induction false} NegativeRadiusAround(e: Entry, toward: Tree, away: Tree, q: Vec3, radius: real, dist: (Vec3, Vec3) -> real,
                                                acc: seq<Hit>, depth: nat)
    requires DistanceLike(dist) && radius < 0.0
    ensures Around(e, toward, away, q, radius, dist, acc, radius, depth) == Found(acc, radius)
    decreases Size(toward) + Size(away) + 1, 0
  {
    NegativeRadiusWalk(toward, q, radius, dist, acc, depth + 1);
    NegativeRadiusWalk(away, q, radius, dist, acc, depth + 1);
  }

  /** kd_nn with a negative radius answers nothing. */
  lemma NnNegativeRadius(root: Tree, q: Vec3, radius: real, dist: (Vec3, Vec3) -> real)
    requires root.Node? && DistanceLike(dist) && radius < 0.0
    ensures Nn(root, q, radius, dist) == Answer([], 0)
  {
    NegativeRadiusWalk(root, q, radius, dist, [], 0);
  }

  /** The sum of the axis gaps: one distance the pruning argument allows. */
  function Manhattan(a: Vec3, b: Vec3): (r: real)
    ensures r >= Abs(a.x - b.x) && r >= Abs(a.y - b.y) && r >= Abs(a.z - b.z) && r >= 0.0
  {
    Abs(a.x - b.x) + Abs(a.y - b.y) + Abs(a.z - b.z)
  }

  /** The square of the straight-line distance: it orders points as Euclidean distance does. */
  function SquaredEuclidean(a: Vec3, b: Vec3): (r: real)
    ensures r >= 0.0
  {
    (a.x - b.x) * (a.x - b.x) + (a.y - b.y) * (a.y - b.y) + (a.z - b.z) * (a.z - b.z)
  }

  /** The points (0,0,0), (1,0,0), (5,5,5). */
  function ThreePoints(): seq<Vec3> {
    [Vec3(0.0, 0.0, 0.0), Vec3(1.0, 0.0, 0.0), Vec3(5.0, 5.0, 5.0)]
  }

  /** The query point of the example. */
  function ThreeQuery(): Vec3 {
    Vec3(0.1, 0.0, 0.0)
  }

  /**
   * The distance puts the three points at non-decreasing distances from the
   * query, all within FLT_MAX: true of Euclidean distance and of any
   * distance that orders points the same way.
   */
  predicate ThreeOrdered(dist: (Vec3, Vec3) -> real) {
    dist(ThreeQuery(), ThreePoints()[0]) <= dist(ThreeQuery(), ThreePoints()[1])
      <= dist(ThreeQuery(), ThreePoints()[2]) <= FltMax
  }

  lemma ManhattanOrdersThree()
    ensures ThreeOrdered(Manhattan)
  {
  }

  lemma SquaredEuclideanOrdersThree()
    ensures ThreeOrdered(SquaredEuclidean)
  {
  }

  /** The constructor chains all three points down the less side. */
  lemma ThreePointsTree()
    ensures Build(ThreePoints(), 3)
         == Some(Node(Entry(ThreePoints()[0], 0), Node(Entry(ThreePoints()[1], 1), Node(Entry(ThreePoints()[2], 2), Leaf, Leaf), Leaf), Leaf))
  {
    var p := ThreePoints();
    assert Grow(p, 2) == Node(Entry(p[0], 0), Node(Entry(p[1], 1), Leaf, Leaf), Leaf);
  }

  /** The hit of point k of ThreePoints for the example's query. */
  function ThreeHit(k: nat, dist: (Vec3, Vec3) -> real): Hit
    requires k < 3
  {
    ToHit(Entry(ThreePoints()[k], k), ThreeQuery(), dist)
  }

  /** The walk below (1,0,0) visits (5,5,5) alone. */
  lemma ThreeWalkDeepest(t: Tree, dist: (Vec3, Vec3) -> real)
    requires t == Node(Entry(ThreePoints()[2], 2), Leaf, Leaf) && ThreeOrdered(dist)
    ensures Find(t, ThreeQuery(), 0.0, dist, [], FltMax, 2)
         == Found([ThreeHit(2, dist)], dist(ThreeQuery(), ThreePoints()[2]))
  {
    assert GoesMore(ThreePoints()[2], ThreeQuery(), 2);
  }

  /** The walk below the root appends (5,5,5), then (1,0,0), which is no farther. */
  lemma ThreeWalkMiddle(t: Tree, dist: (Vec3, Vec3) -> real)
    requires t == Node(Entry(ThreePoints()[1], 1), Node(Entry(ThreePoints()[2], 2), Leaf, Leaf), Leaf) && ThreeOrdered(dist)
    ensures Find(t, ThreeQuery(), 0.0, dist, [], FltMax, 1)
         == Found([ThreeHit(2, dist), ThreeHit(1, dist)], dist(ThreeQuery(), ThreePoints()[1]))
  {
    ThreeWalkDeepest(t.less, dist);
    assert !GoesMore(ThreePoints()[1], ThreeQuery(), 1);
  }

  /** The walk from the root appends (5,5,5), then (1,0,0), then (0,0,0). */
  lemma ThreeWalkTop(t: Tree, dist: (Vec3, Vec3) -> real)
    requires t == Node(Entry(ThreePoints()[0], 0),
                       Node(Entry(ThreePoints()[1], 1), Node(Entry(ThreePoints()[2], 2), Leaf, Leaf), Leaf), Leaf)
    requires ThreeOrdered(dist)
    ensures Find(t, ThreeQuery(), 0.0, dist, [], FltMax, 0)
         == Found([ThreeHit(2, dist), ThreeHit(1, dist), ThreeHit(0, dist)], dist(ThreeQuery(), ThreePoints()[0]))
  {
    ThreeWalkMiddle(t.less, dist);
    assert !GoesMore(ThreePoints()[0], ThreeQuery(), 0);
  }

  /** The whole walk over the built tree appends all three points. */
  lemma ThreeWalk(t: Tree, dist: (Vec3, Vec3) -> real)
    requires t == Build(ThreePoints(), 3).value && ThreeOrdered(dist)
    ensures Find(t, ThreeQuery(), 0.0, dist, [], FltMax, 0)
         == Found([ThreeHit(2, dist), ThreeHit(1, dist), ThreeHit(0, dist)], dist(ThreeQuery(), ThreePoints()[0]))
  {
    ThreePointsTree();
    ThreeWalkTop(t, dist);
  }

  /**
   * A radius-0 query from (0.1,0,0) returns all three points, not the single
   * closest one: every point that did not raise the running minimum on the
   * way back up is kept. Only the order of the three distances matters, so
   * this holds for Euclidean distance. The first result after sorting is at
   * the distance of (0,0,0).
   */
  lemma RadiusZeroKeepsFartherCandidates(dist: (Vec3, Vec3) -> real)
    requires ThreeOrdered(dist)
    ensures var a := Nn(Build(ThreePoints(), 3).value, ThreeQuery(), 0.0, dist);
      && a.count == 3
      && multiset(a.results) == multiset{ThreeHit(0, dist), ThreeHit(1, dist), ThreeHit(2, dist)}
      && a.results[0].distance == dist(ThreeQuery(), ThreePoints()[0])
  {
    ThreeWalk(Build(ThreePoints(), 3).value, dist);
    var f := [ThreeHit(2, dist), ThreeHit(1, dist), ThreeHit(0, dist)];
    assert multiset(f) == multiset{ThreeHit(0, dist), ThreeHit(1, dist), ThreeHit(2, dist)};
    var a := Nn(Build(ThreePoints(), 3).value, ThreeQuery(), 0.0, dist).results;
    SortedHead(a, f);
  }

  /**
   * A radius-0 answer cut down to the single closest point, which is what
   * the comment on find_closest says a radius of 0 yields.
   */
  function NearestOnly(root: Tree, q: Vec3, dist: (Vec3, Vec3) -> real): seq<Hit>
    requires root.Node?
  {
    var a := Nn(root, q, 0.0, dist).results;
    if |a| == 0 then [] else [a[0]]
  }

  /** The cut-down answer holds at most one hit, and that hit is of a point no farther than any other. */
  lemma NearestOnlyIsSingleClosest(points: seq<Vec3>, count: int, q: Vec3, dist: (Vec3, Vec3) -> real)
    requires 0 < count <= |points| && DistanceLike(dist)
    ensures var r := NearestOnly(Build(points, count).value, q, dist);
      && |r| <= 1
      && (|r| == 1 ==> r[0] in Candidates(Tagged(points, count), q, dist))
      && (|r| == 1 ==> forall k | 0 <= k < count :: r[0].distance <= dist(q, points[k]))
      && ((exists k | 0 <= k < count :: dist(q, points[k]) < FltMax) ==> |r| == 1)
  {
    NnNearestFirst(points, count, q, dist);
  }
}

=== FILE: kd_tree.dfy ===
/**
 * The node structure both KD-trees of kd_matcher.hpp share: a node holds one
 * input point with its index, splits on axis `depth % 3`, and sends a point
 * to `more` exactly when the node's coordinate on that axis is strictly the
 * greater one. This module also holds kd_tree's insertion and constructor.
 */
module KdTree {
  import opened Wrappers
  import opened Geometry
  import opened Listing

  /** A point of the input array together with its index in that array. */
  datatype Entry = Entry(p: Vec3, i: nat)

  /** A kd_node; Leaf stands for a null child pointer. */
  datatype Tree = Leaf | Node(e: Entry, less: Tree, more: Tree)

  /** The branch test of add and find_closest: the node minus the point is positive on the level's axis. */
  predicate GoesMore(node: Vec3, q: Vec3, depth: nat) {
    Coord(node, depth % 3) - Coord(q, depth % 3) > 0.0
  }

  /** The entries of a tree, in-order. */
  function Flatten(t: Tree): seq<Entry> {
    match t
    case Leaf => []
    case Node(e, less, more) => Flatten(less) + [e] + Flatten(more)
  }

  /**
   * The search-tree invariant: below a node at `depth`, every entry of
   * `more` has a smaller coordinate on axis depth % 3, and every entry of
   * `less` has one at least as large.
   */
  predicate Ordered(t: Tree, depth: nat) {
    match t
    case Leaf => true
    case Node(e, less, more) =>
      && (forall x | x in Flatten(more) :: GoesMore(e.p, x.p, depth))
      && (forall x | x in Flatten(less) :: !GoesMore(e.p, x.p, depth))
      && Ordered(less, depth + 1)
      && Ordered(more, depth + 1)
  }

  /** kd_tree::kd_node::add: descend by the branch test and hang the point on the first null child. */
  function Add(t: Tree, q: Entry, depth: nat): (r: Tree)
    ensures multiset(Flatten(r)) == multiset(Flatten(t)) + multiset{q}
    ensures r.Node? && (t.Node? ==> r.e == t.e)
  {
    match t
    case Leaf => Node(q, Leaf, Leaf)
    case Node(e, less, more) =>
      if GoesMore(e.p, q.p, depth) then Node(e, less, Add(more, q, depth + 1))
      else Node(e, Add(less, q, depth + 1), more)
  }

  /** Adding a point keeps the search-tree invariant. */
  lemma {:induction false} AddKeepsOrdered(t: Tree, q: Entry, depth: nat)
    requires Ordered(t, depth)
    ensures Ordered(Add(t, q, depth), depth)
  {
    match t
    case Leaf =>
    case Node(e, less, more) =>
      if GoesMore(e.p, q.p, depth) {
        AddKeepsOrdered(more, q, depth + 1);
        var m := Add(more, q, depth + 1);
        GrowsBy(Flatten(more), Flatten(m), q);
      } else {
        AddKeepsOrdered(less, q, depth + 1);
        var l := Add(less, q, depth + 1);
        GrowsBy(Flatten(less), Flatten(l), q);
      }
  }

  /** A sequence whose multiset is a's, or a's plus q, holds a's elements and perhaps q. */
  lemma GrowsBy(a: seq<Entry>, b: seq<Entry>, q: Entry)
    requires multiset(b) == multiset(a) || multiset(b) == multiset(a) + multiset{q}
    ensures forall x | x in a :: x in b
    ensures forall x | x in b :: x in a || x == q
  {
    forall x | x in a ensures x in b {
      assert x in multiset(a);
    }
    forall x | x in b ensures x in a || x == q {
      assert x in multiset(b);
    }
  }

  /** The first n points of the array, each with its index. */
  function Tagged(points: seq<Vec3>, n: nat): seq<Entry>
    requires n <= |points|
  {
    if n == 0 then [] else Tagged(points, n - 1) + [Entry(points[n - 1], n - 1)]
  }

  /** What Tagged holds: entry k is point k under index k. */
  lemma {:induction false} TaggedHolds(points: seq<Vec3>, n: nat)
    requires n <= |points|
    ensures |Tagged(points, n)| == n
    ensures forall k | 0 <= k < n :: Tagged(points, n)[k] == Entry(points[k], k)
  {
    if n > 0 {
      TaggedHolds(points, n - 1);
    }
  }

  /** The tree after inserting points 1 .. n-1 into a root holding point 0, in order. */
  function Grow(points: seq<Vec3>, n: nat): (r: Tree)
    requires 1 <= n <= |points|
    ensures multiset(Flatten(r)) == multiset(Tagged(points, n))
    ensures r.Node? && r.e == Entry(points[0], 0)
  {
    if n == 1 then Node(Entry(points[0], 0), Leaf, Leaf)
    else Add(Grow(points, n - 1), Entry(points[n - 1], n - 1), 0)
  }

  /**
   * The kd_tree constructor. A count of zero or less returns before the root
   * is set: None stands for that unset root.
   */
  function Build(points: seq<Vec3>, count: int): (r: Option<Tree>)
    requires count <= |points|
    ensures r.None? <==> count <= 0
    ensures r.Some? ==> 0 < count && r.value.Node? && r.value.e == Entry(points[0], 0)
    ensures r.Some? ==> multiset(Flatten(r.value)) == multiset(Tagged(points, count))
  {
    if count <= 0 then None else Some(Grow(points, count))
  }

  /** Every tree the constructor grows is a search tree. */
  lemma {:induction false} GrowOrdered(points: seq<Vec3>, n: nat)
    requires 1 <= n <= |points|
    ensures Ordered(Grow(points, n), 0)
  {
    if n > 1 {
      GrowOrdered(points, n - 1);
      AddKeepsOrdered(Grow(points, n - 1), Entry(points[n - 1], n - 1), 0);
    }
  }

  /** The constructor stores each of the count points exactly once, under its own index, in a search tree. */
  lemma BuildStoresEachPointOnce(points: seq<Vec3>, count: int, k: nat)
    requires 0 <= k < count <= |points|
    ensures Build(points, count).Some?
    ensures Ordered(Build(points, count).value, 0)
    ensures multiset(Flatten(Build(points, count).value))[Entry(points[k], k)] == 1
    ensures |Flatten(Build(points, count).value)| == count
  {
    GrowOrdered(points, count);
    TaggedHolds(points, count);
    TaggedDistinct(points, count);
    var s := Tagged(points, count);
    assert s[k] == Entry(points[k], k);
    CountOfDistinct(s, k);
    assert |multiset(Flatten(Build(points, count).value))| == |multiset(s)|;
  }

  /** No two entries of Tagged share an index, so none occurs twice. */
  lemma TaggedDistinct(points: seq<Vec3>, n: nat)
    requires n <= |points|
    ensures Distinct(Tagged(points, n))
  {
    TaggedHolds(points, n);
  }

  /** An element of a repetition-free sequence occurs in its multiset exactly once. */
  lemma {:induction false} CountOfDistinct<T>(s: seq<T>, k: nat)
    requires k < |s|
    requires Distinct(s)
    ensures multiset(s)[s[k]] == 1
  {
    if k == 0 {
      assert s == [s[0]] + s[1..];
      assert s[0] !in s[1..];
    } else {
      CountOfDistinct(s[1..], k - 1);
      assert s == [s[0]] + s[1..];
    }
  }
}

=== FILE: listing.dfy ===
/**
 * Iteration orders of unordered containers: a sequence that lists every key
 * of a map exactly once.
 */
module Listing {

  /** No element occurs twice. */
  predicate Distinct<T(==)>(s: seq<T>) {
    forall i, j :: 0 <= i < j < |s| ==> s[i] != s[j]
  }

  /** `order` lists the keys of m, each once: one iteration order of the unordered map. */
  predicate Lists<K(==), V>(order: seq<K>, m: map<K, V>) {
    && (forall k :: k in order ==> k in m)
    && (forall k :: k in m ==> k in order)
    && Distinct(order)
  }

  /** Every listing of a map is as long as the map is large. */
  lemma {:induction false} ListingSize<K, V>(order: seq<K>, m: map<K, V>)
    requires Lists(order, m)
    ensures |order| == |m|
  {
    if |order| > 0 {
      var k := order[0];
      var rest := m - {k};
      assert forall x :: x in order[1..] <==> x in order && x != k;
      ListingSize(order[1..], rest);
    }
  }

  /** In a repetition-free sequence every element occurs once and nothing else occurs. */
  lemma {:induction false} DistinctCounts<T>(s: seq<T>)
    requires Distinct(s)
    ensures forall x :: multiset(s)[x] == if x in s then 1 else 0
  {
    if |s| > 0 {
      assert s == [s[0]] + s[1..];
      DistinctCounts(s[1..]);
      assert s[0] !in s[1..];
    }
  }

  /** Two repetition-free sequences with the same elements are permutations of each other. */
  lemma SameElementsSameMultiset<T>(a: seq<T>, b: seq<T>)
    requires Distinct(a) && Distinct(b)
    requires forall x :: x in a <==> x in b
    ensures multiset(a) == multiset(b)
  {
    DistinctCounts(a);
    DistinctCounts(b);
    assert forall x :: multiset(a)[x] == multiset(b)[x];
  }

  /** Any two iteration orders of one map visit the same keys the same number of times. */
  lemma ListingsAgree<K, V>(o1: seq<K>, o2: seq<K>, m: map<K, V>)
    requires Lists(o1, m) && Lists(o2, m)
    ensures multiset(o1) == multiset(o2)
  {
    SameElementsSameMultiset(o1, o2);
  }

  /** Some element of a non-empty set, the same one each time it is asked for. */
  ghost function Pick<T>(s: set<T>): (x: T)
    requires s != {}
    ensures x in s
  {
    var x :| x in s; x
  }

  /** One listing of a finite set: each element once. */
  ghost function ListOf<T(!new)>(s: set<T>): (r: seq<T>)
    ensures Distinct(r)
    ensures forall x :: x in r <==> x in s
    decreases s
  {
    if s == {} then []
    else
      var rest := ListOf(s - {Pick(s)});
      assert Pick(s) !in rest;
      rest + [Pick(s)]
  }
}

=== FILE: morph_cache.dfy ===
/**
 * The cache of parsed .tri files kept by BodyMorphInterface: lookups that
 * hit refresh the entry's access time, misses parse the file and add its
 * memory usage to a running total, and ShrinkMorphCache evicts the least
 * recently accessed entries until the total is within the limit.
 *
 * The cache is single-threaded here. Wall-clock time is a parameter `now`,
 * and the resource stream is the file's bytes, or None when it cannot be
 * opened.
 */
module MorphCache {
  import opened Wrappers
  import opened Bytes
  import opened TriFormat
  import opened Listing

  /** The interface's initial memory limit: 2 GiB. */
  const DefaultMemoryLimit: nat := 0x8000_0000
  /** sizeof(TriShapeMap) on the 64-bit target: a fresh map's starting memoryUsage. */
  const TriShapeMapSize: nat := 88
  /** sizeof(std::unordered_map<...>) on the 64-bit target: the total of an emptied cache. */
  const CacheMapSize: nat := 64

  type Path = string

  /** A cached file: its shapes, its UInt32 memoryUsage and its last access time. */
  datatype Entry = Entry(shapes: TriShapeMap, memoryUsage: U32, accessed: int)

  /** The cache, its UInt64 running total and its UInt64 limit. */
  datatype Cache = Cache(entries: map<Path, Entry>, total: U64, limit: U64)

  /** The state of a newly constructed interface. */
  const Initial: Cache := Cache(map[], 0, DefaultMemoryLimit)

  /** Some key of a non-empty map. */
  ghost function AnyKey(es: map<Path, Entry>): (k: Path)
    requires |es| > 0
    ensures k in es
  {
    var k :| k in es; k
  }

  /** Sum of the memory usage of the entries. */
  ghost function Usage(es: map<Path, Entry>): nat
    decreases |es|
  {
    if |es| == 0 then 0
    else
      var k := AnyKey(es);
      es[k].memoryUsage + Usage(es - {k})
  }

  /** Usage does not depend on which key the definition takes first. */
  lemma {:induction false} UsageRemove(es: map<Path, Entry>, k: Path)
    requires k in es
    ensures Usage(es) == es[k].memoryUsage + Usage(es - {k})
    decreases |es|
  {
    var j := AnyKey(es);
    if j != k {
      UsageRemove(es - {j}, k);
      UsageRemove(es - {k}, j);
      assert es - {j} - {k} == es - {k} - {j};
    }
  }

  lemma UsageEmpty(es: map<Path, Entry>)
    requires |es| == 0
    ensures Usage(es) == 0
  {
  }

  /** The running total covers every cached entry, so subtracting an entry never wraps. */
  ghost predicate Accounted(c: Cache) {
    Usage(c.entries) <= c.total
  }

  /** The UInt64 running total after adding one entry's usage. */
  function AddUsage(total: U64, usage: U32): (r: U64)
    ensures total + usage < TwoTo64 ==> r == total + usage
    ensures total + usage >= TwoTo64 ==> r == total + usage - TwoTo64
  {
    (total + usage) % TwoTo64
  }

  /** The UInt64 running total after subtracting one entry's usage. */
  function SubUsage(total: U64, usage: U32): (r: U64)
    ensures usage <= total ==> r == total - usage
    ensures usage > total ==> r == total - usage + TwoTo64
  {
    (total - usage) % TwoTo64
  }

  /** memoryUsage of a file read in full: the map's own size plus the bytes read, as a UInt32. */
  function MemoryUsage(consumed: nat): (u: U32)
    ensures TriShapeMapSize + consumed < TwoTo32 ==> u == TriShapeMapSize + consumed
    ensures u % TwoTo32 == (TriShapeMapSize + consumed) % TwoTo32
  {
    (TriShapeMapSize + consumed) % TwoTo32
  }

  /**
   * GetTrishapeMap as written: a hit refreshes the access time and returns
   * the cached shapes; a miss reads the file, and only a successful read is
   * cached, with its usage added to the total.
   */
  function LookupAsWritten(c: Cache, path: Path, now: int, file: Option<seq<Byte>>, f32: F32)
    : (r: (Cache, Option<TriShapeMap>))
    ensures r.0.limit == c.limit
    ensures path in c.entries ==> r.1 == Some(c.entries[path].shapes)
    ensures path in c.entries ==> r.0.total == c.total && r.0.entries.Keys == c.entries.Keys
    ensures path in c.entries ==> r.0.entries[path] == c.entries[path].(accessed := now)
    ensures path in c.entries ==> forall k :: k in c.entries && k != path ==> r.0.entries[k] == c.entries[k]
    ensures path !in c.entries && (file.None? || ParseFile(file.value, f32).Failure?) ==> r == (c, None)
    ensures path !in c.entries && file.Some? && ParseFile(file.value, f32).Success? ==>
      var p := ParseFile(file.value, f32).value;
      && r.1 == Some(p.shapes)
      && r.0.entries == c.entries[path := Entry(p.shapes, MemoryUsage(p.consumed), now)]
      && r.0.total == AddUsage(c.total, MemoryUsage(p.consumed))
  {
    if path in c.entries then
      var e := c.entries[path];
      (c.(entries := c.entries[path := e.(accessed := now)]), Some(e.shapes))
    else
      match file
      case None => (c, None)
      case Some(bs) =>
        match ParseFile(bs, f32)
        case Failure(_) => (c, None)
        case Success(p) =>
          var usage := MemoryUsage(p.consumed);
          var e := Entry(p.shapes, usage, now);
          (c.(entries := c.entries[path := e], total := AddUsage(c.total, usage)), Some(p.shapes))
  }

  /**
   * A file name that is empty but not the very literal "" passes the guard of
   * GetTrishapeMap, and a successful read caches it under the empty name.
   */
  lemma EmptyPathPassesGuard(c: Cache, now: int, bs: seq<Byte>, f32: F32)
    requires "" !in c.entries && ParseFile(bs, f32).Success?
    ensures LookupAsWritten(c, "", now, Some(bs), f32).1.Some?
    ensures "" in LookupAsWritten(c, "", now, Some(bs), f32).0.entries
  {
  }

  /** GetTrishapeMap with its empty-name guard doing what it is meant to do. */
  function Lookup(c: Cache, path: Path, now: int, file: Option<seq<Byte>>, f32: F32)
    : (r: (Cache, Option<TriShapeMap>))
    ensures path == "" ==> r == (c, None)
    ensures path != "" ==> r == LookupAsWritten(c, path, now, file, f32)
  {
    if path == "" then (c, None) else LookupAsWritten(c, path, now, file, f32)
  }

  /** A hit never looks at the file. */
  lemma HitIgnoresFile(c: Cache, path: Path, now: int, f1: Option<seq<Byte>>, f2: Option<seq<Byte>>, f32: F32)
    requires path in c.entries
    ensures Lookup(c, path, now, f1, f32) == Lookup(c, path, now, f2, f32)
  {
  }

  /** A file with an unknown format tag yields no map and leaves the cache as it was. */
  lemma BadMagicNotCached(c: Cache, path: Path, now: int, bs: seq<Byte>, f32: F32)
    requires path !in c.entries && |bs| >= 4 && !KnownFormat(bs)
    ensures Lookup(c, path, now, Some(bs), f32) == (c, None)
  {
  }

  /** A lookup keeps the total covering the entries, as long as the UInt64 total does not wrap. */
  lemma LookupKeepsAccounted(c: Cache, path: Path, now: int, file: Option<seq<Byte>>, f32: F32)
    requires Accounted(c)
    requires file.Some? && ParseFile(file.value, f32).Success? ==>
      c.total + MemoryUsage(ParseFile(file.value, f32).value.consumed) < TwoTo64
    ensures Accounted(Lookup(c, path, now, file, f32).0)
  {
    if path != "" {
      if path in c.entries {
        HitKeepsAccounted(c, path, now);
      } else if file.Some? && ParseFile(file.value, f32).Success? {
        var p := ParseFile(file.value, f32).value;
        InsertKeepsAccounted(c, path, Entry(p.shapes, MemoryUsage(p.consumed), now));
      }
    }
  }

  /** Refreshing an entry's access time keeps the total covering the entries. */
  lemma HitKeepsAccounted(c: Cache, path: Path, now: int)
    requires Accounted(c) && path in c.entries
    ensures Accounted(c.(entries := c.entries[path := c.entries[path].(accessed := now)]))
  {
    var es := c.entries[path := c.entries[path].(accessed := now)];
    UsageRemove(c.entries, path);
    UsageRemove(es, path);
    ReplaceThenRemove(c.entries, path, es[path]);
  }

  /** Caching a new entry adds its usage to a total that does not wrap. */
  lemma InsertKeepsAccounted(c: Cache, path: Path, e: Entry)
    requires Accounted(c) && path !in c.entries && c.total + e.memoryUsage < TwoTo64
    ensures Accounted(c.(entries := c.entries[path := e], total := AddUsage(c.total, e.memoryUsage)))
  {
    var es := c.entries[path := e];
    UsageRemove(es, path);
    ReplaceThenRemove(c.entries, path, e);
    assert c.entries - {path} == c.entries;
  }

  lemma ReplaceThenRemove(es: map<Path, Entry>, k: Path, e: Entry)
    ensures es[k := e] - {k} == es - {k}
  {
  }

  /** SetCacheLimit: only the limit changes. */
  function SetCacheLimit(c: Cache, limit: U64): (r: Cache)
    ensures r.limit == limit && r.entries == c.entries && r.total == c.total
  {
    c.(limit := limit)
  }

  // ------------------------------------------------------------ eviction

  /**
   * What std::min_element returns under "accessed is less": the first key in
   * iteration order whose entry has the smallest access time.
   */
  function Oldest(order: seq<Path>, es: map<Path, Entry>): (k: Path)
    requires |order| > 0 && forall i :: 0 <= i < |order| ==> order[i] in es
    ensures k in order && k in es
    ensures forall i :: 0 <= i < |order| ==> es[k].accessed <= es[order[i]].accessed
    ensures forall i :: 0 <= i < |order| && order[i] != k && es[order[i]].accessed == es[k].accessed ==>
      exists j :: 0 <= j < i && order[j] == k
  {
    if |order| == 1 then order[0]
    else
      var rest := Oldest(order[1..], es);
      assert forall i :: 1 <= i < |order| ==> order[i] == order[1..][i - 1];
      if es[rest].accessed < es[order[0]].accessed then rest else order[0]
  }

  /** order without key k; erasing from an unordered map keeps the others' relative order. */
  function Without(order: seq<Path>, k: Path): (r: seq<Path>)
    ensures forall x :: x in r <==> x in order && x != k
    ensures |r| <= |order|
    ensures k in order ==> |r| < |order|
    ensures Distinct(order) ==> Distinct(r)
  {
    if |order| == 0 then []
    else
      var rest := Without(order[1..], k);
      assert forall x :: x in order <==> x == order[0] || x in order[1..];
      if order[0] == k then rest
      else
        assert Distinct(order) ==> order[0] !in order[1..] && Distinct(order[1..]);
        [order[0]] + rest
  }

  /**
   * The eviction loop of ShrinkMorphCache: while the total exceeds the limit
   * and entries remain, erase the oldest entry and subtract its usage (as a
   * UInt64). Returns the state after the loop and the keys it erased, in order.
   */
  function EvictLoop(c: Cache, order: seq<Path>): (r: (Cache, seq<Path>))
    requires Lists(order, c.entries)
    ensures r.0.limit == c.limit
    ensures r.0.total <= c.limit || |r.0.entries| == 0
    ensures r.0.entries.Keys <= c.entries.Keys
    ensures forall k :: k in r.0.entries ==> r.0.entries[k] == c.entries[k]
    ensures forall k :: k in c.entries ==> (k in r.0.entries <==> k !in r.1)
    ensures forall k :: k in r.1 ==> k in c.entries
    ensures forall e, k :: e in r.1 && k in r.0.entries ==> c.entries[e].accessed <= c.entries[k].accessed
    ensures c.total <= c.limit ==> r == (c, [])
    ensures |r.1| == 0 ==> r.0 == c
    ensures Accounted(c) ==> Accounted(r.0)
    decreases |order|
  {
    if c.total > c.limit && |order| > 0 then
      var k := Oldest(order, c.entries);
      var size := c.entries[k].memoryUsage;
      var next := Cache(c.entries - {k}, SubUsage(c.total, size), c.limit);
      AccountedAfterErase(c, k, next);
      var (r, evicted) := EvictLoop(next, Without(order, k));
      (r, [k] + evicted)
    else
      KeysListed(order, c.entries);
      (c, [])
  }

  /**
   * The last key r evicts from c was needed: with its usage added back, the
   * total exceeds the limit.
   */
  ghost predicate LastEvictionNeeded(c: Cache, r: (Cache, seq<Path>)) {
    Accounted(c) && |r.1| > 0 ==>
      r.1[|r.1| - 1] in c.entries && r.0.total + c.entries[r.1[|r.1| - 1]].memoryUsage > c.limit
  }

  /** The eviction loop evicts no more than it must. */
  lemma {:induction false} EvictionMinimal(c: Cache, order: seq<Path>)
    requires Lists(order, c.entries)
    ensures LastEvictionNeeded(c, EvictLoop(c, order))
    decreases |order|
  {
    if c.total > c.limit && |order| > 0 {
      var k := Oldest(order, c.entries);
      var next := Cache(c.entries - {k}, SubUsage(c.total, c.entries[k].memoryUsage), c.limit);
      var rest := EvictLoop(next, Without(order, k));
      assert EvictLoop(c, order) == (rest.0, [k] + rest.1);
      AccountedAfterErase(c, k, next);
      EvictionMinimal(next, Without(order, k));
      EvictionStepNeeded(c, k, next, rest);
    }
  }

  /** Evicting k was needed, so the last eviction after it was too. */
  lemma EvictionStepNeeded(c: Cache, k: Path, next: Cache, rest: (Cache, seq<Path>))
    requires k in c.entries && c.total > c.limit && next.limit == c.limit
    requires next.entries == c.entries - {k}
    requires Accounted(c) ==> Accounted(next) && next.total == c.total - c.entries[k].memoryUsage
    requires |rest.1| == 0 ==> rest.0 == next
    requires LastEvictionNeeded(next, rest)
    ensures LastEvictionNeeded(c, (rest.0, [k] + rest.1))
  {
    if |rest.1| > 0 {
      assert ([k] + rest.1)[|rest.1|] == rest.1[|rest.1| - 1];
    }
  }

  lemma KeysListed(order: seq<Path>, es: map<Path, Entry>)
    requires Lists(order, es)
    ensures |order| == 0 ==> |es| == 0
  {
    if |es| > 0 {
      var k :| k in es;
    }
  }

  lemma AccountedAfterErase(c: Cache, k: Path, next: Cache)
    requires k in c.entries
    requires next == Cache(c.entries - {k}, SubUsage(c.total, c.entries[k].memoryUsage), c.limit)
    ensures Accounted(c) ==> Accounted(next) && next.total == c.total - c.entries[k].memoryUsage
  {
    if Accounted(c) {
      UsageRemove(c.entries, k);
    }
  }

  /**
   * ShrinkMorphCache: the eviction loop, then the reset of an emptied
   * cache's total to the size of the empty map.
   */
  function Shrink(c: Cache, order: seq<Path>): (r: Cache)
    requires Lists(order, c.entries)
    ensures r.limit == c.limit
    ensures r.total <= c.limit || |r.entries| == 0
    ensures |r.entries| == 0 ==> r.total == CacheMapSize
    ensures r.entries.Keys <= c.entries.Keys
    ensures forall k :: k in r.entries ==> r.entries[k] == c.entries[k]
    ensures forall e, k :: e in c.entries && e !in r.entries && k in r.entries ==>
      c.entries[e].accessed <= c.entries[k].accessed
    ensures c.total <= c.limit && |c.entries| > 0 ==> r == c
    ensures Accounted(c) ==> Accounted(r)
    ensures Accounted(c) && |r.entries| > 0 && r != c ==>
      exists e :: e in c.entries && e !in r.entries && r.total + c.entries[e].memoryUsage > c.limit
  {
    var (after, evicted) := EvictLoop(c, order);
    EvictionMinimal(c, order);
    NeededEvictionWitness(c, (after, evicted));
    if |after.entries| == 0 then
      UsageEmpty(after.entries);
      after.(total := CacheMapSize)
    else after
  }

  /** The last key evicted is one whose usage would put the total back over the limit. */
  lemma NeededEvictionWitness(c: Cache, r: (Cache, seq<Path>))
    requires LastEvictionNeeded(c, r)
    requires forall k :: k in c.entries ==> (k in r.0.entries <==> k !in r.1)
    requires |r.1| == 0 ==> r.0 == c
    ensures Accounted(c) && r.0 != c ==>
      exists e :: e in c.entries && e !in r.0.entries && r.0.total + c.entries[e].memoryUsage > c.limit
  {
    if Accounted(c) && r.0 != c {
      var e := r.1[|r.1| - 1];
      assert e in r.1;
    }
  }

  /** Lowering the limit and shrinking leaves the total within the new limit, or the cache empty. */
  lemma SetLimitThenShrink(c: Cache, limit: U64, order: seq<Path>)
    requires Lists(order, c.entries)
    ensures var r := Shrink(SetCacheLimit(c, limit), order);
      (r.total <= limit || |r.entries| == 0) && r.limit == limit
  {
  }

  // ------------------------------------------------------------ cache keys

  /** ::tolower in the "C" locale: only 'A'..'Z' change. */
  function ToLower(ch: char): (r: char)
    ensures 'A' <= ch <= 'Z' ==> r as int == ch as int + 32
    ensures !('A' <= ch <= 'Z') ==> r == ch
  {
    if 'A' <= ch <= 'Z' then (ch as int + 32) as char else ch
  }

  function Lower(s: string): (r: string)
    ensures |r| == |s|
    ensures forall i :: 0 <= i < |s| ==> r[i] == ToLower(s[i])
  {
    seq(|s|, i requires 0 <= i < |s| => ToLower(s[i]))
  }

  const MeshesPrefix: string := "meshes\\"

  /**
   * PrefixMeshPath as written: its empty-name test compares the argument's
   * address with a string literal's, which a name read from a file never
   * matches, so the prefix is always added.
   */
  function PrefixMeshPathAsWritten(relativePath: string): (r: string)
    ensures |r| == |MeshesPrefix| + |relativePath|
    ensures r[..|MeshesPrefix|] == MeshesPrefix
    ensures forall i :: 0 <= i < |relativePath| ==> r[|MeshesPrefix| + i] == ToLower(relativePath[i])
  {
    Lower(MeshesPrefix + relativePath)
  }

  /** The as-written key of an empty name is "meshes\", not the empty string. */
  lemma PrefixAsWrittenOfEmpty()
    ensures PrefixMeshPathAsWritten("") == MeshesPrefix != ""
  {
    assert Lower(MeshesPrefix) == MeshesPrefix;
  }

  /** PrefixMeshPath as intended: the empty name stays empty. */
  function PrefixMeshPath(relativePath: string): (r: string)
    ensures r == "" <==> relativePath == ""
    ensures relativePath != "" ==> r == PrefixMeshPathAsWritten(relativePath)
  {
    if relativePath == "" then "" else PrefixMeshPathAsWritten(relativePath)
  }

  /** Keys contain no upper-case ASCII letter. */
  lemma KeyIsLowerCase(relativePath: string)
    ensures forall i :: 0 <= i < |PrefixMeshPath(relativePath)| ==> !('A' <= PrefixMeshPath(relativePath)[i] <= 'Z')
  {
  }

  /** Two names give the same key exactly when they agree up to ASCII case. */
  lemma SameKeyIffSameIgnoringCase(p: string, q: string)
    ensures PrefixMeshPath(p) == PrefixMeshPath(q) <==> Lower(p) == Lower(q)
  {
    var kp, kq := PrefixMeshPath(p), PrefixMeshPath(q);
    if p != "" && q != "" {
      if kp == kq {
        assert forall i :: 0 <= i < |p| ==> Lower(p)[i] == kp[|MeshesPrefix| + i];
        assert forall i :: 0 <= i < |q| ==> Lower(q)[i] == kq[|MeshesPrefix| + i];
      }
      if Lower(p) == Lower(q) {
        assert forall i :: 0 <= i < |kp| ==> kp[i] == kq[i] by {
          forall i | 0 <= i < |kp| ensures kp[i] == kq[i] {
            if i >= |MeshesPrefix| {
              assert kp[i] == Lower(p)[i - |MeshesPrefix|];
            } else {
              assert kp[i] == kp[..|MeshesPrefix|][i];
              assert kq[i] == kq[..|MeshesPrefix|][i];
            }
          }
        }
      }
    }
  }
}

=== FILE: persistence.dfy ===
/**
 * Save and Load of the weight tables (BodyMorphInterface::Save / Load and
 * MorphValueMap::Save / Load) over a stream of typed tokens. A record header
 * is one token; reading a token of the wrong kind, or past the end, is a
 * failed read. The string table and the engine's form-id, handle, keyword
 * and actor lookups are partial maps passed in.
 */
module Persistence {
  import opened Wrappers
  import opened Bytes
  import opened Listing
  import W = Weights
  import WS = WeightStore

  const Version1: U32 := 1
  const Version2: U32 := 2
  /** The version every record is written with. */
  const SerializationVersion: U32 := Version2

  /** Multi-character record tags as the compiler packs them: 'MRPM', 'MRPH', 'MRVM'. */
  const MaleRecord: U32 := 0x4D52_504D
  const FemaleRecord: U32 := 0x4D52_5048
  const ValueMapRecord: U32 := 0x4D52_564D

  datatype Token =
    | Header(tag: U32, version: U32)
    | Word(word: U32)
    | Long(long: U64)
    | Float(float: real)

  datatype LoadError = ReadFailed | UnknownString(id: U32) | UnexpectedRecord(tag: U32)

  /** A size_t stored into a UInt32. */
  function Low32(n: nat): (r: U32)
    ensures n < TwoTo32 ==> r == n
  {
    n % TwoTo32
  }

  // ------------------------------------------------------------------ Save

  /**
   * The order in which the unordered maps of the tables iterate; any order
   * that lists each key once is possible.
   */
  datatype Iteration = Iteration(
    morphs: W.MorphValueMap -> seq<W.Name>,
    keys: W.UserValues -> seq<W.KeywordId>,
    actors: map<WS.ActorId, WS.MapId> -> seq<WS.ActorId>)

  ghost predicate Enumerates(it: Iteration) {
    && (forall mvm: W.MorphValueMap :: Lists(it.morphs(mvm), mvm))
    && (forall uv: W.UserValues :: Lists(it.keys(uv), uv))
    && (forall t: map<WS.ActorId, WS.MapId> :: Lists(it.actors(t), t))
  }

  /*
   * Every writer takes the tokens written after it, `tail`, and returns its own
   * tokens followed by them, so that a stream is built front to back.
   */

  /** The (keyword, value) pairs of one morph, in the order ks. */
  function SaveKeys(uv: W.UserValues, ks: seq<W.KeywordId>, tail: seq<Token>): (r: seq<Token>)
    requires forall k :: k in ks ==> k in uv
    ensures |r| == 2 * |ks| + |tail| && r[2 * |ks|..] == tail
    ensures forall i :: 0 <= i < |ks| ==> r[2 * i] == Word(ks[i]) && r[2 * i + 1] == Float(uv[ks[i]])
  {
    if ks == [] then tail
    else
      var rest := SaveKeys(uv, ks[1..], tail);
      assert forall i :: 1 <= i < |ks| ==> ks[i] == ks[1..][i - 1];
      [Word(ks[0]), Float(uv[ks[0]])] + rest
  }

  /** Tokens one saved morph takes: string id, key count, and two per key. */
  function MorphTokens(mvm: W.MorphValueMap, n: W.Name, it: Iteration): nat
    requires n in mvm
  {
    2 + 2 * |it.keys(mvm[n])|
  }

  /** Where the i-th morph of names starts in the output of SaveMorphs. */
  function MorphsOffset(mvm: W.MorphValueMap, names: seq<W.Name>, it: Iteration, i: nat): nat
    requires i <= |names| && forall n :: n in names ==> n in mvm
    decreases i
  {
    if i == 0 then 0 else MorphTokens(mvm, names[0], it) + MorphsOffset(mvm, names[1..], it, i - 1)
  }

  /** The tokens of one saved morph: its string id, its key count, then its pairs in key order. */
  function MorphBody(mvm: W.MorphValueMap, n: W.Name, it: Iteration, ids: W.Name -> U32): (r: seq<Token>)
    requires Enumerates(it) && n in mvm
    ensures |r| == MorphTokens(mvm, n, it)
    ensures r[0] == Word(ids(n)) && r[1] == Word(Low32(|mvm[n]|))
    ensures forall j :: 0 <= j < |it.keys(mvm[n])| ==>
      r[2 + 2 * j] == Word(it.keys(mvm[n])[j]) && r[3 + 2 * j] == Float(mvm[n][it.keys(mvm[n])[j]])
  {
    var uv := mvm[n];
    var keys := SaveKeys(uv, it.keys(uv), []);
    var r := [Word(ids(n)), Word(Low32(|uv|))] + keys;
    assert forall j :: 0 <= j < |it.keys(uv)| ==> r[2 + 2 * j] == keys[2 * j] && r[3 + 2 * j] == keys[2 * j + 1];
    r
  }

  /** At offset o of r lie the tokens of morph n. */
  ghost predicate SavedMorphAt(r: seq<Token>, o: nat, mvm: W.MorphValueMap, n: W.Name, it: Iteration, ids: W.Name -> U32)
    requires Enumerates(it) && n in mvm
  {
    o + MorphTokens(mvm, n, it) <= |r| && r[o..o + MorphTokens(mvm, n, it)] == MorphBody(mvm, n, it, ids)
  }

  /** The pairs of a morph come first and the tail follows them unchanged. */
  lemma {:induction false} SaveKeysAppend(uv: W.UserValues, ks: seq<W.KeywordId>, tail: seq<Token>)
    requires forall k :: k in ks ==> k in uv
    ensures SaveKeys(uv, ks, tail) == SaveKeys(uv, ks, []) + tail
    decreases |ks|
  {
    if ks != [] {
      var pair := [Word(ks[0]), Float(uv[ks[0]])];
      SaveKeysAppend(uv, ks[1..], tail);
      calc {
        SaveKeys(uv, ks, tail);
        pair + SaveKeys(uv, ks[1..], tail);
        pair + (SaveKeys(uv, ks[1..], []) + tail);
        (pair + SaveKeys(uv, ks[1..], [])) + tail;
        SaveKeys(uv, ks, []) + tail;
      }
    }
  }

  /** r holds every morph of names at its offset, followed by tail. */
  ghost predicate MorphsSaved(r: seq<Token>, mvm: W.MorphValueMap, names: seq<W.Name>, it: Iteration,
                              ids: W.Name -> U32, tail: seq<Token>)
    requires Enumerates(it) && forall n :: n in names ==> n in mvm
  {
    && |r| == MorphsOffset(mvm, names, it, |names|) + |tail| && r[MorphsOffset(mvm, names, it, |names|)..] == tail
    && forall i :: 0 <= i < |names| ==> SavedMorphAt(r, MorphsOffset(mvm, names, it, i), mvm, names[i], it, ids)
  }

  /** Per morph in the order names: its string id, its key count, its pairs. */
  function SaveMorphs(mvm: W.MorphValueMap, names: seq<W.Name>, it: Iteration, ids: W.Name -> U32,
                      tail: seq<Token>): (r: seq<Token>)
    requires Enumerates(it)
    requires forall n :: n in names ==> n in mvm
    ensures names == [] ==> r == tail
    ensures MorphsSaved(r, mvm, names, it, ids, tail)
    decreases |names|
  {
    if names == [] then tail
    else
      var uv := mvm[names[0]];
      var rest := SaveMorphs(mvm, names[1..], it, ids, tail);
      SaveMorphsStep(mvm, names, it, ids, tail, rest);
      [Word(ids(names[0])), Word(Low32(|uv|))] + SaveKeys(uv, it.keys(uv), rest)
  }

  /** Putting one more morph in front of the saved rest shifts every later morph by its size. */
  lemma SaveMorphsStep(mvm: W.MorphValueMap, names: seq<W.Name>, it: Iteration, ids: W.Name -> U32,
                       tail: seq<Token>, rest: seq<Token>)
    requires Enumerates(it) && names != [] && forall n :: n in names ==> n in mvm
    requires MorphsSaved(rest, mvm, names[1..], it, ids, tail)
    ensures var uv := mvm[names[0]];
      MorphsSaved([Word(ids(names[0])), Word(Low32(|uv|))] + SaveKeys(uv, it.keys(uv), rest), mvm, names, it, ids, tail)
  {
    var uv := mvm[names[0]];
    var r := [Word(ids(names[0])), Word(Low32(|uv|))] + SaveKeys(uv, it.keys(uv), rest);
    var d := MorphTokens(mvm, names[0], it);
    SavedMorphHead(mvm, names[0], it, ids, rest);
    assert MorphsOffset(mvm, names, it, |names|) == d + MorphsOffset(mvm, names[1..], it, |names| - 1);
    SavedTailShift(r, d, rest, MorphsOffset(mvm, names[1..], it, |names| - 1), tail);
    SavedMorphsShift(r, d, rest, mvm, names, it, ids);
  }

  /** The tail found at o in a suffix starting at d of r is found at o + d in r. */
  lemma SavedTailShift(r: seq<Token>, d: nat, rest: seq<Token>, o: nat, tail: seq<Token>)
    requires d <= |r| && r[d..] == rest && o <= |rest| && rest[o..] == tail
    ensures |r| == d + o + |tail| && r[d + o..] == tail
  {
    assert r[d + o..] == rest[o..];
  }

  /** Every later morph saved in rest is found, shifted by d, in r. */
  lemma SavedMorphsShift(r: seq<Token>, d: nat, rest: seq<Token>, mvm: W.MorphValueMap, names: seq<W.Name>,
                         it: Iteration, ids: W.Name -> U32)
    requires Enumerates(it) && names != [] && forall n :: n in names ==> n in mvm
    requires d == MorphTokens(mvm, names[0], it) && d <= |r| && r[d..] == rest
    requires SavedMorphAt(r, 0, mvm, names[0], it, ids)
    requires forall i :: 0 <= i < |names| - 1 ==>
      SavedMorphAt(rest, MorphsOffset(mvm, names[1..], it, i), mvm, names[1..][i], it, ids)
    ensures forall i :: 0 <= i < |names| ==> SavedMorphAt(r, MorphsOffset(mvm, names, it, i), mvm, names[i], it, ids)
  {
    forall i | 1 <= i < |names| ensures SavedMorphAt(r, MorphsOffset(mvm, names, it, i), mvm, names[i], it, ids) {
      SavedLaterMorph(r, d, rest, mvm, names, it, ids, i);
    }
  }

  /** The i-th morph, found at its offset in rest, is found at its offset in r. */
  lemma SavedLaterMorph(r: seq<Token>, d: nat, rest: seq<Token>, mvm: W.MorphValueMap, names: seq<W.Name>,
                        it: Iteration, ids: W.Name -> U32, i: nat)
    requires Enumerates(it) && 1 <= i < |names| && forall n :: n in names ==> n in mvm
    requires d == MorphTokens(mvm, names[0], it) && d <= |r| && r[d..] == rest
    requires SavedMorphAt(rest, MorphsOffset(mvm, names[1..], it, i - 1), mvm, names[1..][i - 1], it, ids)
    ensures SavedMorphAt(r, MorphsOffset(mvm, names, it, i), mvm, names[i], it, ids)
  {
    assert names[i] == names[1..][i - 1];
    SavedMorphShift(r, d, rest, MorphsOffset(mvm, names[1..], it, i - 1), mvm, names[i], it, ids);
  }

  /** One morph written in front of rest is found at offset 0, and rest follows it. */
  lemma SavedMorphHead(mvm: W.MorphValueMap, n: W.Name, it: Iteration, ids: W.Name -> U32, rest: seq<Token>)
    requires Enumerates(it) && n in mvm
    ensures var uv := mvm[n];
      var r := [Word(ids(n)), Word(Low32(|uv|))] + SaveKeys(uv, it.keys(uv), rest);
      && |r| == MorphTokens(mvm, n, it) + |rest| && r[MorphTokens(mvm, n, it)..] == rest
      && SavedMorphAt(r, 0, mvm, n, it, ids)
  {
    var uv := mvm[n];
    var r := [Word(ids(n)), Word(Low32(|uv|))] + SaveKeys(uv, it.keys(uv), rest);
    SaveKeysAppend(uv, it.keys(uv), rest);
    assert r == MorphBody(mvm, n, it, ids) + rest;
  }

  /** A saved morph found at o in a suffix starting at d of r is found at o + d in r. */
  lemma SavedMorphShift(r: seq<Token>, d: nat, rest: seq<Token>, o: nat, mvm: W.MorphValueMap, n: W.Name,
                        it: Iteration, ids: W.Name -> U32)
    requires Enumerates(it) && n in mvm
    requires d <= |r| && r[d..] == rest
    requires SavedMorphAt(rest, o, mvm, n, it, ids)
    ensures SavedMorphAt(r, o + d, mvm, n, it, ids)
  {
    SliceShift(r, d, rest, o, o + MorphTokens(mvm, n, it));
  }

  /** A slice of a suffix starting at d of r is the same slice of r moved by d. */
  lemma SliceShift<T>(r: seq<T>, d: nat, rest: seq<T>, lo: nat, hi: nat)
    requires d <= |r| && r[d..] == rest && lo <= hi <= |rest|
    ensures r[lo + d..hi + d] == rest[lo..hi]
  {
    forall j | 0 <= j < hi - lo ensures r[lo + d..hi + d][j] == rest[lo..hi][j] {
      assert r[lo + d..hi + d][j] == r[d..][lo + j];
    }
  }

  /** MorphValueMap::Save: an 'MRVM' record, the morph count, then every morph. */
  function SaveValueMap(mvm: W.MorphValueMap, version: U32, it: Iteration, ids: W.Name -> U32,
                        tail: seq<Token>): (r: seq<Token>)
    requires Enumerates(it)
    ensures |r| >= 2 && r[0] == Header(ValueMapRecord, version) && r[1] == Word(Low32(|mvm|))
  {
    [Header(ValueMapRecord, version), Word(Low32(|mvm|))] + SaveMorphs(mvm, it.morphs(mvm), it, ids, tail)
  }

  /** The tag of one table's actor records. */
  function TableTag(isFemale: bool): U32 {
    if isFemale then FemaleRecord else MaleRecord
  }

  /** For each actor of one table, in the order actors: its record, its form id, its map. */
  function SaveEntries(s: WS.Store, isFemale: bool, actors: seq<WS.ActorId>, version: U32,
                       it: Iteration, ids: W.Name -> U32, tail: seq<Token>): (r: seq<Token>)
    requires WS.Valid(s) && Enumerates(it)
    requires forall a :: a in actors ==> a in WS.Table(s, isFemale)
    ensures actors == [] ==> r == tail
    ensures actors != [] ==> |r| >= 2 && r[0] == Header(TableTag(isFemale), version) && r[1] == Word(actors[0])
  {
    if actors == [] then tail
    else
      var a := actors[0];
      [Header(TableTag(isFemale), version), Word(a)]
        + SaveValueMap(s.heap[WS.Table(s, isFemale)[a]], version, it, ids,
                       SaveEntries(s, isFemale, actors[1..], version, it, ids, tail))
  }

  /** BodyMorphInterface::Save: every male entry as 'MRPM', then every female entry as 'MRPH'. */
  function Save(s: WS.Store, version: U32, it: Iteration, ids: W.Name -> U32): (r: seq<Token>)
    requires WS.Valid(s) && Enumerates(it)
    ensures r == [] <==> |s.male| == 0 && |s.female| == 0
  {
    ListingSize(it.actors(s.male), s.male);
    ListingSize(it.actors(s.female), s.female);
    SaveEntries(s, false, it.actors(s.male), version, it, ids,
                SaveEntries(s, true, it.actors(s.female), version, it, ids, []))
  }

  // ------------------------------------------------------------------ Load

  /** How a stored form is identified: a form id (version 2), a handle (version 1), or not at all. */
  datatype Ref = FormRef(formId: U32) | HandleRef(handle: U64) | NoRef

  /**
   * The engine's answers. formIds and handles map a saved id to the id of the
   * current session; keywords and actors are the form ids that LookupFormByID
   * casts successfully; the handle maps give the form id of the object a
   * handle names, when it is of the wanted type.
   */
  datatype Resolvers = Resolvers(
    formIds: map<U32, U32>,
    handles: map<U64, U64>,
    keywords: set<U32>,
    keywordHandles: map<U64, W.KeywordId>,
    actors: set<U32>,
    actorHandles: map<U64, WS.ActorId>)

  /** What a Load needs besides the tokens; `enabled` is g_bEnableBodyMorphs. */
  datatype Env = Env(strings: map<U32, W.Name>, res: Resolvers, enabled: bool)

  function ReadWord(ts: seq<Token>): (r: Result<(U32, seq<Token>), LoadError>)
    ensures r.Success? <==> |ts| > 0 && ts[0].Word?
    ensures r.Success? ==> r.value == (ts[0].word, ts[1..])
  {
    if |ts| > 0 && ts[0].Word? then Success((ts[0].word, ts[1..])) else Failure(ReadFailed)
  }

  function ReadFloat(ts: seq<Token>): (r: Result<(real, seq<Token>), LoadError>)
    ensures r.Success? <==> |ts| > 0 && ts[0].Float?
    ensures r.Success? ==> r.value == (ts[0].float, ts[1..])
  {
    if |ts| > 0 && ts[0].Float? then Success((ts[0].float, ts[1..])) else Failure(ReadFailed)
  }

  /** A u32 form id from version 2 on, a u64 handle in version 1, nothing before. */
  function ReadRef(ts: seq<Token>, version: U32): (r: Result<(Ref, seq<Token>), LoadError>)
    ensures version >= Version2 ==>
      (r.Success? <==> |ts| > 0 && ts[0].Word?) && (r.Success? ==> r.value == (FormRef(ts[0].word), ts[1..]))
    ensures version == Version1 ==>
      (r.Success? <==> |ts| > 0 && ts[0].Long?) && (r.Success? ==> r.value == (HandleRef(ts[0].long), ts[1..]))
    ensures version < Version1 ==> r == Success((NoRef, ts))
  {
    if version >= Version2 then
      if |ts| > 0 && ts[0].Word? then Success((FormRef(ts[0].word), ts[1..])) else Failure(ReadFailed)
    else if version >= Version1 then
      if |ts| > 0 && ts[0].Long? then Success((HandleRef(ts[0].long), ts[1..])) else Failure(ReadFailed)
    else Success((NoRef, ts))
  }

  /** ResolveFormId / ResolveHandle; an unversioned reference needs no resolving. */
  function Resolve(ref: Ref, res: Resolvers): (r: Option<Ref>)
    ensures ref.NoRef? ==> r == Some(NoRef)
    ensures ref.FormRef? ==> (r.Some? <==> ref.formId in res.formIds)
    ensures ref.HandleRef? ==> (r.Some? <==> ref.handle in res.handles)
    ensures r.Some? ==> r.value.FormRef? == ref.FormRef? && r.value.HandleRef? == ref.HandleRef?
  {
    match ref
    case NoRef => Some(NoRef)
    case FormRef(id) => if id in res.formIds then Some(FormRef(res.formIds[id])) else None
    case HandleRef(h) => if h in res.handles then Some(HandleRef(res.handles[h])) else None
  }

  /** The keyword a resolved reference names, if the form it names is one. */
  function KeywordOf(ref: Ref, res: Resolvers): (r: Option<W.KeywordId>)
    ensures ref.FormRef? ==> (r.Some? <==> ref.formId in res.keywords) && (r.Some? ==> r.value == ref.formId)
    ensures ref.NoRef? ==> r.None?
  {
    match ref
    case NoRef => None
    case FormRef(id) => if id in res.keywords then Some(id) else None
    case HandleRef(h) => if h in res.keywordHandles then Some(res.keywordHandles[h]) else None
  }

  /** The actor a resolved reference names, if the form it names is one. */
  function ActorOf(ref: Ref, res: Resolvers): (r: Option<WS.ActorId>)
    ensures ref.FormRef? ==> (r.Some? <==> ref.formId in res.actors) && (r.Some? ==> r.value == ref.formId)
    ensures ref.NoRef? ==> r.None?
  {
    match ref
    case NoRef => None
    case FormRef(id) => if id in res.actors then Some(id) else None
    case HandleRef(h) => if h in res.actorHandles then Some(res.actorHandles[h]) else None
  }

  /** std::unordered_map::emplace: an existing key keeps its value. */
  function Emplace<K(!new), V>(m: map<K, V>, k: K, v: V): (r: map<K, V>)
    ensures k in r && r[k] == (if k in m then m[k] else v)
    ensures forall j :: j != k ==> (j in r <==> j in m)
    ensures forall j :: j in m ==> j in r && r[j] == m[j]
  {
    if k in m then m else m[k := v]
  }

  /** One pair read by the key loop: skipped when zero or unresolvable, else emplaced. */
  function AddPair(ref: Ref, value: real, res: Resolvers, acc: W.UserValues): (r: W.UserValues)
    ensures value == 0.0 || Resolve(ref, res).None? ==> r == acc
    ensures value != 0.0 && Resolve(ref, res).Some? ==>
      W.KeyOf(KeywordOf(Resolve(ref, res).value, res)) in r &&
      forall k :: k in r ==> k in acc || k == W.KeyOf(KeywordOf(Resolve(ref, res).value, res))
    ensures forall k :: k in acc ==> k in r && r[k] == acc[k]
    ensures forall k :: k in r && k !in acc ==> r[k] == value
    ensures W.NoZero(acc) ==> W.NoZero(r)
  {
    if value == 0.0 then acc
    else match Resolve(ref, res)
      case None => acc
      case Some(resolved) => Emplace(acc, W.KeyOf(KeywordOf(resolved, res)), value)
  }

  /**
   * The key loop of MorphValueMap::Load, from the pairs collected so far: a
   * zero value or an unresolvable keyword is skipped, a form that is not a
   * keyword is stored under 0, and the first value read for a key wins.
   */
  function LoadKeys(ts: seq<Token>, version: U32, n: nat, res: Resolvers, acc: W.UserValues)
    : (r: Result<(W.UserValues, seq<Token>), LoadError>)
    ensures r.Success? ==> |r.value.1| <= |ts|
    ensures r.Success? ==> forall k :: k in acc ==> k in r.value.0 && r.value.0[k] == acc[k]
    ensures r.Success? && W.NoZero(acc) ==> W.NoZero(r.value.0)
    decreases n
  {
    if n == 0 then Success((acc, ts))
    else
      match ReadRef(ts, version)
      case Failure(e) => Failure(e)
      case Success((ref, ts1)) =>
        match ReadFloat(ts1)
        case Failure(e) => Failure(e)
        case Success((value, ts2)) =>
          LoadKeys(ts2, version, n - 1, res, AddPair(ref, value, res, acc))
  }

  /**
   * The morph loop of MorphValueMap::Load: a string id missing from the
   * table fails the load, a morph left without keys is skipped, and the first
   * morph read under a name wins.
   */
  function LoadMorphs(ts: seq<Token>, version: U32, n: nat, strings: map<U32, W.Name>,
                      res: Resolvers, acc: W.MorphValueMap)
    : (r: Result<(W.MorphValueMap, seq<Token>), LoadError>)
    ensures r.Success? ==> |r.value.1| <= |ts|
    ensures r.Success? ==> forall m :: m in acc ==> m in r.value.0 && r.value.0[m] == acc[m]
    ensures r.Success? && W.Pruned(acc) ==> W.Pruned(r.value.0)
    ensures n > 0 && |ts| > 0 && ts[0].Word? && ts[0].word !in strings ==> r == Failure(UnknownString(ts[0].word))
    decreases n
  {
    if n == 0 then Success((acc, ts))
    else
      match ReadWord(ts)
      case Failure(e) => Failure(e)
      case Success((id, ts1)) =>
        if id !in strings then Failure(UnknownString(id))
        else
          match ReadWord(ts1)
          case Failure(e) => Failure(e)
          case Success((numKeys, ts2)) =>
            match LoadKeys(ts2, version, numKeys, res, map[])
            case Failure(e) => Failure(e)
            case Success((uv, ts3)) =>
              var next := if |uv| == 0 then acc else Emplace(acc, strings[id], uv);
              EmplacePruned(acc, strings[id], uv);
              LoadMorphs(ts3, version, n - 1, strings, res, next)
  }

  /** Emplacing a non-empty, zero-free table keeps a pruned map pruned. */
  lemma EmplacePruned(acc: W.MorphValueMap, name: W.Name, uv: W.UserValues)
    ensures W.Pruned(acc) && |uv| > 0 && W.NoZero(uv) ==> W.Pruned(Emplace(acc, name, uv))
  {
  }

  /**
   * MorphValueMap::Load: with no record next the map stays empty and the load
   * succeeds; any record but 'MRVM' fails it; an 'MRVM' record is read with
   * its own version.
   */
  function LoadValueMap(ts: seq<Token>, strings: map<U32, W.Name>, res: Resolvers)
    : (r: Result<(W.MorphValueMap, seq<Token>), LoadError>)
    ensures |ts| == 0 || !ts[0].Header? ==> r == Success((map[], ts))
    ensures |ts| > 0 && ts[0].Header? && ts[0].tag != ValueMapRecord ==> r == Failure(UnexpectedRecord(ts[0].tag))
    ensures r.Success? ==> W.Pruned(r.value.0) && |r.value.1| <= |ts|
  {
    if |ts| == 0 || !ts[0].Header? then Success((map[], ts))
    else if ts[0].tag != ValueMapRecord then Failure(UnexpectedRecord(ts[0].tag))
    else
      match ReadWord(ts[1..])
      case Failure(e) => Failure(e)
      case Success((numMorphs, ts1)) => LoadMorphs(ts1, ts[0].version, numMorphs, strings, res, map[])
  }

  /** The emplace of a loaded map into a table: an actor already present keeps the map it has. */
  function Adopt(s: WS.Store, isFemale: bool, a: WS.ActorId, mvm: W.MorphValueMap): (r: WS.Store)
    requires WS.Valid(s)
    ensures WS.Valid(r)
    ensures a in WS.Table(r, isFemale)
    ensures WS.GetMorphMap(r, Some(a), isFemale) ==
      (if a in WS.Table(s, isFemale) then WS.GetMorphMap(s, Some(a), isFemale) else Some(mvm))
    ensures forall sex, b :: (sex != isFemale || b != a) ==>
      (b in WS.Table(r, sex) <==> b in WS.Table(s, sex)) &&
      WS.GetMorphMap(r, Some(b), sex) == WS.GetMorphMap(s, Some(b), sex)
  {
    var t := WS.Table(s, isFemale);
    if a in t then s
    else WS.WithTable(s.(heap := s.heap[s.next := mvm], next := s.next + 1), isFemale, t[a := s.next])
  }

  /** If actor b has an entry in s, it has the same one in r. */
  ghost predicate KeepsEntry(r: WS.Store, s: WS.Store, sex: bool, b: WS.ActorId)
    requires WS.Valid(r) && WS.Valid(s)
  {
    b in WS.Table(s, sex) ==> b in WS.Table(r, sex) && WS.GetMorphMap(r, Some(b), sex) == WS.GetMorphMap(s, Some(b), sex)
  }

  /** Every entry of s is in r, with the same weights. */
  ghost predicate Extends(r: WS.Store, s: WS.Store)
    requires WS.Valid(r) && WS.Valid(s)
  {
    forall sex: bool, b: WS.ActorId :: KeepsEntry(r, s, sex, b)
  }

  /** Extends is transitive. */
  lemma ExtendsTrans(r: WS.Store, m: WS.Store, s: WS.Store)
    requires WS.Valid(r) && WS.Valid(m) && WS.Valid(s)
    requires Extends(r, m) && Extends(m, s)
    ensures Extends(r, s)
  {
    forall sex: bool, b: WS.ActorId ensures KeepsEntry(r, s, sex, b) {
      assert KeepsEntry(r, m, sex, b) && KeepsEntry(m, s, sex, b);
    }
  }

  /**
   * BodyMorphInterface::Load, after the 'MRPM'/'MRPH' header: the actor's id,
   * then its map. Read errors fail; with morphs disabled, an unresolved actor,
   * an empty map or a form that is no actor, the data is read and dropped.
   */
  function LoadActor(ts: seq<Token>, isFemale: bool, version: U32, env: Env, s: WS.Store)
    : (r: Result<(WS.Store, seq<Token>), LoadError>)
    requires WS.Valid(s)
    ensures r.Success? ==> WS.Valid(r.value.0) && |r.value.1| <= |ts|
    ensures r.Success? && !env.enabled ==> r.value.0 == s
    ensures r.Success? ==> Extends(r.value.0, s)
    ensures r.Success? ==> forall sex, b :: b in WS.Table(r.value.0, sex) && b !in WS.Table(s, sex) ==>
      sex == isFemale && |WS.GetMorphMap(r.value.0, Some(b), sex).value| > 0 &&
      W.Pruned(WS.GetMorphMap(r.value.0, Some(b), sex).value)
  {
    match ReadRef(ts, version)
    case Failure(e) => Failure(e)
    case Success((ref, ts1)) =>
      match LoadValueMap(ts1, env.strings, env.res)
      case Failure(e) => Failure(e)
      case Success((mvm, ts2)) =>
        if !env.enabled then Success((s, ts2))
        else match Resolve(ref, env.res)
          case None => Success((s, ts2))
          case Some(resolved) =>
            if |mvm| == 0 then Success((s, ts2))
            else match ActorOf(resolved, env.res)
              case None => Success((s, ts2))
              case Some(a) =>
                AdoptLoaded(s, isFemale, a, mvm);
                Success((Adopt(s, isFemale, a, mvm), ts2))
  }

  /** Adopting a loaded, non-empty, pruned map keeps every entry and adds only that actor's. */
  lemma AdoptLoaded(s: WS.Store, isFemale: bool, a: WS.ActorId, mvm: W.MorphValueMap)
    requires WS.Valid(s) && |mvm| > 0 && W.Pruned(mvm)
    ensures Extends(Adopt(s, isFemale, a, mvm), s)
    ensures forall sex, b :: b in WS.Table(Adopt(s, isFemale, a, mvm), sex) && b !in WS.Table(s, sex) ==>
      sex == isFemale && |WS.GetMorphMap(Adopt(s, isFemale, a, mvm), Some(b), sex).value| > 0 &&
      W.Pruned(WS.GetMorphMap(Adopt(s, isFemale, a, mvm), Some(b), sex).value)
  {
    var r := Adopt(s, isFemale, a, mvm);
    forall sex: bool, b: WS.ActorId ensures KeepsEntry(r, s, sex, b) {
    }
  }

  /**
   * The plugin's load callback, which is not part of this model, stood in for:
   * every 'MRPM' or 'MRPH' record in turn is handed to LoadActor with its
   * own version; the first failure ends the load, any other token ends it
   * successfully.
   */
  function LoadRecords(ts: seq<Token>, env: Env, s: WS.Store): (r: Result<WS.Store, LoadError>)
    requires WS.Valid(s)
    ensures r.Success? ==> WS.Valid(r.value)
    ensures r.Success? ==> Extends(r.value, s)
    ensures r.Success? && !env.enabled ==> r.value == s
    decreases |ts|
  {
    if |ts| > 0 && ts[0].Header? && (ts[0].tag == MaleRecord || ts[0].tag == FemaleRecord) then
      match LoadActor(ts[1..], ts[0].tag == FemaleRecord, ts[0].version, env, s)
      case Failure(e) => Failure(e)
      case Success((s1, rest)) =>
        var r := LoadRecords(rest, env, s1);
        if r.Success? then ExtendsTrans(r.value, s1, s); r else r
    else Success(s)
  }

  // ------------------------------------------------------------ round trip

  /** The entries of m whose keys occur in ks. */
  ghost function Pick<K(!new), V>(m: map<K, V>, ks: seq<K>): map<K, V> {
    map k | k in ks && k in m :: m[k]
  }

  /** Every keyword of uv resolves to itself and is a keyword form (or the null keyword 0). */
  ghost predicate KeysResolve(res: Resolvers, uv: W.UserValues) {
    forall k :: k in uv ==> k in res.formIds && res.formIds[k] == k && (k in res.keywords || k == 0)
  }

  /** Every morph name of mvm is in the string table under its id, and its keywords resolve. */
  ghost predicate MapResolves(strings: map<U32, W.Name>, res: Resolvers, ids: W.Name -> U32, mvm: W.MorphValueMap) {
    forall n :: n in mvm ==> ids(n) in strings && strings[ids(n)] == n && KeysResolve(res, mvm[n])
  }

  /** No count written for mvm is truncated. */
  ghost predicate Small(mvm: W.MorphValueMap) {
    |mvm| < TwoTo32 && forall n :: n in mvm ==> |mvm[n]| < TwoTo32
  }

  /** Adding the first listed entry, then the rest, adds them all. */
  lemma PickStep<K(!new), V>(m: map<K, V>, ks: seq<K>, acc: map<K, V>)
    requires |ks| > 0 && ks[0] in m
    ensures acc[ks[0] := m[ks[0]]] + Pick(m, ks[1..]) == acc + Pick(m, ks)
  {
    assert forall k :: k in ks <==> k == ks[0] || k in ks[1..];
  }

  /** Picking along a listing of m, starting from nothing, gives m back. */
  lemma PickListing<K(!new), V>(m: map<K, V>, ks: seq<K>)
    requires Lists(ks, m)
    ensures map[] + Pick(m, ks) == m
  {
    var p := map[] + Pick(m, ks);
    assert p.Keys == m.Keys;
  }

  /** One version-2 pair: the key loop reads a form id and a float, then goes on with the pair added. */
  lemma KeysStep(k: U32, v: real, tail: seq<Token>, n: nat, res: Resolvers, acc: W.UserValues)
    ensures LoadKeys([Word(k), Float(v)] + tail, Version2, n + 1, res, acc)
         == LoadKeys(tail, Version2, n, res, AddPair(FormRef(k), v, res, acc))
  {
    var ts := [Word(k), Float(v)] + tail;
    assert ts[1..][1..] == tail;
  }

  /** Reading back saved pairs adds exactly those pairs, when none is zero and every keyword resolves to itself. */
  lemma {:induction false} KeysRoundTrip(uv: W.UserValues, ks: seq<W.KeywordId>, rest: seq<Token>,
                                          res: Resolvers, acc: W.UserValues)
    requires forall k :: k in ks ==> k in uv
    requires Distinct(ks) && forall k :: k in ks ==> k !in acc
    requires W.NoZero(uv) && KeysResolve(res, uv)
    ensures LoadKeys(SaveKeys(uv, ks, rest), Version2, |ks|, res, acc) == Success((acc + Pick(uv, ks), rest))
  {
    if ks == [] {
      assert Pick(uv, ks) == map[];
      assert acc + map[] == acc;
    } else {
      var k := ks[0];
      KeysStep(k, uv[k], SaveKeys(uv, ks[1..], rest), |ks| - 1, res, acc);
      assert AddPair(FormRef(k), uv[k], res, acc) == acc[k := uv[k]];
      assert Distinct(ks[1..]);
      KeysRoundTrip(uv, ks[1..], rest, res, acc[k := uv[k]]);
      PickStep(uv, ks, acc);
    }
  }

  /** The key loop of one morph reads back its whole map, leaving the tokens after it. */
  lemma MorphKeysRoundTrip(uv: W.UserValues, it: Iteration, tail: seq<Token>, res: Resolvers)
    requires Enumerates(it)
    requires W.NoZero(uv) && KeysResolve(res, uv) && |uv| < TwoTo32
    ensures Low32(|uv|) == |it.keys(uv)|
    ensures LoadKeys(SaveKeys(uv, it.keys(uv), tail), Version2, Low32(|uv|), res, map[]) == Success((uv, tail))
  {
    var ks := it.keys(uv);
    ListingSize(ks, uv);
    KeysRoundTrip(uv, ks, tail, res, map[]);
    PickListing(uv, ks);
  }

  /** One version-2 morph whose string id is known: its keys are read, then the loop goes on. */
  lemma MorphsStep(id: U32, numKeys: U32, ts: seq<Token>, n: nat, strings: map<U32, W.Name>,
                   res: Resolvers, acc: W.MorphValueMap, uv: W.UserValues, tail: seq<Token>)
    requires id in strings
    requires LoadKeys(ts, Version2, numKeys, res, map[]) == Success((uv, tail))
    ensures LoadMorphs([Word(id), Word(numKeys)] + ts, Version2, n + 1, strings, res, acc)
         == LoadMorphs(tail, Version2, n, strings, res, if |uv| == 0 then acc else Emplace(acc, strings[id], uv))
  {
    var all := [Word(id), Word(numKeys)] + ts;
    assert all[1..][1..] == ts;
  }

  /** Loading the saved morphs of names from acc adds exactly those morphs. */
  ghost predicate MorphsLoad(mvm: W.MorphValueMap, names: seq<W.Name>, rest: seq<Token>,
                             strings: map<U32, W.Name>, res: Resolvers, it: Iteration,
                             ids: W.Name -> U32, acc: W.MorphValueMap)
    requires Enumerates(it)
    requires forall n :: n in names ==> n in mvm
  {
    LoadMorphs(SaveMorphs(mvm, names, it, ids, rest), Version2, |names|, strings, res, acc)
      == Success((acc + Pick(mvm, names), rest))
  }

  /** The step of MorphsRoundTrip: the first saved morph is read back, then the rest. */
  lemma MorphsCons(mvm: W.MorphValueMap, names: seq<W.Name>, rest: seq<Token>,
                   strings: map<U32, W.Name>, res: Resolvers, it: Iteration,
                   ids: W.Name -> U32, acc: W.MorphValueMap)
    requires Enumerates(it)
    requires forall n :: n in names ==> n in mvm
    requires names != [] && names[0] !in acc
    requires ids(names[0]) in strings && strings[ids(names[0])] == names[0]
    requires W.NoZero(mvm[names[0]]) && |mvm[names[0]]| > 0
    requires KeysResolve(res, mvm[names[0]]) && |mvm[names[0]]| < TwoTo32
    requires MorphsLoad(mvm, names[1..], rest, strings, res, it, ids, acc[names[0] := mvm[names[0]]])
    ensures MorphsLoad(mvm, names, rest, strings, res, it, ids, acc)
  {
    var n := names[0];
    var uv := mvm[n];
    var tail := SaveMorphs(mvm, names[1..], it, ids, rest);
    var body := SaveKeys(uv, it.keys(uv), tail);
    MorphKeysRoundTrip(uv, it, tail, res);
    MorphsStep(ids(n), Low32(|uv|), body, |names| - 1, strings, res, acc, uv, tail);
    PickStep(mvm, names, acc);
  }

  /** Reading back saved morphs adds exactly those morphs, when the map is pruned and every id resolves. */
  lemma {:induction false} MorphsRoundTrip(mvm: W.MorphValueMap, names: seq<W.Name>, rest: seq<Token>,
                                            strings: map<U32, W.Name>, res: Resolvers, it: Iteration,
                                            ids: W.Name -> U32, acc: W.MorphValueMap)
    requires Enumerates(it)
    requires forall n :: n in names ==> n in mvm
    requires Distinct(names) && forall n :: n in names ==> n !in acc
    requires W.Pruned(mvm) && MapResolves(strings, res, ids, mvm) && Small(mvm)
    ensures MorphsLoad(mvm, names, rest, strings, res, it, ids, acc)
  {
    if names == [] {
      assert Pick(mvm, names) == map[];
      assert acc + map[] == acc;
    } else {
      var n := names[0];
      assert Distinct(names[1..]);
      MorphsRoundTrip(mvm, names[1..], rest, strings, res, it, ids, acc[n := mvm[n]]);
      MorphsCons(mvm, names, rest, strings, res, it, ids, acc);
    }
  }

  /** An 'MRVM' header and count hand the rest to the morph loop, with the record's version. */
  lemma ValueMapStep(version: U32, count: U32, body: seq<Token>, strings: map<U32, W.Name>, res: Resolvers)
    ensures LoadValueMap([Header(ValueMapRecord, version), Word(count)] + body, strings, res)
         == LoadMorphs(body, version, count, strings, res, map[])
  {
    var ts := [Header(ValueMapRecord, version), Word(count)] + body;
    assert ts[1..][1..] == body;
  }

  /** MorphValueMap::Load reads back what MorphValueMap::Save wrote, under resolvers that change nothing. */
  lemma ValueMapRoundTrip(mvm: W.MorphValueMap, rest: seq<Token>, strings: map<U32, W.Name>,
                          res: Resolvers, it: Iteration, ids: W.Name -> U32)
    requires Enumerates(it)
    requires W.Pruned(mvm) && MapResolves(strings, res, ids, mvm) && Small(mvm)
    ensures LoadValueMap(SaveValueMap(mvm, SerializationVersion, it, ids, rest), strings, res) == Success((mvm, rest))
  {
    var names := it.morphs(mvm);
    var body := SaveMorphs(mvm, names, it, ids, rest);
    ValueMapStep(Version2, Low32(|mvm|), body, strings, res);
    ListingSize(names, mvm);
    MorphsRoundTrip(mvm, names, rest, strings, res, it, ids, map[]);
    PickListing(mvm, names);
  }

  /** The store after Adopt of each listed actor's map in s, in turn. */
  ghost function Placed(acc: WS.Store, s: WS.Store, isFemale: bool, actors: seq<WS.ActorId>): (r: WS.Store)
    requires WS.Valid(acc) && WS.Valid(s)
    ensures WS.Valid(r)
    decreases |actors|
  {
    if actors == [] then acc
    else
      var a := actors[0];
      var next := if a in WS.Table(s, isFemale) then Adopt(acc, isFemale, a, s.heap[WS.Table(s, isFemale)[a]]) else acc;
      Placed(next, s, isFemale, actors[1..])
  }

  /** The actor a resolves to itself and is an actor form, and the ids in its map resolve. */
  ghost predicate Resolvable(env: Env, ids: W.Name -> U32, a: WS.ActorId, mvm: W.MorphValueMap) {
    && a in env.res.formIds && env.res.formIds[a] == a && a in env.res.actors
    && MapResolves(env.strings, env.res, ids, mvm) && Small(mvm)
  }

  /** Every entry of s is Resolvable. */
  ghost predicate StoreResolves(env: Env, ids: W.Name -> U32, s: WS.Store)
    requires WS.Valid(s)
  {
    forall sex, a :: a in WS.Table(s, sex) ==> Resolvable(env, ids, a, s.heap[WS.Table(s, sex)[a]])
  }

  /** What one actor record needs to be read back as it was written. */
  ghost predicate Restorable(env: Env, ids: W.Name -> U32, a: WS.ActorId, mvm: W.MorphValueMap) {
    Resolvable(env, ids, a, mvm) && W.Pruned(mvm) && |mvm| > 0
  }

  /** Every entry of s is Restorable. */
  ghost predicate StoreRestorable(env: Env, ids: W.Name -> U32, s: WS.Store)
    requires WS.Valid(s)
  {
    forall sex, a :: a in WS.Table(s, sex) ==> Restorable(env, ids, a, s.heap[WS.Table(s, sex)[a]])
  }

  lemma StoreIsRestorable(s: WS.Store, env: Env, ids: W.Name -> U32)
    requires WS.Valid(s) && WS.WellPruned(s) && StoreResolves(env, ids, s)
    ensures StoreRestorable(env, ids, s)
  {
    forall sex, a | a in WS.Table(s, sex)
      ensures Restorable(env, ids, a, s.heap[WS.Table(s, sex)[a]])
    {
      assert WS.PrunedEntry(s, sex, a);
    }
  }

  /** An actor record hands its body to LoadActor, then the load goes on after it. */
  lemma RecordsStep(ts: seq<Token>, env: Env, acc: WS.Store, s1: WS.Store, rest: seq<Token>)
    requires WS.Valid(acc)
    requires |ts| > 0 && ts[0].Header? && (ts[0].tag == MaleRecord || ts[0].tag == FemaleRecord)
    requires LoadActor(ts[1..], ts[0].tag == FemaleRecord, ts[0].version, env, acc) == Success((s1, rest))
    ensures LoadRecords(ts, env, acc) == LoadRecords(rest, env, s1)
  {
  }

  /** A resolvable actor with a non-empty map is adopted into its table. */
  lemma ActorLoad(a: WS.ActorId, isFemale: bool, ts: seq<Token>, mvm: W.MorphValueMap, tail: seq<Token>,
                  env: Env, acc: WS.Store)
    requires WS.Valid(acc) && env.enabled
    requires a in env.res.formIds && env.res.formIds[a] == a && a in env.res.actors
    requires |ts| > 0 && ts[0] == Word(a)
    requires LoadValueMap(ts[1..], env.strings, env.res) == Success((mvm, tail)) && |mvm| > 0
    ensures LoadActor(ts, isFemale, Version2, env, acc) == Success((Adopt(acc, isFemale, a, mvm), tail))
  {
  }

  /** One saved actor record is loaded into the table it came from. */
  lemma ActorStep(a: WS.ActorId, isFemale: bool, mvm: W.MorphValueMap, tail: seq<Token>, env: Env,
                  it: Iteration, ids: W.Name -> U32, acc: WS.Store)
    requires WS.Valid(acc) && Enumerates(it) && env.enabled
    requires Restorable(env, ids, a, mvm)
    ensures LoadRecords([Header(TableTag(isFemale), SerializationVersion), Word(a)]
                          + SaveValueMap(mvm, SerializationVersion, it, ids, tail), env, acc)
         == LoadRecords(tail, env, Adopt(acc, isFemale, a, mvm))
  {
    var body := SaveValueMap(mvm, SerializationVersion, it, ids, tail);
    var ts := [Header(TableTag(isFemale), SerializationVersion), Word(a)] + body;
    assert ts[1..][1..] == body;
    ValueMapRoundTrip(mvm, tail, env.strings, env.res, it, ids);
    ActorLoad(a, isFemale, ts[1..], mvm, tail, env, acc);
    RecordsStep(ts, env, acc, Adopt(acc, isFemale, a, mvm), tail);
  }

  /** Loading the saved records of actors from acc adopts their maps in order. */
  ghost predicate EntriesLoad(s: WS.Store, isFemale: bool, actors: seq<WS.ActorId>, more: seq<Token>,
                              env: Env, it: Iteration, ids: W.Name -> U32, acc: WS.Store)
    requires WS.Valid(s) && WS.Valid(acc) && Enumerates(it)
    requires forall a :: a in actors ==> a in WS.Table(s, isFemale)
  {
    LoadRecords(SaveEntries(s, isFemale, actors, SerializationVersion, it, ids, more), env, acc)
      == LoadRecords(more, env, Placed(acc, s, isFemale, actors))
  }

  /** The step of EntriesRoundTrip: the first actor's record, then the others. */
  lemma EntriesCons(s: WS.Store, isFemale: bool, actors: seq<WS.ActorId>, more: seq<Token>,
                    env: Env, it: Iteration, ids: W.Name -> U32, acc: WS.Store)
    requires WS.Valid(s) && WS.Valid(acc) && Enumerates(it) && env.enabled
    requires forall a :: a in actors ==> a in WS.Table(s, isFemale)
    requires actors != []
    requires Restorable(env, ids, actors[0], s.heap[WS.Table(s, isFemale)[actors[0]]])
    requires EntriesLoad(s, isFemale, actors[1..], more, env, it, ids,
                         Adopt(acc, isFemale, actors[0], s.heap[WS.Table(s, isFemale)[actors[0]]]))
    ensures EntriesLoad(s, isFemale, actors, more, env, it, ids, acc)
  {
    var a := actors[0];
    var mvm := s.heap[WS.Table(s, isFemale)[a]];
    var tail := SaveEntries(s, isFemale, actors[1..], SerializationVersion, it, ids, more);
    ActorStep(a, isFemale, mvm, tail, env, it, ids, acc);
  }

  /** The conditions of the store round trip, in one piece. */
  ghost predicate Setting(s: WS.Store, env: Env, it: Iteration, ids: W.Name -> U32) {
    WS.Valid(s) && Enumerates(it) && env.enabled && StoreRestorable(env, ids, s)
  }

  /** Loading the saved records of some actors of one table adopts their maps in order. */
  lemma {:induction false} EntriesRoundTrip(s: WS.Store, isFemale: bool, actors: seq<WS.ActorId>,
                                             more: seq<Token>, env: Env, it: Iteration,
                                             ids: W.Name -> U32, acc: WS.Store)
    requires Setting(s, env, it, ids) && WS.Valid(acc)
    requires forall a :: a in actors ==> a in WS.Table(s, isFemale)
    ensures EntriesLoad(s, isFemale, actors, more, env, it, ids, acc)
    decreases |actors|
  {
    if actors != [] {
      var a := actors[0];
      var mvm := s.heap[WS.Table(s, isFemale)[a]];
      EntriesRoundTrip(s, isFemale, actors[1..], more, env, it, ids, Adopt(acc, isFemale, a, mvm));
      EntriesCons(s, isFemale, actors, more, env, it, ids, acc);
    } else {
      EntriesNil(s, isFemale, more, env, it, ids, acc);
    }
  }

  /** With no actors, nothing is written and nothing is adopted. */
  lemma EntriesNil(s: WS.Store, isFemale: bool, more: seq<Token>, env: Env, it: Iteration,
                   ids: W.Name -> U32, acc: WS.Store)
    requires Setting(s, env, it, ids) && WS.Valid(acc)
    ensures EntriesLoad(s, isFemale, [], more, env, it, ids, acc)
  {
  }

  /** Adopting distinct actors absent from acc gives each of them its map from s and changes nothing else. */
  lemma {:induction false} PlacedAgrees(acc: WS.Store, s: WS.Store, isFemale: bool, actors: seq<WS.ActorId>)
    requires WS.Valid(acc) && WS.Valid(s) && Distinct(actors)
    requires forall a :: a in actors ==> a in WS.Table(s, isFemale) && a !in WS.Table(acc, isFemale)
    ensures forall sex, b ::
              WS.GetMorphMap(Placed(acc, s, isFemale, actors), Some(b), sex)
              == (if sex == isFemale && b in actors then WS.GetMorphMap(s, Some(b), sex) else WS.GetMorphMap(acc, Some(b), sex))
    decreases |actors|
  {
    if actors != [] {
      var a := actors[0];
      var next := Adopt(acc, isFemale, a, s.heap[WS.Table(s, isFemale)[a]]);
      assert Distinct(actors[1..]);
      PlacedAgrees(next, s, isFemale, actors[1..]);
      assert forall b :: b in actors <==> b == a || b in actors[1..];
    }
  }

  /** Placing both tables' listings into a store with empty tables reproduces s. */
  lemma PlacedBoth(s: WS.Store, start: WS.Store, ms: seq<WS.ActorId>, fs: seq<WS.ActorId>)
    requires WS.Valid(s) && WS.Valid(start) && start.male == map[] && start.female == map[]
    requires Lists(ms, s.male) && Lists(fs, s.female)
    ensures forall sex, a ::
              WS.GetMorphMap(Placed(Placed(start, s, false, ms), s, true, fs), Some(a), sex) == WS.GetMorphMap(s, Some(a), sex)
  {
    var m := Placed(start, s, false, ms);
    PlacedAgrees(start, s, false, ms);
    forall b | b in fs
      ensures b !in WS.Table(m, true)
    {
      assert WS.GetMorphMap(m, Some(b), true) == WS.GetMorphMap(start, Some(b), true);
    }
    PlacedAgrees(m, s, true, fs);
  }

  /** Loading what Save wrote adopts the male listing's maps, then the female listing's. */
  lemma LoadOfSave(s: WS.Store, start: WS.Store, env: Env, it: Iteration, ids: W.Name -> U32)
    requires Setting(s, env, it, ids) && WS.Valid(start)
    ensures LoadRecords(Save(s, SerializationVersion, it, ids), env, start)
         == Success(Placed(Placed(start, s, false, it.actors(s.male)), s, true, it.actors(s.female)))
  {
    var females := SaveEntries(s, true, it.actors(s.female), SerializationVersion, it, ids, []);
    ActorsListed(s, false, it);
    ActorsListed(s, true, it);
    EntriesRoundTrip(s, false, it.actors(s.male), females, env, it, ids, start);
    EntriesRoundTrip(s, true, it.actors(s.female), [], env, it, ids, Placed(start, s, false, it.actors(s.male)));
  }

  /** Every actor the iteration lists for a table has an entry in it. */
  lemma ActorsListed(s: WS.Store, isFemale: bool, it: Iteration)
    requires Enumerates(it)
    ensures forall a :: a in it.actors(if isFemale then s.female else s.male) ==> a in WS.Table(s, isFemale)
  {
    assert Lists(it.actors(WS.Table(s, isFemale)), WS.Table(s, isFemale));
  }

  /**
   * After Revert, loading what Save wrote restores every actor's weights, when
   * the string table and the engine resolve every saved id to itself.
   */
  lemma StoreRoundTrip(s: WS.Store, start: WS.Store, env: Env, it: Iteration, ids: W.Name -> U32)
    requires WS.Valid(s) && WS.WellPruned(s) && Enumerates(it)
    requires env.enabled && StoreResolves(env, ids, s)
    requires WS.Valid(start) && start.male == map[] && start.female == map[]
    ensures var r := LoadRecords(Save(s, SerializationVersion, it, ids), env, start);
      r.Success? && forall sex, a :: WS.GetMorphMap(r.value, Some(a), sex) == WS.GetMorphMap(s, Some(a), sex)
  {
    StoreIsRestorable(s, env, ids);
    LoadOfSave(s, start, env, it, ids);
    PlacedBoth(s, start, it.actors(s.male), it.actors(s.female));
  }

  // ------------------------------------------------------------ what Load drops

  /** A zero weight is read and skipped. */
  lemma ZeroValueDropped(k: U32, rest: seq<Token>, res: Resolvers, acc: W.UserValues)
    ensures LoadKeys([Word(k), Float(0.0)] + rest, Version2, 1, res, acc) == Success((acc, rest))
  {
    KeysStep(k, 0.0, rest, 0, res, acc);
  }

  /** A keyword whose form id no longer resolves is read and skipped. */
  lemma UnresolvedKeywordDropped(k: U32, v: real, rest: seq<Token>, res: Resolvers, acc: W.UserValues)
    requires k !in res.formIds
    ensures LoadKeys([Word(k), Float(v)] + rest, Version2, 1, res, acc) == Success((acc, rest))
  {
    KeysStep(k, v, rest, 0, res, acc);
  }

  /** A form id that resolves to something other than a keyword stores the weight under 0, unless 0 is taken. */
  lemma NonKeywordStoredUnderZero(k: U32, v: real, rest: seq<Token>, res: Resolvers, acc: W.UserValues)
    requires k in res.formIds && res.formIds[k] !in res.keywords && v != 0.0
    ensures LoadKeys([Word(k), Float(v)] + rest, Version2, 1, res, acc)
         == Success((if 0 in acc then acc else acc[0 := v], rest))
  {
    KeysStep(k, v, rest, 0, res, acc);
  }

  /** Version 1 reads a u64 handle per key and resolves it through the handle maps. */
  lemma HandleKeyLoaded(h: U64, v: real, rest: seq<Token>, res: Resolvers)
    requires v != 0.0 && h in res.handles
    ensures LoadKeys([Long(h), Float(v)] + rest, Version1, 1, res, map[])
         == Success((map[W.KeyOf(KeywordOf(HandleRef(res.handles[h]), res)) := v], rest))
  {
    var ts := [Long(h), Float(v)] + rest;
    assert ts[1..][1..] == rest;
  }

  /** A version-2 pair read as version 1 is a failed read: the u32 form id is no u64 handle. */
  lemma FormIdIsNoHandle(k: U32, v: real, rest: seq<Token>, res: Resolvers, acc: W.UserValues)
    ensures LoadKeys([Word(k), Float(v)] + rest, Version1, 1, res, acc) == Failure(ReadFailed)
  {
  }

  /** A morph none of whose keys survive is not stored. */
  lemma EmptyMorphSkipped(id: U32, k: U32, rest: seq<Token>, strings: map<U32, W.Name>,
                          res: Resolvers, acc: W.MorphValueMap)
    requires id in strings
    ensures LoadMorphs([Word(id), Word(1), Word(k), Float(0.0)] + rest, Version2, 1, strings, res, acc)
         == Success((acc, rest))
  {
    var ts := [Word(k), Float(0.0)] + rest;
    ZeroValueDropped(k, rest, res, map[]);
    assert [Word(id), Word(1), Word(k), Float(0.0)] + rest == [Word(id), Word(1)] + ts;
    MorphsStep(id, 1, ts, 0, strings, res, acc, map[], rest);
  }

  /**
   * With morphs disabled a record is read exactly as far as with morphs
   * enabled, and fails exactly when it would, but the store is left as it was.
   */
  lemma DisabledReadsThenDrops(ts: seq<Token>, isFemale: bool, version: U32, env: Env, s: WS.Store)
    requires WS.Valid(s)
    ensures var on := LoadActor(ts, isFemale, version, env.(enabled := true), s);
      LoadActor(ts, isFemale, version, env.(enabled := false), s)
        == (match on case Failure(e) => Failure(e) case Success((_, rest)) => Success((s, rest)))
  {
  }

  /** An actor whose form id no longer resolves has its map read and dropped. */
  lemma UnresolvedActorDropped(a: U32, body: seq<Token>, isFemale: bool, env: Env, s: WS.Store)
    requires WS.Valid(s) && a !in env.res.formIds
    ensures var ts := [Word(a)] + body;
      LoadActor(ts, isFemale, Version2, env, s)
        == (match LoadValueMap(body, env.strings, env.res)
            case Failure(e) => Failure(e)
            case Success((_, rest)) => Success((s, rest)))
  {
    assert ([Word(a)] + body)[1..] == body;
  }
}

=== FILE: tri_encoding.dfy ===
/**
 * The writer's side of the .tri format, as the reader expects it: an
 * abstract file (raw names, block sizes and float bytes kept as written),
 * its byte encoding, and the records the reader should recover from it.
 * The round-trip lemma says the reader recovers exactly those records and
 * stops right after the encoding, whatever follows it.
 */
module TriEncoding {
  import opened Wrappers
  import opened Bytes
  import opened Geometry
  import opened VertexDeltas
  import opened TriFormat

  /** A full-format delta as stored: a 32-bit index and three 4-byte floats. */
  datatype RawFullDelta = RawFullDelta(index: U32, x: seq<Byte>, y: seq<Byte>, z: seq<Byte>)

  datatype RawDeltas = RawFull(full: seq<RawFullDelta>) | RawPacked(packed: seq<PackedDelta>)

  /** A morph as stored; the block size is written by the full format only, the multiplier by the packed one. */
  datatype RawMorph = RawMorph(name: seq<Byte>, blockSize: U32, multiplier: seq<Byte>, deltas: RawDeltas)

  datatype RawShape = RawShape(name: seq<Byte>, blockSize: U32, morphs: seq<RawMorph>)

  datatype RawFile = RawFile(packed: bool, shapes: seq<RawShape>)

  /** Largest count the format's count fields can hold. */
  function CountLimit(packed: bool): nat {
    if packed then TwoTo16 else TwoTo32
  }

  function RawDeltaCount(d: RawDeltas): nat {
    match d
    case RawFull(ds) => |ds|
    case RawPacked(ds) => |ds|
  }

  predicate WellFormedDelta(d: RawFullDelta) {
    |d.x| == 4 && |d.y| == 4 && |d.z| == 4
  }

  /** Names fit their size byte, counts fit their fields, and the deltas match the format. */
  predicate WellFormedMorph(m: RawMorph, packed: bool) {
    && |m.name| < 256
    && |m.multiplier| == 4
    && (packed <==> m.deltas.RawPacked?)
    && RawDeltaCount(m.deltas) <= MaxVertexCount
    && (m.deltas.RawFull? ==> forall k :: 0 <= k < |m.deltas.full| ==> WellFormedDelta(m.deltas.full[k]))
  }

  predicate WellFormedShape(s: RawShape, packed: bool) {
    && |s.name| < 256
    && |s.morphs| < CountLimit(packed)
    && MorphsWellFormed(s.morphs, packed)
  }

  predicate MorphsWellFormed(ms: seq<RawMorph>, packed: bool) {
    |ms| == 0 || (WellFormedMorph(ms[0], packed) && MorphsWellFormed(ms[1..], packed))
  }

  predicate ShapesWellFormed(ss: seq<RawShape>, packed: bool) {
    |ss| == 0 || (WellFormedShape(ss[0], packed) && ShapesWellFormed(ss[1..], packed))
  }

  predicate WellFormed(f: RawFile) {
    |f.shapes| < CountLimit(f.packed) && ShapesWellFormed(f.shapes, f.packed)
  }

  // ---------------------------------------------------------------- encoding

  function EncodeFullDelta(d: RawFullDelta): seq<Byte> {
    EncodeLE(d.index, 4) + d.x + d.y + d.z
  }

  function EncodePackedDelta(d: PackedDelta): seq<Byte> {
    EncodeLE(d.index, 2) + EncodeLE(FromSigned16(d.x), 2) + EncodeLE(FromSigned16(d.y), 2) + EncodeLE(FromSigned16(d.z), 2)
  }

  function EncodeFullDeltas(ds: seq<RawFullDelta>): seq<Byte> {
    if |ds| == 0 then [] else EncodeFullDelta(ds[0]) + EncodeFullDeltas(ds[1..])
  }

  function EncodePackedDeltas(ds: seq<PackedDelta>): seq<Byte> {
    if |ds| == 0 then [] else EncodePackedDelta(ds[0]) + EncodePackedDeltas(ds[1..])
  }

  function EncodeDeltas(d: RawDeltas): seq<Byte> {
    match d
    case RawFull(ds) => EncodeFullDeltas(ds)
    case RawPacked(ds) => EncodePackedDeltas(ds)
  }

  /** Block size and vertex count (full), or multiplier and vertex count (packed). */
  function EncodeMorphHeader(m: RawMorph, packed: bool): seq<Byte> {
    if packed then m.multiplier + EncodeLE(RawDeltaCount(m.deltas), 2)
    else EncodeLE(m.blockSize, 4) + EncodeLE(RawDeltaCount(m.deltas), 4)
  }

  function EncodeMorph(m: RawMorph, packed: bool): seq<Byte>
    requires |m.name| < 256
  {
    [|m.name| as Byte] + m.name + EncodeMorphHeader(m, packed) + EncodeDeltas(m.deltas)
  }

  function EncodeMorphs(ms: seq<RawMorph>, packed: bool): seq<Byte>
    requires MorphsWellFormed(ms, packed)
  {
    if |ms| == 0 then []
    else
      EncodeMorph(ms[0], packed) + EncodeMorphs(ms[1..], packed)
  }

  /** Block size (full only) and morph count. */
  function EncodeShapeHeader(s: RawShape, packed: bool): seq<Byte> {
    if packed then EncodeLE(|s.morphs|, 2)
    else EncodeLE(s.blockSize, 4) + EncodeLE(|s.morphs|, 4)
  }

  function EncodeShape(s: RawShape, packed: bool): seq<Byte>
    requires WellFormedShape(s, packed)
  {
    [|s.name| as Byte] + s.name + EncodeShapeHeader(s, packed) + EncodeMorphs(s.morphs, packed)
  }

  function EncodeShapes(ss: seq<RawShape>, packed: bool): seq<Byte>
    requires ShapesWellFormed(ss, packed)
  {
    if |ss| == 0 then []
    else
      EncodeShape(ss[0], packed) + EncodeShapes(ss[1..], packed)
  }

  function Magic(packed: bool): nat {
    if packed then PackedMagic else FullMagic
  }

  /** The bytes of a .tri file. */
  function Encode(f: RawFile): seq<Byte>
    requires WellFormed(f)
  {
    EncodeLE(Magic(f.packed), 4) + EncodeLE(|f.shapes|, if f.packed then 2 else 4) + EncodeShapes(f.shapes, f.packed)
  }

  // -------------------------------------------------------- expected records

  function DecodeFullDelta(d: RawFullDelta, f32: F32): FullDelta {
    FullDelta(d.index % TwoTo16, Vec3(f32(d.x), f32(d.y), f32(d.z)))
  }

  function DecodeFullDeltas(ds: seq<RawFullDelta>, f32: F32): seq<FullDelta> {
    if |ds| == 0 then [] else [DecodeFullDelta(ds[0], f32)] + DecodeFullDeltas(ds[1..], f32)
  }

  function Multiplier(m: RawMorph, packed: bool, f32: F32): real {
    if packed then f32(m.multiplier) else 0.0
  }

  /** The record the reader should make of a stored morph of shape `shape`. */
  function DecodeMorph(m: RawMorph, packed: bool, f32: F32, shape: string): MorphRecord {
    var name := CString(m.name);
    var mult := Multiplier(m, packed, f32);
    var data := match m.deltas
      case RawFull(ds) => Full(DecodeFullDeltas(ds, f32))
      case RawPacked(ds) => Packed(mult, ds);
    MorphRecord(name, data, MorphWarnings(shape, name, |m.name|, RawDeltaCount(m.deltas), mult))
  }

  function DecodeMorphs(ms: seq<RawMorph>, packed: bool, f32: F32, shape: string): seq<MorphRecord> {
    seq(|ms|, i requires 0 <= i < |ms| => DecodeMorph(ms[i], packed, f32, shape))
  }

  function DecodeShape(s: RawShape, packed: bool, f32: F32): ShapeRecord {
    ShapeRecord(CString(s.name), DecodeMorphs(s.morphs, packed, f32, CString(s.name)))
  }

  function DecodeShapes(ss: seq<RawShape>, packed: bool, f32: F32): seq<ShapeRecord> {
    seq(|ss|, i requires 0 <= i < |ss| => DecodeShape(ss[i], packed, f32))
  }

  // ------------------------------------------------------------ byte lemmas

  /** The read succeeded with value v and stopped at end. */
  predicate Yields<T(==)>(r: Result<(T, nat), ParseError>, v: T, end: nat) {
    r.Success? && r.value.0 == v && r.value.1 == end
  }

  /** e sits in bs at pos. */
  predicate Occurs(bs: seq<Byte>, pos: nat, e: seq<Byte>) {
    pos + |e| <= |bs| && bs[pos..pos + |e|] == e
  }

  lemma OccursSplit(bs: seq<Byte>, pos: nat, a: seq<Byte>, b: seq<Byte>)
    requires Occurs(bs, pos, a + b)
    ensures Occurs(bs, pos, a) && Occurs(bs, pos + |a|, b)
    ensures pos + |a| + |b| <= |bs|
  {
    assert bs[pos..pos + |a|] == bs[pos..pos + |a + b|][..|a|];
    assert bs[pos + |a|..pos + |a| + |b|] == bs[pos..pos + |a + b|][|a|..];
  }

  lemma Pow256Widths()
    ensures Pow256(2) == TwoTo16 && Pow256(4) == TwoTo32
  {
    assert Pow256(1) == 256;
    assert Pow256(3) == 256 * Pow256(2);
  }

  lemma OccursField(bs: seq<Byte>, pos: nat, v: nat, n: nat)
    requires v < Pow256(n)
    requires Occurs(bs, pos, EncodeLE(v, n))
    ensures pos + n <= |bs| && Field(bs, pos, n) == v
  {
    DecodeEncodeLE(v, n);
  }

  // -------------------------------------------------------- delta round trip

  lemma FullDeltaRoundTrip(bs: seq<Byte>, pos: nat, d: RawFullDelta, f32: F32)
    requires WellFormedDelta(d)
    requires Occurs(bs, pos, EncodeFullDelta(d))
    ensures pos + 16 <= |bs| && FullDeltaAt(bs, pos, f32) == DecodeFullDelta(d, f32)
  {
    var e := EncodeLE(d.index, 4);
    OccursSplit(bs, pos, e + d.x + d.y, d.z);
    OccursSplit(bs, pos, e + d.x, d.y);
    OccursSplit(bs, pos, e, d.x);
    Pow256Widths();
    OccursField(bs, pos, d.index, 4);
  }

  lemma PackedDeltaRoundTrip(bs: seq<Byte>, pos: nat, d: PackedDelta)
    requires Occurs(bs, pos, EncodePackedDelta(d))
    ensures pos + 8 <= |bs| && PackedDeltaAt(bs, pos) == d
  {
    var e0, e1, e2, e3 := EncodeLE(d.index, 2), EncodeLE(FromSigned16(d.x), 2),
                          EncodeLE(FromSigned16(d.y), 2), EncodeLE(FromSigned16(d.z), 2);
    OccursSplit(bs, pos, e0 + e1 + e2, e3);
    OccursSplit(bs, pos, e0 + e1, e2);
    OccursSplit(bs, pos, e0, e1);
    Pow256Widths();
    OccursField(bs, pos, d.index, 2);
    OccursField(bs, pos + 2, FromSigned16(d.x), 2);
    OccursField(bs, pos + 4, FromSigned16(d.y), 2);
    OccursField(bs, pos + 6, FromSigned16(d.z), 2);
    SignedRoundTrip(d.x);
    SignedRoundTrip(d.y);
    SignedRoundTrip(d.z);
  }

  lemma {:induction false} FullDeltasRoundTrip(bs: seq<Byte>, pos: nat, ds: seq<RawFullDelta>, f32: F32)
    requires forall k :: 0 <= k < |ds| ==> WellFormedDelta(ds[k])
    requires Occurs(bs, pos, EncodeFullDeltas(ds))
    ensures |EncodeFullDeltas(ds)| == 16 * |ds|
    ensures Yields(ParseFullDeltas(bs, pos, |ds|, f32), DecodeFullDeltas(ds, f32), pos + 16 * |ds|)
    decreases |ds|
  {
    if |ds| > 0 {
      OccursSplit(bs, pos, EncodeFullDelta(ds[0]), EncodeFullDeltas(ds[1..]));
      FullDeltaRoundTrip(bs, pos, ds[0], f32);
      assert |EncodeFullDelta(ds[0])| == 16;
      FullDeltasRoundTrip(bs, pos + 16, ds[1..], f32);
      var tail := ParseFullDeltas(bs, pos + 16, |ds| - 1, f32);
      assert Yields(tail, DecodeFullDeltas(ds[1..], f32), pos + 16 * |ds|);
      assert [DecodeFullDelta(ds[0], f32)] + DecodeFullDeltas(ds[1..], f32) == DecodeFullDeltas(ds, f32);
    }
  }

  lemma {:induction false} PackedDeltasRoundTrip(bs: seq<Byte>, pos: nat, ds: seq<PackedDelta>)
    requires Occurs(bs, pos, EncodePackedDeltas(ds))
    ensures |EncodePackedDeltas(ds)| == 8 * |ds|
    ensures Yields(ParsePackedDeltas(bs, pos, |ds|), ds, pos + 8 * |ds|)
    decreases |ds|
  {
    if |ds| > 0 {
      OccursSplit(bs, pos, EncodePackedDelta(ds[0]), EncodePackedDeltas(ds[1..]));
      PackedDeltaRoundTrip(bs, pos, ds[0]);
      assert |EncodePackedDelta(ds[0])| == 8;
      PackedDeltasRoundTrip(bs, pos + 8, ds[1..]);
      var tail := ParsePackedDeltas(bs, pos + 8, |ds| - 1);
      assert Yields(tail, ds[1..], pos + 8 * |ds|);
      assert [ds[0]] + ds[1..] == ds;
    }
  }

  // ------------------------------------------------------------ layouts

  /** Bytes a stored morph takes. */
  function MorphSize(m: RawMorph, packed: bool): nat {
    1 + |m.name| + MorphHeaderSize(packed) + (if packed then 8 else 16) * RawDeltaCount(m.deltas)
  }

  function MorphsSize(ms: seq<RawMorph>, packed: bool): nat {
    if |ms| == 0 then 0 else MorphSize(ms[0], packed) + MorphsSize(ms[1..], packed)
  }

  function ShapeSize(s: RawShape, packed: bool): nat {
    1 + |s.name| + ShapeHeaderSize(packed) + MorphsSize(s.morphs, packed)
  }

  function ShapesSize(ss: seq<RawShape>, packed: bool): nat {
    if |ss| == 0 then 0 else ShapeSize(ss[0], packed) + ShapesSize(ss[1..], packed)
  }

  /** Where each of the morphs ms starts when the first starts at pos, and where the last ends. */
  function MorphStarts(pos: nat, ms: seq<RawMorph>, packed: bool): (r: seq<nat>)
    ensures |r| == |ms| + 1 && r[0] == pos && r[|ms|] == pos + MorphsSize(ms, packed)
    ensures forall i :: 0 <= i < |ms| ==> r[i + 1] == r[i] + MorphSize(ms[i], packed)
    decreases |ms|
  {
    if |ms| == 0 then [pos]
    else
      var rest := MorphStarts(pos + MorphSize(ms[0], packed), ms[1..], packed);
      assert forall i :: 0 < i < |ms| ==> ms[i] == ms[1..][i - 1];
      [pos] + rest
  }

  function ShapeStarts(pos: nat, ss: seq<RawShape>, packed: bool): (r: seq<nat>)
    ensures |r| == |ss| + 1 && r[0] == pos && r[|ss|] == pos + ShapesSize(ss, packed)
    ensures forall i :: 0 <= i < |ss| ==> r[i + 1] == r[i] + ShapeSize(ss[i], packed)
    decreases |ss|
  {
    if |ss| == 0 then [pos]
    else
      var rest := ShapeStarts(pos + ShapeSize(ss[0], packed), ss[1..], packed);
      assert forall i :: 0 < i < |ss| ==> ss[i] == ss[1..][i - 1];
      [pos] + rest
  }

  /** The fields of morph m sit in bs from pos on, as the reader will look for them. */
  predicate MorphAt(bs: seq<Byte>, pos: nat, m: RawMorph, packed: bool, f32: F32) {
    var p2 := pos + 1 + |m.name|;
    && p2 <= |bs| && bs[pos] == |m.name|
    && bs[pos + 1..p2] == m.name
    && MorphBodyAt(bs, p2, m, packed, f32)
  }

  /** The header and delta records of morph m sit in bs from p2 on, and the reader recovers them. */
  predicate MorphBodyAt(bs: seq<Byte>, p2: nat, m: RawMorph, packed: bool, f32: F32) {
    && p2 + MorphHeaderSize(packed) <= |bs|
    && (match m.deltas
        case RawPacked(ds) =>
          packed && bs[p2..p2 + 4] == m.multiplier && Field(bs, p2 + 4, 2) == |ds|
          && Yields(ParsePackedDeltas(bs, p2 + 6, |ds|), ds, p2 + 6 + 8 * |ds|)
        case RawFull(ds) =>
          !packed && Field(bs, p2 + 4, 4) == |ds| && |DecodeFullDeltas(ds, f32)| == |ds|
          && Yields(ParseFullDeltas(bs, p2 + 8, |ds|, f32), DecodeFullDeltas(ds, f32), p2 + 8 + 16 * |ds|))
  }

  /**
   * The name and morph count of shape s sit in bs from pos on, and the
   * reader recovers its morphs right after them.
   */
  predicate ShapeAt(bs: seq<Byte>, pos: nat, s: RawShape, packed: bool, f32: F32) {
    var p2 := pos + 1 + |s.name|;
    var p3 := p2 + ShapeHeaderSize(packed);
    && p3 <= |bs| && bs[pos] == |s.name|
    && bs[pos + 1..p2] == s.name
    && MorphCount(bs, p2, packed) == |s.morphs|
    && MorphsReadBack(bs, p3, s.morphs, packed, f32, CString(s.name))
  }

  /** The morphs ms, stored from pos, read back as their records and stop right after their bytes. */
  predicate MorphsReadBack(bs: seq<Byte>, pos: nat, ms: seq<RawMorph>, packed: bool, f32: F32, shape: string)
    requires pos <= |bs|
  {
    Yields(ParseMorphs(bs, pos, packed, f32, shape, |ms|), DecodeMorphs(ms, packed, f32, shape), pos + MorphsSize(ms, packed))
  }

  // ------------------------------------------- the writer places the fields

  lemma {:induction false} PackedDeltasLength(ds: seq<PackedDelta>)
    ensures |EncodePackedDeltas(ds)| == 8 * |ds|
    decreases |ds|
  {
    if |ds| > 0 {
      PackedDeltasLength(ds[1..]);
    }
  }

  lemma {:induction false} FullDeltasLength(ds: seq<RawFullDelta>)
    requires forall k :: 0 <= k < |ds| ==> WellFormedDelta(ds[k])
    ensures |EncodeFullDeltas(ds)| == 16 * |ds|
    decreases |ds|
  {
    if |ds| > 0 {
      FullDeltasLength(ds[1..]);
    }
  }

  lemma MorphLength(m: RawMorph, packed: bool)
    requires WellFormedMorph(m, packed)
    ensures |EncodeMorph(m, packed)| == MorphSize(m, packed)
  {
    if packed {
      PackedDeltasLength(m.deltas.packed);
    } else {
      FullDeltasLength(m.deltas.full);
    }
  }

  lemma {:induction false} MorphsLength(ms: seq<RawMorph>, packed: bool)
    requires MorphsWellFormed(ms, packed)
    ensures |EncodeMorphs(ms, packed)| == MorphsSize(ms, packed)
    decreases |ms|
  {
    if |ms| > 0 {
      MorphLength(ms[0], packed);
      MorphsLength(ms[1..], packed);
    }
  }

  lemma ShapeLength(s: RawShape, packed: bool)
    requires WellFormedShape(s, packed)
    ensures |EncodeShape(s, packed)| == ShapeSize(s, packed)
  {
    MorphsLength(s.morphs, packed);
  }

  lemma {:induction false} ShapesLength(ss: seq<RawShape>, packed: bool)
    requires ShapesWellFormed(ss, packed)
    ensures |EncodeShapes(ss, packed)| == ShapesSize(ss, packed)
    decreases |ss|
  {
    if |ss| > 0 {
      ShapeLength(ss[0], packed);
      ShapesLength(ss[1..], packed);
    }
  }

  /** A size byte, that many name bytes, then the rest. */
  lemma NamedLayout(bs: seq<Byte>, pos: nat, name: seq<Byte>, rest: seq<Byte>)
    requires |name| < 256
    requires Occurs(bs, pos, [|name| as Byte] + name + rest)
    ensures pos + 1 + |name| <= |bs| && bs[pos] == |name|
    ensures bs[pos + 1..pos + 1 + |name|] == name
    ensures Occurs(bs, pos + 1 + |name|, rest)
  {
    OccursSplit(bs, pos, [|name| as Byte] + name, rest);
    OccursSplit(bs, pos, [|name| as Byte], name);
  }

  lemma MorphHeaderLayout(bs: seq<Byte>, p: nat, m: RawMorph, packed: bool)
    requires WellFormedMorph(m, packed)
    requires Occurs(bs, p, EncodeMorphHeader(m, packed))
    ensures |EncodeMorphHeader(m, packed)| == MorphHeaderSize(packed) && p + MorphHeaderSize(packed) <= |bs|
    ensures packed ==> bs[p..p + 4] == m.multiplier && Field(bs, p + 4, 2) == RawDeltaCount(m.deltas)
    ensures !packed ==> Field(bs, p + 4, 4) == RawDeltaCount(m.deltas)
  {
    Pow256Widths();
    var n := RawDeltaCount(m.deltas);
    if packed {
      OccursSplit(bs, p, m.multiplier, EncodeLE(n, 2));
      OccursField(bs, p + 4, n, 2);
    } else {
      OccursSplit(bs, p, EncodeLE(m.blockSize, 4), EncodeLE(n, 4));
      OccursField(bs, p + 4, n, 4);
    }
  }

  /** Where the writer puts a morph's fields, and how many bytes it takes. */
  lemma MorphLayout(f32: F32, bs: seq<Byte>, pos: nat, m: RawMorph, packed: bool)
    requires WellFormedMorph(m, packed)
    requires Occurs(bs, pos, EncodeMorph(m, packed))
    ensures MorphAt(bs, pos, m, packed, f32)
    ensures |EncodeMorph(m, packed)| == MorphSize(m, packed)
  {
    var h, d := EncodeMorphHeader(m, packed), EncodeDeltas(m.deltas);
    assert EncodeMorph(m, packed) == [|m.name| as Byte] + m.name + (h + d);
    NamedLayout(bs, pos, m.name, h + d);
    MorphBodyLayout(f32, bs, pos + 1 + |m.name|, m, packed);
    MorphLength(m, packed);
  }

  /** Where the writer puts a morph's header and delta records. */
  lemma MorphBodyLayout(f32: F32, bs: seq<Byte>, p2: nat, m: RawMorph, packed: bool)
    requires WellFormedMorph(m, packed)
    requires Occurs(bs, p2, EncodeMorphHeader(m, packed) + EncodeDeltas(m.deltas))
    ensures MorphBodyAt(bs, p2, m, packed, f32)
  {
    var h, d := EncodeMorphHeader(m, packed), EncodeDeltas(m.deltas);
    OccursSplit(bs, p2, h, d);
    MorphHeaderLayout(bs, p2, m, packed);
    if packed {
      PackedDeltasRoundTrip(bs, p2 + 6, m.deltas.packed);
    } else {
      FullDeltasRoundTrip(bs, p2 + 8, m.deltas.full, f32);
    }
  }

  /** Where the writer puts a shape's name and morph count, and how many bytes it takes. */
  lemma ShapeHeaderLayout(bs: seq<Byte>, pos: nat, p2: nat, p3: nat, s: RawShape, packed: bool)
    requires WellFormedShape(s, packed)
    requires Occurs(bs, pos, EncodeShape(s, packed))
    requires p2 == pos + 1 + |s.name| && p3 == p2 + ShapeHeaderSize(packed)
    ensures p3 <= |bs| && bs[pos] == |s.name|
    ensures bs[pos + 1..p2] == s.name
    ensures MorphCount(bs, p2, packed) == |s.morphs|
    ensures Occurs(bs, p3, EncodeMorphs(s.morphs, packed))
    ensures |EncodeShape(s, packed)| == 1 + |s.name| + ShapeHeaderSize(packed) + |EncodeMorphs(s.morphs, packed)|
  {
    var h, d := EncodeShapeHeader(s, packed), EncodeMorphs(s.morphs, packed);
    ShapeSplit(s, packed);
    NamedSplitLayout(bs, pos, p2, p3, s.name, h, d);
    HeaderCount(bs, p2, s, packed);
  }

  /** A shape's encoding is its name's length byte, its name, its header and its morphs. */
  lemma ShapeSplit(s: RawShape, packed: bool)
    requires WellFormedShape(s, packed)
    ensures EncodeShape(s, packed)
         == [|s.name| as Byte] + s.name + (EncodeShapeHeader(s, packed) + EncodeMorphs(s.morphs, packed))
    ensures |EncodeShapeHeader(s, packed)| == ShapeHeaderSize(packed)
  {
  }

  /** Where the pieces of a length-prefixed name followed by h and d lie. */
  lemma NamedSplitLayout(bs: seq<Byte>, pos: nat, p2: nat, p3: nat, name: seq<Byte>, h: seq<Byte>, d: seq<Byte>)
    requires |name| < 256 && p2 == pos + 1 + |name| && p3 == p2 + |h|
    requires Occurs(bs, pos, [|name| as Byte] + name + (h + d))
    ensures p3 <= |bs| && bs[pos] == |name|
    ensures bs[pos + 1..p2] == name
    ensures Occurs(bs, p2, h)
    ensures Occurs(bs, p3, d)
    ensures |[|name| as Byte] + name + (h + d)| == 1 + |name| + |h| + |d|
  {
    NamedLayout(bs, pos, name, h + d);
    OccursSplit(bs, pos + 1 + |name|, h, d);
  }

  /** The shape header at p2 declares the shape's morph count. */
  lemma HeaderCount(bs: seq<Byte>, p2: nat, s: RawShape, packed: bool)
    requires |s.morphs| < CountLimit(packed)
    requires Occurs(bs, p2, EncodeShapeHeader(s, packed))
    ensures p2 + ShapeHeaderSize(packed) <= |bs|
    ensures MorphCount(bs, p2, packed) == |s.morphs|
  {
    Pow256Widths();
    if packed {
      OccursField(bs, p2, |s.morphs|, 2);
    } else {
      OccursSplit(bs, p2, EncodeLE(s.blockSize, 4), EncodeLE(|s.morphs|, 4));
      OccursField(bs, p2 + 4, |s.morphs|, 4);
    }
  }

  // ----------------------------------------------- the reader finds them

  lemma SameName(a: seq<Byte>, b: seq<Byte>)
    requires a == b
    ensures CString(a) == CString(b)
  {
  }

  lemma MorphNameStep(bs: seq<Byte>, pos: nat, n: nat, packed: bool, f32: F32, shape: string, name: string,
                      rec: MorphRecord, end: nat)
    requires pos + 1 + n <= |bs| && bs[pos] == n
    requires CString(bs[pos + 1..pos + 1 + n]) == name
    requires Yields(ParseMorphBody(bs, pos + 1 + n, packed, f32, shape, name, n), rec, end)
    ensures Yields(ParseMorph(bs, pos, packed, f32, shape), rec, end)
  {
    assert ParseMorph(bs, pos, packed, f32, shape) == ParseMorphBody(bs, pos + 1 + n, packed, f32, shape, name, n);
  }

  lemma PackedBodyStep(bs: seq<Byte>, p2: nat, f32: F32, shape: string, name: string, nameSize: nat,
                       mult: seq<Byte>, ds: seq<PackedDelta>, end: nat)
    requires p2 + 6 <= |bs| && bs[p2..p2 + 4] == mult
    requires Field(bs, p2 + 4, 2) == |ds| <= MaxVertexCount
    requires Yields(ParsePackedDeltas(bs, p2 + 6, |ds|), ds, end)
    ensures Yields(ParseMorphBody(bs, p2, true, f32, shape, name, nameSize),
                   MorphRecord(name, Packed(f32(mult), ds), MorphWarnings(shape, name, nameSize, |ds|, f32(mult))), end)
  {
  }

  lemma FullBodyStep(bs: seq<Byte>, p2: nat, f32: F32, shape: string, name: string, nameSize: nat,
                     ds: seq<FullDelta>, end: nat)
    requires p2 + 8 <= |bs|
    requires Field(bs, p2 + 4, 4) == |ds| <= MaxVertexCount
    requires Yields(ParseFullDeltas(bs, p2 + 8, |ds|, f32), ds, end)
    ensures Yields(ParseMorphBody(bs, p2, false, f32, shape, name, nameSize),
                   MorphRecord(name, Full(ds), MorphWarnings(shape, name, nameSize, |ds|, 0.0)), end)
  {
  }

  /** The reader on a packed morph, given its name, multiplier, count and delta records. */
  lemma PackedMorphParse(bs: seq<Byte>, pos: nat, n: nat, f32: F32, shape: string, name: string,
                         mult: seq<Byte>, ds: seq<PackedDelta>, end: nat)
    requires pos + 1 + n + 6 <= |bs| && bs[pos] == n
    requires CString(bs[pos + 1..pos + 1 + n]) == name
    requires bs[pos + 1 + n..pos + 1 + n + 4] == mult
    requires Field(bs, pos + 1 + n + 4, 2) == |ds| <= MaxVertexCount
    requires Yields(ParsePackedDeltas(bs, pos + 1 + n + 6, |ds|), ds, end)
    ensures Yields(ParseMorph(bs, pos, true, f32, shape),
                   MorphRecord(name, Packed(f32(mult), ds), MorphWarnings(shape, name, n, |ds|, f32(mult))), end)
  {
    PackedBodyStep(bs, pos + 1 + n, f32, shape, name, n, mult, ds, end);
    MorphNameStep(bs, pos, n, true, f32, shape, name,
                  MorphRecord(name, Packed(f32(mult), ds), MorphWarnings(shape, name, n, |ds|, f32(mult))), end);
  }

  /** The reader on a full-format morph, given its name, count and delta records. */
  lemma FullMorphParse(bs: seq<Byte>, pos: nat, n: nat, f32: F32, shape: string, name: string,
                       ds: seq<FullDelta>, end: nat)
    requires pos + 1 + n + 8 <= |bs| && bs[pos] == n
    requires CString(bs[pos + 1..pos + 1 + n]) == name
    requires Field(bs, pos + 1 + n + 4, 4) == |ds| <= MaxVertexCount
    requires Yields(ParseFullDeltas(bs, pos + 1 + n + 8, |ds|, f32), ds, end)
    ensures Yields(ParseMorph(bs, pos, false, f32, shape),
                   MorphRecord(name, Full(ds), MorphWarnings(shape, name, n, |ds|, 0.0)), end)
  {
    FullBodyStep(bs, pos + 1 + n, f32, shape, name, n, ds, end);
    MorphNameStep(bs, pos, n, false, f32, shape, name, MorphRecord(name, Full(ds), MorphWarnings(shape, name, n, |ds|, 0.0)), end);
  }

  /** The reader recovers a morph from its fields and stops right after them. */
  lemma MorphParse(bs: seq<Byte>, pos: nat, m: RawMorph, packed: bool, f32: F32, shape: string)
    requires WellFormedMorph(m, packed)
    requires MorphAt(bs, pos, m, packed, f32)
    ensures Yields(ParseMorph(bs, pos, packed, f32, shape), DecodeMorph(m, packed, f32, shape), pos + MorphSize(m, packed))
  {
    if packed {
      PackedMorphAtParse(bs, pos, m, f32, shape);
    } else {
      FullMorphAtParse(bs, pos, m, f32, shape);
    }
  }

  /** MorphParse for the packed format. */
  lemma PackedMorphAtParse(bs: seq<Byte>, pos: nat, m: RawMorph, f32: F32, shape: string)
    requires WellFormedMorph(m, true)
    requires MorphAt(bs, pos, m, true, f32)
    ensures Yields(ParseMorph(bs, pos, true, f32, shape), DecodeMorph(m, true, f32, shape), pos + MorphSize(m, true))
  {
    var n := |m.name|;
    var p2 := pos + 1 + n;
    var name := CString(m.name);
    SameName(bs[pos + 1..p2], m.name);
    var ds := m.deltas.packed;
    var end := p2 + 6 + 8 * |ds|;
    PackedMorphParse(bs, pos, n, f32, shape, name, m.multiplier, ds, end);
    assert DecodeMorph(m, true, f32, shape)
        == MorphRecord(name, Packed(f32(m.multiplier), ds), MorphWarnings(shape, name, n, |ds|, f32(m.multiplier)));
  }

  /** MorphParse for the full format. */
  lemma FullMorphAtParse(bs: seq<Byte>, pos: nat, m: RawMorph, f32: F32, shape: string)
    requires WellFormedMorph(m, false)
    requires MorphAt(bs, pos, m, false, f32)
    ensures Yields(ParseMorph(bs, pos, false, f32, shape), DecodeMorph(m, false, f32, shape), pos + MorphSize(m, false))
  {
    var n := |m.name|;
    var p2 := pos + 1 + n;
    var name := CString(m.name);
    SameName(bs[pos + 1..p2], m.name);
    var raw := m.deltas.full;
    var ds := DecodeFullDeltas(raw, f32);
    var end := p2 + 8 + 16 * |raw|;
    FullMorphParse(bs, pos, n, f32, shape, name, ds, end);
    assert DecodeMorph(m, false, f32, shape) == MorphRecord(name, Full(ds), MorphWarnings(shape, name, n, |ds|, 0.0));
  }

  /** A stored morph reads back as the record DecodeMorph describes. */
  lemma MorphRoundTrip(bs: seq<Byte>, pos: nat, m: RawMorph, packed: bool, f32: F32, shape: string)
    requires WellFormedMorph(m, packed)
    requires Occurs(bs, pos, EncodeMorph(m, packed))
    ensures |EncodeMorph(m, packed)| == MorphSize(m, packed)
    ensures Yields(ParseMorph(bs, pos, packed, f32, shape), DecodeMorph(m, packed, f32, shape), pos + MorphSize(m, packed))
  {
    MorphLayout(f32, bs, pos, m, packed);
    MorphParse(bs, pos, m, packed, f32, shape);
  }

  /** The first morph's bytes, then the rest's. */
  lemma MorphsSplit(bs: seq<Byte>, pos: nat, ms: seq<RawMorph>, packed: bool)
    requires |ms| > 0 && MorphsWellFormed(ms, packed)
    requires Occurs(bs, pos, EncodeMorphs(ms, packed))
    ensures WellFormedMorph(ms[0], packed) && MorphsWellFormed(ms[1..], packed)
    ensures Occurs(bs, pos, EncodeMorph(ms[0], packed))
    ensures Occurs(bs, pos + MorphSize(ms[0], packed), EncodeMorphs(ms[1..], packed))
  {
    var e, rest := EncodeMorph(ms[0], packed), EncodeMorphs(ms[1..], packed);
    assert EncodeMorphs(ms, packed) == e + rest;
    OccursSplit(bs, pos, e, rest);
    MorphLength(ms[0], packed);
  }

  /** Where the writer puts each morph of a list. */
  lemma {:induction false} MorphsPlaced(bs: seq<Byte>, ms: seq<RawMorph>, packed: bool, starts: seq<nat>, k: nat)
    requires k <= |ms| && MorphsWellFormed(ms[k..], packed)
    requires |starts| == |ms| + 1
    requires forall i :: 0 <= i < |ms| ==> starts[i + 1] == starts[i] + MorphSize(ms[i], packed)
    requires Occurs(bs, starts[k], EncodeMorphs(ms[k..], packed))
    ensures starts[|ms|] == starts[k] + MorphsSize(ms[k..], packed)
    ensures forall i :: k <= i < |ms| ==> WellFormedMorph(ms[i], packed) && Occurs(bs, starts[i], EncodeMorph(ms[i], packed))
    decreases |ms| - k
  {
    if k < |ms| {
      MorphsSplit(bs, starts[k], ms[k..], packed);
      assert ms[k..][1..] == ms[k + 1..];
      MorphsPlaced(bs, ms, packed, starts, k + 1);
    }
  }


  // ------------------------------------------------ count-driven loops

  /** Item i of xs reads back with `item` from starts[i] and stops at starts[i + 1]. */
  predicate ItemAt<T(==)>(item: nat -> Result<(T, nat), ParseError>, xs: seq<T>, starts: seq<nat>, i: nat)
    requires i < |xs| && |starts| == |xs| + 1
  {
    Yields(item(starts[i]), xs[i], starts[i + 1])
  }

  /** One round of the loop `list` at pos: an item read with `item`, then the other n - 1 from where it stopped. */
  predicate ConsAt<T(==)>(item: nat -> Result<(T, nat), ParseError>, list: (nat, nat) -> Result<(seq<T>, nat), ParseError>, pos: nat, n: nat) {
    n != 0 && item(pos).Success? && list(item(pos).value.1, n - 1).Success? ==>
      list(pos, n) == Success(([item(pos).value.0] + list(item(pos).value.1, n - 1).value.0, list(item(pos).value.1, n - 1).value.1))
  }

  /**
   * If `list` runs `item` count times, and each item from the k-th on reads
   * back from where the previous one stopped, then so does that part of the list.
   */
  lemma {:induction false} ChainYields<T>(item: nat -> Result<(T, nat), ParseError>, list: (nat, nat) -> Result<(seq<T>, nat), ParseError>,
                                              xs: seq<T>, starts: seq<nat>, k: nat)
    requires |starts| == |xs| + 1 && k <= |xs|
    requires Yields(list(starts[|xs|], 0), [], starts[|xs|])
    requires forall i | k <= i < |xs| :: ItemAt(item, xs, starts, i)
    requires forall pos: nat, n: nat :: ConsAt(item, list, pos, n)
    ensures Yields(list(starts[k], |xs| - k), xs[k..], starts[|xs|])
    decreases |xs| - k
  {
    if k != |xs| {
      assert ItemAt(item, xs, starts, k);
      ChainYields(item, list, xs, starts, k + 1);
      assert ConsAt(item, list, starts[k], |xs| - k);
      assert [xs[k]] + xs[k + 1..] == xs[k..];
    } else {
      assert xs[k..] == [];
    }
  }

  /** Reading one morph, as a function of where it starts. */
  function MorphReader(bs: seq<Byte>, packed: bool, f32: F32, shape: string): nat -> Result<(MorphRecord, nat), ParseError> {
    (p: nat) => ParseMorph(bs, p, packed, f32, shape)
  }

  /** Reading n morphs, as a function of where the first starts; no start lies past the end. */
  function MorphLister(bs: seq<Byte>, packed: bool, f32: F32, shape: string): (nat, nat) -> Result<(seq<MorphRecord>, nat), ParseError> {
    (p: nat, n: nat) => if p <= |bs| then ParseMorphs(bs, p, packed, f32, shape, n) else Failure(Truncated)
  }

  /** One round of the morph loop: a morph, then the rest from where it stopped. */
  lemma MorphsCons(bs: seq<Byte>, pos: nat, packed: bool, f32: F32, shape: string, n: nat,
                 x: MorphRecord, p: nat, ys: seq<MorphRecord>, end: nat)
    requires pos <= |bs| && p <= |bs| && n != 0
    requires Yields(ParseMorph(bs, pos, packed, f32, shape), x, p)
    requires Yields(ParseMorphs(bs, p, packed, f32, shape, n - 1), ys, end)
    ensures Yields(ParseMorphs(bs, pos, packed, f32, shape, n), [x] + ys, end)
  {
  }

  /** The morph loop at pos, for n morphs, is one round of ConsAt. */
  lemma MorphsConsAt(bs: seq<Byte>, packed: bool, f32: F32, shape: string, pos: nat, n: nat)
    ensures ConsAt(MorphReader(bs, packed, f32, shape), MorphLister(bs, packed, f32, shape), pos, n)
  {
    if n != 0 && ParseMorph(bs, pos, packed, f32, shape).Success? {
      MorphsConsStep(bs, packed, f32, shape, pos, n);
    }
  }

  /** MorphsConsAt when the first morph reads. */
  lemma MorphsConsStep(bs: seq<Byte>, packed: bool, f32: F32, shape: string, pos: nat, n: nat)
    requires n != 0 && ParseMorph(bs, pos, packed, f32, shape).Success?
    ensures ConsAt(MorphReader(bs, packed, f32, shape), MorphLister(bs, packed, f32, shape), pos, n)
  {
    var r := ParseMorph(bs, pos, packed, f32, shape);
    var x, p := r.value.0, r.value.1;
    if p <= |bs| && ParseMorphs(bs, p, packed, f32, shape, n - 1).Success? {
      var q := ParseMorphs(bs, p, packed, f32, shape, n - 1);
      MorphsListed(bs, packed, f32, shape, pos, n, x, p, q.value.0, q.value.1);
    }
  }

  /** MorphsCons in terms of the reader and the lister. */
  lemma MorphsListed(bs: seq<Byte>, packed: bool, f32: F32, shape: string, pos: nat, n: nat,
                   x: MorphRecord, p: nat, ys: seq<MorphRecord>, end: nat)
    requires n != 0 && p <= |bs|
    requires ParseMorph(bs, pos, packed, f32, shape) == Success((x, p))
    requires ParseMorphs(bs, p, packed, f32, shape, n - 1) == Success((ys, end))
    ensures ConsAt(MorphReader(bs, packed, f32, shape), MorphLister(bs, packed, f32, shape), pos, n)
  {
    MorphsCons(bs, pos, packed, f32, shape, n, x, p, ys, end);
  }

  /** The morph loop reads a morph, then the rest from where it stopped, wherever it starts. */
  lemma MorphsConsAll(bs: seq<Byte>, packed: bool, f32: F32, shape: string)
    ensures forall pos: nat, n: nat :: ConsAt(MorphReader(bs, packed, f32, shape), MorphLister(bs, packed, f32, shape), pos, n)
  {
    forall pos: nat, n: nat
      ensures ConsAt(MorphReader(bs, packed, f32, shape), MorphLister(bs, packed, f32, shape), pos, n)
    {
      MorphsConsAt(bs, packed, f32, shape, pos, n);
    }
  }

  /** Each stored morph of a list reads back, from its own start to the next one's. */
  lemma MorphItems(bs: seq<Byte>, pos: nat, ms: seq<RawMorph>, packed: bool, f32: F32, shape: string)
    requires MorphsWellFormed(ms, packed)
    requires Occurs(bs, pos, EncodeMorphs(ms, packed))
    ensures forall i | 0 <= i < |ms| ::
      ItemAt(MorphReader(bs, packed, f32, shape), DecodeMorphs(ms, packed, f32, shape), MorphStarts(pos, ms, packed), i)
  {
    var starts := MorphStarts(pos, ms, packed);
    assert ms[0..] == ms;
    MorphsPlaced(bs, ms, packed, starts, 0);
    forall i | 0 <= i < |ms|
      ensures ItemAt(MorphReader(bs, packed, f32, shape), DecodeMorphs(ms, packed, f32, shape), starts, i)
    {
      MorphRoundTrip(bs, starts[i], ms[i], packed, f32, shape);
    }
  }

  lemma MorphsRoundTrip(bs: seq<Byte>, pos: nat, ms: seq<RawMorph>, packed: bool, f32: F32, shape: string)
    requires MorphsWellFormed(ms, packed)
    requires Occurs(bs, pos, EncodeMorphs(ms, packed))
    ensures pos <= |bs| && MorphsReadBack(bs, pos, ms, packed, f32, shape)
  {
    MorphItems(bs, pos, ms, packed, f32, shape);
    MorphsConsAll(bs, packed, f32, shape);
    MorphsLength(ms, packed);
    var xs := DecodeMorphs(ms, packed, f32, shape);
    ChainYields(MorphReader(bs, packed, f32, shape), MorphLister(bs, packed, f32, shape), xs, MorphStarts(pos, ms, packed), 0);
    assert xs[0..] == xs;
  }

  /** Where the writer puts a shape's fields, and how many bytes it takes. */
  lemma ShapeLayout(f32: F32, bs: seq<Byte>, pos: nat, s: RawShape, packed: bool)
    requires WellFormedShape(s, packed)
    requires Occurs(bs, pos, EncodeShape(s, packed))
    ensures ShapeAt(bs, pos, s, packed, f32)
    ensures |EncodeShape(s, packed)| == ShapeSize(s, packed)
  {
    var p2 := pos + 1 + |s.name|;
    var p3 := p2 + ShapeHeaderSize(packed);
    ShapeHeaderLayout(bs, pos, p2, p3, s, packed);
    ShapeLength(s, packed);
    MorphsRoundTrip(bs, p3, s.morphs, packed, f32, CString(s.name));
    ShapeAtIntro(bs, pos, p2, p3, s, packed, f32);
  }

  lemma ShapeAtIntro(bs: seq<Byte>, pos: nat, p2: nat, p3: nat, s: RawShape, packed: bool, f32: F32)
    requires p2 == pos + 1 + |s.name| && p3 == p2 + ShapeHeaderSize(packed)
    requires p3 <= |bs| && bs[pos] == |s.name|
    requires bs[pos + 1..p2] == s.name
    requires MorphCount(bs, p2, packed) == |s.morphs|
    requires MorphsReadBack(bs, p3, s.morphs, packed, f32, CString(s.name))
    ensures ShapeAt(bs, pos, s, packed, f32)
  {
  }

  lemma ShapeStep(bs: seq<Byte>, pos: nat, p3: nat, packed: bool, f32: F32, name: string, n: nat, ms: seq<MorphRecord>, end: nat)
    requires pos < |bs| && p3 == pos + 1 + bs[pos] as nat + ShapeHeaderSize(packed) && p3 <= |bs|
    requires CString(bs[pos + 1..pos + 1 + bs[pos] as nat]) == name
    requires n == MorphCount(bs, pos + 1 + bs[pos] as nat, packed)
    requires Yields(ParseMorphs(bs, p3, packed, f32, name, n), ms, end)
    ensures Yields(ParseShape(bs, pos, packed, f32), ShapeRecord(name, ms), end)
  {
  }

  /** The reader recovers a shape from its fields and stops right after them. */
  lemma ShapeParse(bs: seq<Byte>, pos: nat, s: RawShape, packed: bool, f32: F32)
    requires ShapeAt(bs, pos, s, packed, f32)
    ensures Yields(ParseShape(bs, pos, packed, f32), DecodeShape(s, packed, f32), pos + ShapeSize(s, packed))
  {
    var p2 := pos + 1 + |s.name|;
    var p3 := p2 + ShapeHeaderSize(packed);
    var name := CString(s.name);
    var ms := DecodeMorphs(s.morphs, packed, f32, name);
    ShapeAtParts(bs, pos, p2, p3, s, packed, f32);
    ShapeStep(bs, pos, p3, packed, f32, name, |s.morphs|, ms, p3 + MorphsSize(s.morphs, packed));
  }

  /** What ShapeAt says, in the terms the reader's steps use. */
  lemma ShapeAtParts(bs: seq<Byte>, pos: nat, p2: nat, p3: nat, s: RawShape, packed: bool, f32: F32)
    requires p2 == pos + 1 + |s.name| && p3 == p2 + ShapeHeaderSize(packed)
    requires ShapeAt(bs, pos, s, packed, f32)
    ensures pos < |bs| && p3 == pos + 1 + bs[pos] as nat + ShapeHeaderSize(packed) && p3 <= |bs|
    ensures CString(bs[pos + 1..pos + 1 + bs[pos] as nat]) == CString(s.name)
    ensures |s.morphs| == MorphCount(bs, pos + 1 + bs[pos] as nat, packed)
    ensures Yields(ParseMorphs(bs, p3, packed, f32, CString(s.name), |s.morphs|),
                   DecodeMorphs(s.morphs, packed, f32, CString(s.name)), p3 + MorphsSize(s.morphs, packed))
  {
    ShapeHeaderParts(bs, pos, p2, p3, s, packed);
  }

  /** The header half of ShapeAt, in the terms the reader's steps use. */
  lemma ShapeHeaderParts(bs: seq<Byte>, pos: nat, p2: nat, p3: nat, s: RawShape, packed: bool)
    requires p2 == pos + 1 + |s.name| && p3 == p2 + ShapeHeaderSize(packed)
    requires p3 <= |bs| && bs[pos] == |s.name|
    requires bs[pos + 1..p2] == s.name
    requires MorphCount(bs, p2, packed) == |s.morphs|
    ensures pos < |bs| && p3 == pos + 1 + bs[pos] as nat + ShapeHeaderSize(packed)
    ensures CString(bs[pos + 1..pos + 1 + bs[pos] as nat]) == CString(s.name)
    ensures |s.morphs| == MorphCount(bs, pos + 1 + bs[pos] as nat, packed)
  {
    SameName(bs[pos + 1..p2], s.name);
  }

  /** A stored shape reads back as the record DecodeShape describes. */
  lemma ShapeRoundTrip(bs: seq<Byte>, pos: nat, s: RawShape, packed: bool, f32: F32)
    requires WellFormedShape(s, packed)
    requires Occurs(bs, pos, EncodeShape(s, packed))
    ensures |EncodeShape(s, packed)| == ShapeSize(s, packed)
    ensures Yields(ParseShape(bs, pos, packed, f32), DecodeShape(s, packed, f32), pos + ShapeSize(s, packed))
  {
    ShapeLayout(f32, bs, pos, s, packed);
    ShapeParse(bs, pos, s, packed, f32);
  }

  /** The first shape's bytes, then the rest's. */
  lemma ShapesSplit(bs: seq<Byte>, pos: nat, ss: seq<RawShape>, packed: bool)
    requires |ss| > 0 && ShapesWellFormed(ss, packed)
    requires Occurs(bs, pos, EncodeShapes(ss, packed))
    ensures WellFormedShape(ss[0], packed) && ShapesWellFormed(ss[1..], packed)
    ensures Occurs(bs, pos, EncodeShape(ss[0], packed))
    ensures Occurs(bs, pos + ShapeSize(ss[0], packed), EncodeShapes(ss[1..], packed))
  {
    var e, rest := EncodeShape(ss[0], packed), EncodeShapes(ss[1..], packed);
    assert EncodeShapes(ss, packed) == e + rest;
    OccursSplit(bs, pos, e, rest);
    ShapeLength(ss[0], packed);
  }

  /** Where the writer puts each shape of a list. */
  lemma {:induction false} ShapesPlaced(bs: seq<Byte>, ss: seq<RawShape>, packed: bool, starts: seq<nat>, k: nat)
    requires k <= |ss| && ShapesWellFormed(ss[k..], packed)
    requires |starts| == |ss| + 1
    requires forall i :: 0 <= i < |ss| ==> starts[i + 1] == starts[i] + ShapeSize(ss[i], packed)
    requires Occurs(bs, starts[k], EncodeShapes(ss[k..], packed))
    ensures starts[|ss|] == starts[k] + ShapesSize(ss[k..], packed)
    ensures forall i :: k <= i < |ss| ==> WellFormedShape(ss[i], packed) && Occurs(bs, starts[i], EncodeShape(ss[i], packed))
    decreases |ss| - k
  {
    if k < |ss| {
      ShapesSplit(bs, starts[k], ss[k..], packed);
      assert ss[k..][1..] == ss[k + 1..];
      ShapesPlaced(bs, ss, packed, starts, k + 1);
    }
  }


  /** Reading one shape, as a function of where it starts. */
  function ShapeReader(bs: seq<Byte>, packed: bool, f32: F32): nat -> Result<(ShapeRecord, nat), ParseError> {
    (p: nat) => ParseShape(bs, p, packed, f32)
  }

  /** Reading n shapes, as a function of where the first starts; no start lies past the end. */
  function ShapeLister(bs: seq<Byte>, packed: bool, f32: F32): (nat, nat) -> Result<(seq<ShapeRecord>, nat), ParseError> {
    (p: nat, n: nat) => if p <= |bs| then ParseShapes(bs, p, packed, f32, n) else Failure(Truncated)
  }

  /** One round of the shape loop: a shape, then the rest from where it stopped. */
  lemma ShapesCons(bs: seq<Byte>, pos: nat, packed: bool, f32: F32, n: nat,
                 x: ShapeRecord, p: nat, ys: seq<ShapeRecord>, end: nat)
    requires pos <= |bs| && p <= |bs| && n != 0
    requires Yields(ParseShape(bs, pos, packed, f32), x, p)
    requires Yields(ParseShapes(bs, p, packed, f32, n - 1), ys, end)
    ensures Yields(ParseShapes(bs, pos, packed, f32, n), [x] + ys, end)
  {
  }

  /** The shape loop at pos, for n shapes, is one round of ConsAt. */
  lemma ShapesConsAt(bs: seq<Byte>, packed: bool, f32: F32, pos: nat, n: nat)
    ensures ConsAt(ShapeReader(bs, packed, f32), ShapeLister(bs, packed, f32), pos, n)
  {
    if n != 0 && ParseShape(bs, pos, packed, f32).Success? {
      ShapesConsStep(bs, packed, f32, pos, n);
    }
  }

  /** ShapesConsAt when the first shape reads. */
  lemma ShapesConsStep(bs: seq<Byte>, packed: bool, f32: F32, pos: nat, n: nat)
    requires n != 0 && ParseShape(bs, pos, packed, f32).Success?
    ensures ConsAt(ShapeReader(bs, packed, f32), ShapeLister(bs, packed, f32), pos, n)
  {
    var r := ParseShape(bs, pos, packed, f32);
    var x, p := r.value.0, r.value.1;
    if p <= |bs| && ParseShapes(bs, p, packed, f32, n - 1).Success? {
      var q := ParseShapes(bs, p, packed, f32, n - 1);
      ShapesListed(bs, packed, f32, pos, n, x, p, q.value.0, q.value.1);
    }
  }

  /** ShapesCons in terms of the reader and the lister. */
  lemma ShapesListed(bs: seq<Byte>, packed: bool, f32: F32, pos: nat, n: nat,
                   x: ShapeRecord, p: nat, ys: seq<ShapeRecord>, end: nat)
    requires n != 0 && p <= |bs|
    requires ParseShape(bs, pos, packed, f32) == Success((x, p))
    requires ParseShapes(bs, p, packed, f32, n - 1) == Success((ys, end))
    ensures ConsAt(ShapeReader(bs, packed, f32), ShapeLister(bs, packed, f32), pos, n)
  {
    ShapesCons(bs, pos, packed, f32, n, x, p, ys, end);
  }

  /** The shape loop reads a shape, then the rest from where it stopped, wherever it starts. */
  lemma ShapesConsAll(bs: seq<Byte>, packed: bool, f32: F32)
    ensures forall pos: nat, n: nat :: ConsAt(ShapeReader(bs, packed, f32), ShapeLister(bs, packed, f32), pos, n)
  {
    forall pos: nat, n: nat
      ensures ConsAt(ShapeReader(bs, packed, f32), ShapeLister(bs, packed, f32), pos, n)
    {
      ShapesConsAt(bs, packed, f32, pos, n);
    }
  }

  /** Each stored shape of a list reads back, from its own start to the next one's. */
  lemma ShapeItems(bs: seq<Byte>, pos: nat, ss: seq<RawShape>, packed: bool, f32: F32)
    requires ShapesWellFormed(ss, packed)
    requires Occurs(bs, pos, EncodeShapes(ss, packed))
    ensures forall i | 0 <= i < |ss| ::
      ItemAt(ShapeReader(bs, packed, f32), DecodeShapes(ss, packed, f32), ShapeStarts(pos, ss, packed), i)
  {
    var starts := ShapeStarts(pos, ss, packed);
    assert ss[0..] == ss;
    ShapesPlaced(bs, ss, packed, starts, 0);
    forall i | 0 <= i < |ss|
      ensures ItemAt(ShapeReader(bs, packed, f32), DecodeShapes(ss, packed, f32), starts, i)
    {
      ShapeRoundTrip(bs, starts[i], ss[i], packed, f32);
    }
  }

  lemma ShapesRoundTrip(bs: seq<Byte>, pos: nat, ss: seq<RawShape>, packed: bool, f32: F32)
    requires ShapesWellFormed(ss, packed)
    requires Occurs(bs, pos, EncodeShapes(ss, packed))
    ensures Yields(ParseShapes(bs, pos, packed, f32, |ss|), DecodeShapes(ss, packed, f32), pos + ShapesSize(ss, packed))
  {
    ShapeItems(bs, pos, ss, packed, f32);
    ShapesConsAll(bs, packed, f32);
    ShapesLength(ss, packed);
    var xs := DecodeShapes(ss, packed, f32);
    ChainYields(ShapeReader(bs, packed, f32), ShapeLister(bs, packed, f32), xs, ShapeStarts(pos, ss, packed), 0);
    assert xs[0..] == xs;
  }

  /** The records the reader should recover from a stored file. */
  function Expected(f: RawFile, f32: F32): seq<ShapeRecord> {
    DecodeShapes(f.shapes, f.packed, f32)
  }

  /** The reader's view of a file's bytes up to its first shape. */
  lemma HeaderRoundTrip(bs: seq<Byte>, f: RawFile)
    requires WellFormed(f)
    requires Occurs(bs, 0, Encode(f))
    ensures |bs| >= 6 && Field(bs, 0, 4) == Magic(f.packed)
    ensures Field(bs, 4, if f.packed then 2 else 4) == |f.shapes|
    ensures Occurs(bs, if f.packed then 6 else 8, EncodeShapes(f.shapes, f.packed))
    ensures |Encode(f)| == (if f.packed then 6 else 8) + |EncodeShapes(f.shapes, f.packed)|
  {
    var w := if f.packed then 2 else 4;
    var m, c, body := EncodeLE(Magic(f.packed), 4), EncodeLE(|f.shapes|, w), EncodeShapes(f.shapes, f.packed);
    assert Encode(f) == m + c + body;
    OccursSplit(bs, 0, m + c, body);
    OccursSplit(bs, 0, m, c);
    Pow256Widths();
    OccursField(bs, 0, Magic(f.packed), 4);
    OccursField(bs, 4, |f.shapes|, w);
  }

  /** A known tag and a count, followed by shapes that read back, read back as a file body. */
  lemma RecordsStep(bs: seq<Byte>, packed: bool, f32: F32, n: nat, recs: seq<ShapeRecord>, end: nat)
    requires |bs| >= 6 && Field(bs, 0, 4) == Magic(packed)
    requires packed || |bs| >= 8
    requires Field(bs, 4, if packed then 2 else 4) == n
    requires Yields(ParseShapes(bs, if packed then 6 else 8, packed, f32, n), recs, end)
    ensures Yields(ParseRecords(bs, f32), recs, end)
  {
  }

  lemma FileStep(bs: seq<Byte>, f32: F32, recs: seq<ShapeRecord>, end: nat)
    requires Yields(ParseRecords(bs, f32), recs, end)
    ensures ParseFile(bs, f32) == Success(Parsed(Interpret(recs), end, AllWarnings(recs)))
  {
  }

  /**
   * Reading the bytes of a well-formed file, followed by anything, yields
   * exactly its records, stops right after its bytes, and logs the
   * warnings its records carry.
   */
  lemma RoundTrip(f: RawFile, rest: seq<Byte>, f32: F32)
    requires WellFormed(f)
    ensures ParseFile(Encode(f) + rest, f32)
         == Success(Parsed(Interpret(Expected(f, f32)), |Encode(f)|, AllWarnings(Expected(f, f32))))
  {
    var bs := Encode(f) + rest;
    assert Occurs(bs, 0, Encode(f)) by {
      assert bs[0..|Encode(f)|] == Encode(f);
    }
    HeaderRoundTrip(bs, f);
    var start := if f.packed then 6 else 8;
    ShapesRoundTrip(bs, start, f.shapes, f.packed, f32);
    ShapesLength(f.shapes, f.packed);
    RecordsStep(bs, f.packed, f32, |f.shapes|, Expected(f, f32), |Encode(f)|);
    FileStep(bs, f32, Expected(f, f32), |Encode(f)|);
  }
}

=== FILE: tri_format.dfy ===
/**
 * The .tri morph file reader of BodyMorphInterface::GetTrishapeMap.
 *
 * A file is a 4-byte format tag, a shape count, and per shape a
 * length-prefixed name followed by its morphs; per morph a length-prefixed
 * name, a vertex count and the delta records. The full format ('TRI\0')
 * carries 32-bit counts, block sizes and float deltas; the packed format
 * ('TRIP') carries 16-bit counts, a float multiplier and SInt16 deltas.
 * All multi-byte fields are little-endian. Floats are read through a decoder
 * passed in as a parameter (IEEE single precision is not modelled).
 *
 * Reading is split in two: the parse functions turn bytes into records in
 * file order, and Interpret builds the shape map from the records the way
 * the reader's emplace calls do (the first entry of a name wins).
 */
module TriFormat {
  import opened Wrappers
  import opened Bytes
  import opened Geometry
  import opened VertexDeltas

  /** 'TRI\0' as an MSVC multi-character constant, read as a little-endian UInt32. */
  const FullMagic: nat := 0x5452_4900
  /** 'TRIP' as an MSVC multi-character constant, read as a little-endian UInt32. */
  const PackedMagic: nat := 0x5452_4950
  /** A morph may not name more vertices than a UInt16 can count. */
  const MaxVertexCount: nat := 0xFFFF

  /** Decoder for one 4-byte IEEE single-precision float. */
  type F32 = seq<Byte> -> real

  type BodyMorphMap = map<string, MorphData>
  type TriShapeMap = map<string, BodyMorphMap>

  /** The reader's logged warnings; none of them stops the read. */
  datatype Warning =
    | EmptyMorphName(shape: string)
    | NoVertices(shape: string, morph: string)
    | ZeroMultiplier(shape: string, morph: string)

  /**
   * Why the reader returns no map. A vertex-count failure comes after the
   * warnings of everything read so far have been logged, and carries them.
   */
  datatype ParseError =
    | BadMagic(format: nat)
    | TooManyVertices(count: nat, logged: seq<Warning>)
    | Truncated

  /**
   * A vertex-count failure names a count above the limit, and the last
   * warning logged before it is the failing morph's zero multiplier.
   */
  predicate VertexFailureLogged(e: ParseError) {
    e.TooManyVertices? ==> e.count > MaxVertexCount && |e.logged| > 0 && e.logged[|e.logged| - 1].ZeroMultiplier?
  }

  /** The error as seen after `earlier` were logged: a vertex-count failure logged them first. */
  function AfterWarnings(earlier: seq<Warning>, e: ParseError): (r: ParseError)
    ensures r.TooManyVertices? <==> e.TooManyVertices?
    ensures e.TooManyVertices? ==> r.count == e.count && earlier <= r.logged
    ensures !e.TooManyVertices? ==> r == e
    ensures VertexFailureLogged(e) ==> VertexFailureLogged(r)
  {
    if e.TooManyVertices? then e.(logged := earlier + e.logged) else e
  }

  datatype MorphRecord = MorphRecord(name: string, data: MorphData, warnings: seq<Warning>)
  datatype ShapeRecord = ShapeRecord(name: string, morphs: seq<MorphRecord>)

  /** A successfully read file: its shapes, the bytes read, and the warnings logged. */
  datatype Parsed = Parsed(shapes: TriShapeMap, consumed: nat, warnings: seq<Warning>)

  /** The n-byte little-endian field at pos. */
  function Field(bs: seq<Byte>, pos: nat, n: nat): nat
    requires pos + n <= |bs|
  {
    DecodeLE(bs[pos..pos + n])
  }

  /** The full-format record at pos: a 4-byte index stored into a UInt16, then three floats. */
  function FullDeltaAt(bs: seq<Byte>, pos: nat, f32: F32): FullDelta
    requires pos + 16 <= |bs|
  {
    FullDelta(Field(bs, pos, 4) % TwoTo16,
              Vec3(f32(bs[pos + 4..pos + 8]), f32(bs[pos + 8..pos + 12]), f32(bs[pos + 12..pos + 16])))
  }

  /** The packed-format record at pos: a UInt16 index and three SInt16 components. */
  function PackedDeltaAt(bs: seq<Byte>, pos: nat): PackedDelta
    requires pos + 8 <= |bs|
  {
    PackedDelta(Field(bs, pos, 2),
                ToSigned16(Field(bs, pos + 2, 2)),
                ToSigned16(Field(bs, pos + 4, 2)),
                ToSigned16(Field(bs, pos + 6, 2)))
  }

  /** count consecutive 16-byte full delta records starting at pos. */
  function ParseFullDeltas(bs: seq<Byte>, pos: nat, count: nat, f32: F32): (r: Result<(seq<FullDelta>, nat), ParseError>)
    requires pos <= |bs|
    ensures r.Success? <==> pos + 16 * count <= |bs|
    ensures r.Failure? ==> r.error == Truncated
    ensures r.Success? ==> r.value.1 == pos + 16 * count && |r.value.0| == count
    ensures r.Success? ==> forall k :: 0 <= k < count ==> r.value.0[k] == FullDeltaAt(bs, pos + 16 * k, f32)
    decreases count
  {
    if count == 0 then Success(([], pos))
    else if pos + 16 > |bs| then Failure(Truncated)
    else
      match ParseFullDeltas(bs, pos + 16, count - 1, f32)
      case Failure(e) => Failure(e)
      case Success((ds, end)) => Success(([FullDeltaAt(bs, pos, f32)] + ds, end))
  }

  /** count consecutive 8-byte packed delta records starting at pos. */
  function ParsePackedDeltas(bs: seq<Byte>, pos: nat, count: nat): (r: Result<(seq<PackedDelta>, nat), ParseError>)
    requires pos <= |bs|
    ensures r.Success? <==> pos + 8 * count <= |bs|
    ensures r.Failure? ==> r.error == Truncated
    ensures r.Success? ==> r.value.1 == pos + 8 * count && |r.value.0| == count
    ensures r.Success? ==> forall k :: 0 <= k < count ==> r.value.0[k] == PackedDeltaAt(bs, pos + 8 * k)
    decreases count
  {
    if count == 0 then Success(([], pos))
    else if pos + 8 > |bs| then Failure(Truncated)
    else
      match ParsePackedDeltas(bs, pos + 8, count - 1)
      case Failure(e) => Failure(e)
      case Success((ds, end)) => Success(([PackedDeltaAt(bs, pos)] + ds, end))
  }

  /** Bytes between a morph's name and its delta records. */
  function MorphHeaderSize(packed: bool): nat {
    if packed then 6 else 8
  }

  /**
   * The warnings logged for one morph: an empty name (size byte 0), no
   * vertices, and a zero multiplier (the full format never reads one).
   */
  function MorphWarnings(shape: string, name: string, nameSize: nat, vertexNum: nat, multiplier: real): seq<Warning> {
    (if nameSize == 0 then [EmptyMorphName(shape)] else [])
    + (if vertexNum == 0 then [NoVertices(shape, name)] else [])
    + (if multiplier == 0.0 then [ZeroMultiplier(shape, name)] else [])
  }

  /**
   * The part of a morph after its name (read from nameSize bytes): the
   * header, the vertex-count check, and the delta records.
   */
  function ParseMorphBody(bs: seq<Byte>, p2: nat, packed: bool, f32: F32, shape: string, name: string, nameSize: nat)
    : (r: Result<(MorphRecord, nat), ParseError>)
    ensures r.Success? ==> p2 < r.value.1 <= |bs| && r.value.0.name == name
    ensures r.Success? ==> (r.value.0.data.Packed? <==> packed)
    ensures r.Success? ==> DeltaCount(r.value.0.data) <= MaxVertexCount
    ensures r.Success? && !packed ==> ZeroMultiplier(shape, name) in r.value.0.warnings
    ensures r.Failure? && r.error.TooManyVertices? ==> !packed && r.error.count > MaxVertexCount
    ensures r.Failure? && r.error.TooManyVertices? ==> ZeroMultiplier(shape, name) in r.error.logged
    ensures r.Failure? ==> VertexFailureLogged(r.error)
    ensures !packed && p2 + 8 <= |bs| && Field(bs, p2 + 4, 4) > MaxVertexCount
            ==> r == Failure(TooManyVertices(Field(bs, p2 + 4, 4),
                                             MorphWarnings(shape, name, nameSize, Field(bs, p2 + 4, 4), 0.0)))
  {
    if p2 + MorphHeaderSize(packed) > |bs| then Failure(Truncated)
    else
      var multiplier := if packed then f32(bs[p2..p2 + 4]) else 0.0;
      var vertexNum := if packed then Field(bs, p2 + 4, 2) else Field(bs, p2 + 4, 4);
      var p3 := p2 + MorphHeaderSize(packed);
      var warnings := MorphWarnings(shape, name, nameSize, vertexNum, multiplier);
      if vertexNum > MaxVertexCount then Failure(TooManyVertices(vertexNum, warnings))
      else if packed then
        match ParsePackedDeltas(bs, p3, vertexNum)
        case Failure(e) => Failure(e)
        case Success((ds, end)) => Success((MorphRecord(name, Packed(multiplier, ds), warnings), end))
      else
        match ParseFullDeltas(bs, p3, vertexNum, f32)
        case Failure(e) => Failure(e)
        case Success((ds, end)) => Success((MorphRecord(name, Full(ds), warnings), end))
  }

  /** One morph of shape `shape` starting at pos. */
  function ParseMorph(bs: seq<Byte>, pos: nat, packed: bool, f32: F32, shape: string)
    : (r: Result<(MorphRecord, nat), ParseError>)
    ensures r.Success? ==> pos < r.value.1 <= |bs|
    ensures r.Success? ==> (r.value.0.data.Packed? <==> packed)
    ensures r.Success? ==> DeltaCount(r.value.0.data) <= MaxVertexCount
    ensures r.Success? && !packed ==> ZeroMultiplier(shape, r.value.0.name) in r.value.0.warnings
    ensures r.Failure? && r.error.TooManyVertices? ==> !packed && r.error.count > MaxVertexCount
    ensures r.Failure? ==> VertexFailureLogged(r.error)
  {
    if pos + 1 > |bs| then Failure(Truncated)
    else
      var nameSize := bs[pos];
      if pos + 1 + nameSize > |bs| then Failure(Truncated)
      else
        var name := CString(bs[pos + 1..pos + 1 + nameSize]);
        ParseMorphBody(bs, pos + 1 + nameSize, packed, f32, shape, name, nameSize)
  }

  /** count consecutive morphs starting at pos. */
  function ParseMorphs(bs: seq<Byte>, pos: nat, packed: bool, f32: F32, shape: string, count: nat)
    : (r: Result<(seq<MorphRecord>, nat), ParseError>)
    requires pos <= |bs|
    ensures r.Success? ==> pos <= r.value.1 <= |bs| && |r.value.0| == count
    ensures r.Success? ==> forall k :: 0 <= k < count ==> (r.value.0[k].data.Packed? <==> packed)
    ensures r.Failure? && r.error.TooManyVertices? ==> !packed
    ensures r.Failure? ==> VertexFailureLogged(r.error)
    ensures r.Failure? && r.error.TooManyVertices? && count > 0 && ParseMorph(bs, pos, packed, f32, shape).Success?
            ==> ParseMorph(bs, pos, packed, f32, shape).value.0.warnings <= r.error.logged
    decreases count
  {
    if count == 0 then Success(([], pos))
    else
      match ParseMorph(bs, pos, packed, f32, shape)
      case Failure(e) => Failure(e)
      case Success((m, p)) =>
        match ParseMorphs(bs, p, packed, f32, shape, count - 1)
        case Failure(e) => Failure(AfterWarnings(m.warnings, e))
        case Success((ms, end)) => Success(([m] + ms, end))
  }

  /** Bytes between a shape's name and its first morph: block size (full only) and morph count. */
  function ShapeHeaderSize(packed: bool): nat {
    if packed then 2 else 8
  }

  /** Number of morphs a shape declares after its name, read at p2. */
  function MorphCount(bs: seq<Byte>, p2: nat, packed: bool): nat
    requires p2 + ShapeHeaderSize(packed) <= |bs|
  {
    if packed then Field(bs, p2, 2) else Field(bs, p2 + 4, 4)
  }

  /** One shape starting at pos. */
  function ParseShape(bs: seq<Byte>, pos: nat, packed: bool, f32: F32): (r: Result<(ShapeRecord, nat), ParseError>)
    ensures r.Success? ==> pos < r.value.1 <= |bs|
    ensures r.Success? ==> forall k :: 0 <= k < |r.value.0.morphs| ==> (r.value.0.morphs[k].data.Packed? <==> packed)
    ensures r.Failure? && r.error.TooManyVertices? ==> !packed
    ensures r.Failure? ==> VertexFailureLogged(r.error)
  {
    if pos + 1 > |bs| then Failure(Truncated)
    else
      var nameSize := bs[pos];
      var p1 := pos + 1;
      if p1 + nameSize > |bs| then Failure(Truncated)
      else
        var name := CString(bs[p1..p1 + nameSize]);
        var p2 := p1 + nameSize;
        if p2 + ShapeHeaderSize(packed) > |bs| then Failure(Truncated)
        else
          match ParseMorphs(bs, p2 + ShapeHeaderSize(packed), packed, f32, name, MorphCount(bs, p2, packed))
          case Failure(e) => Failure(e)
          case Success((ms, end)) => Success((ShapeRecord(name, ms), end))
  }

  /** count consecutive shapes starting at pos. */
  function ParseShapes(bs: seq<Byte>, pos: nat, packed: bool, f32: F32, count: nat)
    : (r: Result<(seq<ShapeRecord>, nat), ParseError>)
    requires pos <= |bs|
    ensures r.Success? ==> pos <= r.value.1 <= |bs| && |r.value.0| == count
    ensures r.Success? ==> forall k :: 0 <= k < count ==> forall j :: 0 <= j < |r.value.0[k].morphs| ==>
      (r.value.0[k].morphs[j].data.Packed? <==> packed)
    ensures r.Failure? && r.error.TooManyVertices? ==> !packed
    ensures r.Failure? ==> VertexFailureLogged(r.error)
    ensures r.Failure? && r.error.TooManyVertices? && count > 0 && ParseShape(bs, pos, packed, f32).Success?
            ==> MorphListWarnings(ParseShape(bs, pos, packed, f32).value.0.morphs) <= r.error.logged
    decreases count
  {
    if count == 0 then Success(([], pos))
    else
      match ParseShape(bs, pos, packed, f32)
      case Failure(e) => Failure(e)
      case Success((s, p)) =>
        match ParseShapes(bs, p, packed, f32, count - 1)
        case Failure(e) => Failure(AfterWarnings(MorphListWarnings(s.morphs), e))
        case Success((ss, end)) => Success(([s] + ss, end))
  }

  /** True when the first 4 bytes are one of the two format tags. */
  predicate KnownFormat(bs: seq<Byte>)
    requires |bs| >= 4
  {
    Field(bs, 0, 4) == FullMagic || Field(bs, 0, 4) == PackedMagic
  }

  /** Every shape record, in file order. */
  function ParseRecords(bs: seq<Byte>, f32: F32): (r: Result<(seq<ShapeRecord>, nat), ParseError>)
    ensures r.Success? ==> |bs| >= 4 && KnownFormat(bs) && r.value.1 <= |bs|
    ensures |bs| >= 4 && !KnownFormat(bs) ==> r == Failure(BadMagic(Field(bs, 0, 4)))
    ensures r.Success? ==> forall k, j :: 0 <= k < |r.value.0| && 0 <= j < |r.value.0[k].morphs| ==>
      (r.value.0[k].morphs[j].data.Packed? <==> Field(bs, 0, 4) == PackedMagic)
    ensures r.Failure? && r.error.TooManyVertices? ==> |bs| >= 4 && Field(bs, 0, 4) == FullMagic
    ensures r.Failure? ==> VertexFailureLogged(r.error)
  {
    if |bs| < 4 then Failure(Truncated)
    else
      var format := Field(bs, 0, 4);
      if format != FullMagic && format != PackedMagic then Failure(BadMagic(format))
      else
        var packed := format == PackedMagic;
        var countSize := if packed then 2 else 4;
        if 4 + countSize > |bs| then Failure(Truncated)
        else
          var count := Field(bs, 4, countSize);
          match ParseShapes(bs, 4 + countSize, packed, f32, count)
          case Failure(e) => Failure(e)
          case Success((ss, end)) =>
            ShapesUniform(ss, packed);
            Success((ss, end))
  }

  /** The morph-format flag of every morph of every shape agrees with the file's. */
  lemma ShapesUniform(ss: seq<ShapeRecord>, packed: bool)
    requires forall k :: 0 <= k < |ss| ==> forall j :: 0 <= j < |ss[k].morphs| ==> (ss[k].morphs[j].data.Packed? <==> packed)
    ensures forall k, j :: 0 <= k < |ss| && 0 <= j < |ss[k].morphs| ==> (ss[k].morphs[j].data.Packed? <==> packed)
  {
  }

  /** The map a sequence of emplace calls builds: a later entry never replaces an earlier one. */
  function FirstWins<V>(entries: seq<(string, V)>): (m: map<string, V>)
    ensures forall n :: n in m ==> exists k :: 0 <= k < |entries| && entries[k] == (n, m[n])
  {
    if |entries| == 0 then map[]
    else
      var init := entries[..|entries| - 1];
      var last := entries[|entries| - 1];
      var m := FirstWins(init);
      assert forall k :: 0 <= k < |init| ==> init[k] == entries[k];
      if last.0 in m then m else m[last.0 := last.1]
  }

  /** A key is present iff some entry has it. */
  lemma {:induction false} FirstWinsKeys<V>(entries: seq<(string, V)>)
    ensures forall n :: n in FirstWins(entries) <==> exists k :: 0 <= k < |entries| && entries[k].0 == n
  {
    if |entries| > 0 {
      var init := entries[..|entries| - 1];
      FirstWinsKeys(init);
      forall n | exists k :: 0 <= k < |entries| && entries[k].0 == n
        ensures n in FirstWins(entries)
      {
        var k :| 0 <= k < |entries| && entries[k].0 == n;
        if k < |init| {
          assert init[k].0 == n;
        }
      }
    }
  }

  /** An entry whose key no earlier entry has is the one the map keeps. */
  lemma {:induction false} FirstWinsFirst<V>(entries: seq<(string, V)>, k: nat)
    requires k < |entries|
    requires forall j :: 0 <= j < k ==> entries[j].0 != entries[k].0
    ensures entries[k].0 in FirstWins(entries) && FirstWins(entries)[entries[k].0] == entries[k].1
  {
    var init := entries[..|entries| - 1];
    if k < |init| {
      FirstWinsFirst(init, k);
    } else {
      FirstWinsKeys(init);
    }
  }

  function MorphEntries(ms: seq<MorphRecord>): seq<(string, MorphData)> {
    seq(|ms|, k requires 0 <= k < |ms| => (ms[k].name, ms[k].data))
  }

  function ShapeEntries(ss: seq<ShapeRecord>): seq<(string, BodyMorphMap)> {
    seq(|ss|, k requires 0 <= k < |ss| => (ss[k].name, FirstWins(MorphEntries(ss[k].morphs))))
  }

  /** The shape map the reader's emplace calls build from the records. */
  function Interpret(ss: seq<ShapeRecord>): TriShapeMap {
    FirstWins(ShapeEntries(ss))
  }

  /** Every warning, in the order the reader logs them. */
  function AllWarnings(ss: seq<ShapeRecord>): seq<Warning> {
    if |ss| == 0 then [] else AllWarnings(ss[..|ss| - 1]) + MorphListWarnings(ss[|ss| - 1].morphs)
  }

  function MorphListWarnings(ms: seq<MorphRecord>): seq<Warning> {
    if |ms| == 0 then [] else MorphListWarnings(ms[..|ms| - 1]) + ms[|ms| - 1].warnings
  }

  /**
   * GetTrishapeMap's read of an opened file: the shape map, the number of
   * bytes read, and the warnings; none when the tag is unknown, a morph
   * names more than 65535 vertices, or the bytes run out.
   */
  function ParseFile(bs: seq<Byte>, f32: F32): (r: Result<Parsed, ParseError>)
    ensures r.Success? ==> |bs| >= 4 && KnownFormat(bs) && r.value.consumed <= |bs|
    ensures |bs| >= 4 && !KnownFormat(bs) ==> r == Failure(BadMagic(Field(bs, 0, 4)))
    ensures r.Failure? && r.error.TooManyVertices? ==> |bs| >= 4 && Field(bs, 0, 4) == FullMagic
    ensures r.Failure? ==> VertexFailureLogged(r.error)
    ensures r.Success? ==> forall s, n :: s in r.value.shapes && n in r.value.shapes[s] ==>
      (r.value.shapes[s][n].Packed? <==> Field(bs, 0, 4) == PackedMagic)
  {
    match ParseRecords(bs, f32)
    case Failure(e) => Failure(e)
    case Success((ss, end)) =>
      InterpretKeepsFormat(ss, Field(bs, 0, 4) == PackedMagic);
      Success(Parsed(Interpret(ss), end, AllWarnings(ss)))
  }

  lemma InterpretKeepsFormat(ss: seq<ShapeRecord>, packed: bool)
    requires forall k, j :: 0 <= k < |ss| && 0 <= j < |ss[k].morphs| ==> (ss[k].morphs[j].data.Packed? <==> packed)
    ensures forall s, n :: s in Interpret(ss) && n in Interpret(ss)[s] ==> (Interpret(ss)[s][n].Packed? <==> packed)
  {
    var m: TriShapeMap := Interpret(ss);
    forall s: string, n: string | s in m && n in m[s]
      ensures m[s][n].Packed? <==> packed
    {
      var k :| 0 <= k < |ss| && ShapeEntries(ss)[k] == (s, m[s]);
      var j :| 0 <= j < |ss[k].morphs| && MorphEntries(ss[k].morphs)[j] == (n, m[s][n]);
    }
  }
}

=== FILE: vertex_deltas.dfy ===
/**
 * The two vertex-delta encodings of a morph and the step that adds a weighted
 * morph into a vertex buffer (TriShapeFullVertexData / TriShapePackedVertexData).
 */
module VertexDeltas {
  import opened Wrappers
  import opened Bytes
  import opened Geometry

  /** Full precision: a UInt16 vertex index and a float displacement. */
  datatype FullDelta = FullDelta(index: U16, diff: Vec3)

  /** Quantised: a UInt16 vertex index and three SInt16 components. */
  datatype PackedDelta = PackedDelta(index: U16, x: S16, y: S16, z: S16)

  /** One morph of one shape; the packed form shares one multiplier. */
  datatype MorphData =
    | Full(fullDeltas: seq<FullDelta>)
    | Packed(multiplier: real, packedDeltas: seq<PackedDelta>)

  /** The displacement one packed delta encodes before the weight is applied. */
  function Unpack(d: PackedDelta, multiplier: real): Vec3 {
    Vec3((d.x as real) * multiplier, (d.y as real) * multiplier, (d.z as real) * multiplier)
  }

  /** Number of delta records a morph holds. */
  function DeltaCount(m: MorphData): nat {
    match m
    case Full(ds) => |ds|
    case Packed(_, ds) => |ds|
  }

  /** Index of the k-th delta record. */
  function IndexAt(m: MorphData, k: nat): U16
    requires k < DeltaCount(m)
  {
    match m
    case Full(ds) => ds[k].index
    case Packed(_, ds) => ds[k].index
  }

  /** Unweighted displacement of the k-th delta record. */
  function DisplacementAt(m: MorphData, k: nat): Vec3
    requires k < DeltaCount(m)
  {
    match m
    case Full(ds) => ds[k].diff
    case Packed(mult, ds) => Unpack(ds[k], mult)
  }

  /**
   * Reference definition: the total weighted displacement the first n records
   * of m add to vertex i.
   */
  function Contribution(m: MorphData, n: nat, i: nat, factor: real): Vec3
    requires n <= DeltaCount(m)
  {
    if n == 0 then Origin
    else
      var rest := Contribution(m, n - 1, i, factor);
      if IndexAt(m, n - 1) == i then Add(rest, Scale(DisplacementAt(m, n - 1), factor)) else rest
  }

  /** Some record among the first n addresses a vertex at or past vertCount. */
  predicate HasOutOfBounds(m: MorphData, n: nat, vertCount: U16)
    requires n <= DeltaCount(m)
  {
    exists k :: 0 <= k < n && IndexAt(m, k) >= vertCount
  }

  /**
   * The loop of ApplyMorph over the first n records, in file order: every
   * in-range record adds its weighted displacement, every other one raises
   * the out-of-bounds flag and changes nothing.
   */
  function ApplyPrefix(m: MorphData, n: nat, vertCount: U16, vertices: seq<Vec3>, factor: real)
    : (r: (seq<Vec3>, bool))
    requires n <= DeltaCount(m)
    requires vertCount as int <= |vertices|
    ensures |r.0| == |vertices|
    ensures forall i :: 0 <= i < vertCount ==> r.0[i] == Add(vertices[i], Contribution(m, n, i, factor))
    ensures forall i :: vertCount <= i < |vertices| ==> r.0[i] == vertices[i]
    ensures r.1 <==> HasOutOfBounds(m, n, vertCount)
  {
    if n == 0 then (vertices, false)
    else
      var (prev, oob) := ApplyPrefix(m, n - 1, vertCount, vertices, factor);
      var idx := IndexAt(m, n - 1);
      if idx < vertCount then
        var moved := Add(prev[idx], Scale(DisplacementAt(m, n - 1), factor));
        (prev[idx := moved], oob)
      else
        (prev, true)
  }

  /**
   * ApplyMorph: a null vertex buffer yields false and no buffer; otherwise the
   * morph is added at weight `factor` and the result says whether any record
   * was out of bounds.
   */
  function ApplyMorph(m: MorphData, vertCount: U16, vertices: Option<seq<Vec3>>, factor: real)
    : (r: (Option<seq<Vec3>>, bool))
    requires vertices.Some? ==> vertCount as int <= |vertices.value|
    ensures vertices.None? ==> r == (None, false)
    ensures vertices.Some? ==> r.0.Some? && |r.0.value| == |vertices.value|
    ensures vertices.Some? ==> forall i :: 0 <= i < vertCount ==>
      r.0.value[i] == Add(vertices.value[i], Contribution(m, DeltaCount(m), i, factor))
    ensures vertices.Some? ==> forall i :: vertCount <= i < |vertices.value| ==>
      r.0.value[i] == vertices.value[i]
    ensures vertices.Some? ==> (r.1 <==> HasOutOfBounds(m, DeltaCount(m), vertCount))
  {
    match vertices
    case None => (None, false)
    case Some(vs) =>
      var (out, oob) := ApplyPrefix(m, DeltaCount(m), vertCount, vs, factor);
      (Some(out), oob)
  }

  /** A vertex no record names receives nothing. */
  lemma {:induction false} UntouchedVertex(m: MorphData, n: nat, i: nat, factor: real)
    requires n <= DeltaCount(m)
    requires forall k :: 0 <= k < n ==> IndexAt(m, k) != i
    ensures Contribution(m, n, i, factor) == Origin
  {
    if n > 0 {
      UntouchedVertex(m, n - 1, i, factor);
    }
  }

  /** A zero weight adds nothing, so skipping it before applying is only an optimisation. */
  lemma {:induction false} ZeroFactorAddsNothing(m: MorphData, n: nat, i: nat)
    requires n <= DeltaCount(m)
    ensures Contribution(m, n, i, 0.0) == Origin
  {
    if n > 0 {
      ZeroFactorAddsNothing(m, n - 1, i);
    }
  }

  /** A single full-precision record at weight 0.5 on a three-vertex buffer. */
  lemma FullExample()
    ensures ApplyMorph(Full([FullDelta(2, Vec3(1.0, 0.0, 0.0))]), 3,
                       Some([Origin, Origin, Origin]), 0.5)
            == (Some([Origin, Origin, Vec3(0.5, 0.0, 0.0)]), false)
    ensures ApplyMorph(Full([FullDelta(5, Vec3(1.0, 0.0, 0.0))]), 3,
                       Some([Origin, Origin, Origin]), 0.5)
            == (Some([Origin, Origin, Origin]), true)
  {
    var m := Full([FullDelta(2, Vec3(1.0, 0.0, 0.0))]);
    assert ApplyPrefix(m, 0, 3, [Origin, Origin, Origin], 0.5) == ([Origin, Origin, Origin], false);
    assert ApplyPrefix(m, 1, 3, [Origin, Origin, Origin], 0.5)
        == ([Origin, Origin, Origin][2 := Add(Origin, Scale(Vec3(1.0, 0.0, 0.0), 0.5))], false);
    assert [Origin, Origin, Origin][2 := Add(Origin, Scale(Vec3(1.0, 0.0, 0.0), 0.5))]
        == [Origin, Origin, Vec3(0.5, 0.0, 0.0)];
    var m5 := Full([FullDelta(5, Vec3(1.0, 0.0, 0.0))]);
    assert ApplyPrefix(m5, 0, 3, [Origin, Origin, Origin], 0.5) == ([Origin, Origin, Origin], false);
  }

  /** A packed record (100, -100, 0) with multiplier 0.01 at weight 2 moves its vertex by (2, -2, 0). */
  lemma PackedExample()
    ensures ApplyMorph(Packed(0.01, [PackedDelta(0, 100, -100, 0)]), 1, Some([Origin]), 2.0)
            == (Some([Vec3(2.0, -2.0, 0.0)]), false)
  {
    PackedExampleMoves();
  }

  lemma PackedExampleMoves()
    ensures ApplyPrefix(Packed(0.01, [PackedDelta(0, 100, -100, 0)]), 1, 1, [Origin], 2.0) == ([Vec3(2.0, -2.0, 0.0)], false)
  {
    var m := Packed(0.01, [PackedDelta(0, 100, -100, 0)]);
    assert Scale(Unpack(PackedDelta(0, 100, -100, 0), 0.01), 2.0) == Vec3(2.0, -2.0, 0.0);
    assert ApplyPrefix(m, 0, 1, [Origin], 2.0) == ([Origin], false);
    assert [Origin][0 := Add(Origin, Vec3(2.0, -2.0, 0.0))] == [Vec3(2.0, -2.0, 0.0)];
  }
}

=== FILE: weight_store.dfy ===
/**
 * The two weight tables of BodyMorphInterface (index 0 male, 1 female),
 * actor form id -> MorphValueMap. Tables hold map ids into a heap so that
 * CloneMorphs can make two actors share one map, as the shared pointers do.
 */
module WeightStore {
  import opened Wrappers
  import opened Bytes
  import W = Weights

  type ActorId = U32
  type MapId = nat

  datatype Store = Store(
    male: map<ActorId, MapId>,
    female: map<ActorId, MapId>,
    heap: map<MapId, W.MorphValueMap>,
    next: MapId)

  /** Every table entry names a live map, and `next` is a fresh map id. */
  ghost predicate Valid(s: Store) {
    && (forall a :: a in s.male ==> s.male[a] in s.heap)
    && (forall a :: a in s.female ==> s.female[a] in s.heap)
    && (forall id :: id in s.heap ==> id < s.next)
  }

  /** m_morphMap[isFemale ? 1 : 0] */
  function Table(s: Store, isFemale: bool): map<ActorId, MapId> {
    if isFemale then s.female else s.male
  }

  function WithTable(s: Store, isFemale: bool, t: map<ActorId, MapId>): (r: Store)
    ensures Table(r, isFemale) == t && Table(r, !isFemale) == Table(s, !isFemale)
    ensures r.heap == s.heap && r.next == s.next
  {
    if isFemale then s.(female := t) else s.(male := t)
  }

  /** A freshly constructed interface holds no weights. */
  const Initial: Store := Store(map[], map[], map[], 0)

  /** `actor ? actor->formID : 0` */
  function ActorKey(actor: Option<ActorId>): ActorId {
    match actor
    case None => 0
    case Some(a) => a
  }

  /** GetMorphMap: the map an actor's entry refers to, if it has one (a null actor looks up key 0). */
  function GetMorphMap(s: Store, actor: Option<ActorId>, isFemale: bool): (r: Option<W.MorphValueMap>)
    requires Valid(s)
    ensures r.Some? <==> ActorKey(actor) in Table(s, isFemale)
    ensures r.Some? ==> r.value == s.heap[Table(s, isFemale)[ActorKey(actor)]]
  {
    var t := Table(s, isFemale);
    var a := ActorKey(actor);
    if a in t then Some(s.heap[t[a]]) else None
  }

  /** Two entries (of either table) refer to one map. */
  ghost predicate SharesMap(s: Store, sex1: bool, a1: ActorId, sex2: bool, a2: ActorId) {
    a1 in Table(s, sex1) && a2 in Table(s, sex2) && Table(s, sex1)[a1] == Table(s, sex2)[a2]
  }

  /** No two entries share a map: what SetMorph and Load alone ever build. */
  ghost predicate Unshared(s: Store) {
    forall sex1, a1, sex2, a2 :: SharesMap(s, sex1, a1, sex2, a2) ==> sex1 == sex2 && a1 == a2
  }

  /** Every map an entry refers to is non-empty and pruned. */
  ghost predicate WellPruned(s: Store)
    requires Valid(s)
  {
    forall sex: bool, a: ActorId :: PrunedEntry(s, sex, a)
  }

  /** The map of a's entry, if a has one, is non-empty and pruned. */
  ghost predicate PrunedEntry(s: Store, sex: bool, a: ActorId)
    requires Valid(s)
  {
    a in Table(s, sex) ==> |s.heap[Table(s, sex)[a]]| > 0 && W.Pruned(s.heap[Table(s, sex)[a]])
  }

  /** BodyMorphInterface::GetMorph: 0 when the actor, the morph or the keyword is missing. */
  function GetMorph(s: Store, actor: Option<ActorId>, isFemale: bool, morph: W.Name,
                    keyword: Option<W.KeywordId>): (r: real)
    requires Valid(s)
    ensures ActorKey(actor) !in Table(s, isFemale) ==> r == 0.0
    ensures GetMorphMap(s, actor, isFemale).Some? ==>
      r == W.GetMorph(GetMorphMap(s, actor, isFemale).value, morph, keyword)
  {
    match GetMorphMap(s, actor, isFemale)
    case None => 0.0
    case Some(mvm) => W.GetMorph(mvm, morph, keyword)
  }

  /**
   * BodyMorphInterface::SetMorph. A null actor changes nothing. Otherwise the
   * actor's map (created if missing) gets the weight; if the map is left empty
   * the ACTOR's entry is erased, while other entries sharing that map keep
   * referring to it.
   */
  function SetMorph(s: Store, actor: Option<ActorId>, isFemale: bool, morph: W.Name,
                    keyword: Option<W.KeywordId>, value: real): (r: Store)
    requires Valid(s)
    ensures Valid(r)
    ensures actor.None? ==> r == s
    ensures actor.Some? ==> GetMorph(r, actor, isFemale, morph, keyword) == value
  {
    match actor
    case None => s
    case Some(a) =>
      if a in Table(s, isFemale) then SetExisting(s, a, isFemale, morph, keyword, value)
      else SetNew(s, a, isFemale, morph, keyword, value)
  }

  /** SetMorph for an actor with an entry: its map is written in place; an emptied map loses the actor's entry. */
  function SetExisting(s: Store, a: ActorId, isFemale: bool, morph: W.Name,
                       keyword: Option<W.KeywordId>, value: real): (r: Store)
    requires Valid(s) && a in Table(s, isFemale)
    ensures Valid(r)
    ensures GetMorph(r, Some(a), isFemale, morph, keyword) == value
  {
    var t := Table(s, isFemale);
    var id := t[a];
    var mvm := W.SetMorph(s.heap[id], morph, keyword, value);
    var s1 := s.(heap := s.heap[id := mvm]);
    if |mvm| == 0 then WithTable(s1, isFemale, t - {a}) else s1
  }

  /** SetMorph for an actor without an entry: a non-empty result gets a fresh map id. */
  function SetNew(s: Store, a: ActorId, isFemale: bool, morph: W.Name,
                  keyword: Option<W.KeywordId>, value: real): (r: Store)
    requires Valid(s) && a !in Table(s, isFemale)
    ensures Valid(r)
    ensures GetMorph(r, Some(a), isFemale, morph, keyword) == value
  {
    var t := Table(s, isFemale);
    var mvm := W.SetMorph(map[], morph, keyword, value);
    if |mvm| == 0 then s
    else
      var s1 := s.(heap := s.heap[s.next := mvm], next := s.next + 1);
      WithTable(s1, isFemale, t[a := s.next])
  }

  /** SetMorph touches no entry other than the actor's, and no map the actor does not refer to. */
  lemma SetMorphFrame(s: Store, a: ActorId, isFemale: bool, morph: W.Name,
                      keyword: Option<W.KeywordId>, value: real, sex: bool, b: ActorId)
    requires Valid(s)
    requires sex != isFemale || b != a
    ensures var r := SetMorph(s, Some(a), isFemale, morph, keyword, value);
      (b in Table(r, sex) <==> b in Table(s, sex)) &&
      (!SharesMap(s, sex, b, isFemale, a) ==> GetMorphMap(r, Some(b), sex) == GetMorphMap(s, Some(b), sex))
  {
    if a in Table(s, isFemale) {
      SetExistingFrame(s, a, isFemale, morph, keyword, value, sex, b);
    } else {
      SetNewFrame(s, a, isFemale, morph, keyword, value, sex, b);
    }
  }

  /** SetMorphFrame when the actor has an entry: only its map is written, and only its entry may go. */
  lemma SetExistingFrame(s: Store, a: ActorId, isFemale: bool, morph: W.Name,
                         keyword: Option<W.KeywordId>, value: real, sex: bool, b: ActorId)
    requires Valid(s) && a in Table(s, isFemale)
    requires sex != isFemale || b != a
    ensures var r := SetMorph(s, Some(a), isFemale, morph, keyword, value);
      (b in Table(r, sex) <==> b in Table(s, sex)) &&
      (!SharesMap(s, sex, b, isFemale, a) ==> GetMorphMap(r, Some(b), sex) == GetMorphMap(s, Some(b), sex))
  {
    var r := SetMorph(s, Some(a), isFemale, morph, keyword, value);
    var t := Table(s, isFemale);
    var id := t[a];
    var mvm := W.SetMorph(s.heap[id], morph, keyword, value);
    var s1 := s.(heap := s.heap[id := mvm]);
    assert r == if |mvm| == 0 then WithTable(s1, isFemale, t - {a}) else s1;
    assert b in Table(r, sex) <==> b in Table(s, sex);
    if b in Table(s, sex) {
      assert Table(r, sex)[b] == Table(s, sex)[b];
    }
  }

  /** SetMorphFrame when the actor has no entry: a fresh map id is used, if any. */
  lemma SetNewFrame(s: Store, a: ActorId, isFemale: bool, morph: W.Name,
                    keyword: Option<W.KeywordId>, value: real, sex: bool, b: ActorId)
    requires Valid(s) && a !in Table(s, isFemale)
    requires sex != isFemale || b != a
    ensures var r := SetMorph(s, Some(a), isFemale, morph, keyword, value);
      (b in Table(r, sex) <==> b in Table(s, sex)) &&
      GetMorphMap(r, Some(b), sex) == GetMorphMap(s, Some(b), sex)
  {
    var r := SetMorph(s, Some(a), isFemale, morph, keyword, value);
    var t := Table(s, isFemale);
    var mvm := W.SetMorph(map[], morph, keyword, value);
    if |mvm| != 0 {
      var s1 := s.(heap := s.heap[s.next := mvm], next := s.next + 1);
      assert r == WithTable(s1, isFemale, t[a := s.next]);
      if b in Table(s, sex) {
        assert Table(r, sex)[b] == Table(s, sex)[b];
        assert Table(s, sex)[b] < s.next;
      }
    }
  }

  /** An entry sharing the actor's map sees the new weight too, even when the actor's own entry is pruned. */
  lemma SetMorphThroughSharedMap(s: Store, a: ActorId, isFemale: bool, morph: W.Name,
                                 keyword: Option<W.KeywordId>, value: real, sex: bool, b: ActorId)
    requires Valid(s)
    requires sex != isFemale || b != a
    requires SharesMap(s, sex, b, isFemale, a)
    ensures var r := SetMorph(s, Some(a), isFemale, morph, keyword, value);
      GetMorphMap(r, Some(b), sex) == Some(W.SetMorph(s.heap[Table(s, isFemale)[a]], morph, keyword, value))
  {
  }

  /** SetMorph keeps every table entry non-empty and pruned as long as no map is shared. */
  lemma SetMorphKeepsPruned(s: Store, actor: Option<ActorId>, isFemale: bool, morph: W.Name,
                            keyword: Option<W.KeywordId>, value: real)
    requires Valid(s) && Unshared(s) && WellPruned(s)
    ensures var r := SetMorph(s, actor, isFemale, morph, keyword, value);
      Unshared(r) && WellPruned(r)
  {
    if actor.Some? {
      if actor.value in Table(s, isFemale) {
        SetExistingKeepsPruned(s, actor.value, isFemale, morph, keyword, value);
      } else {
        SetNewKeepsPruned(s, actor.value, isFemale, morph, keyword, value);
      }
    }
  }

  /** Every entry of r is an entry of s with the same map id. */
  ghost predicate SubTables(r: Store, s: Store) {
    forall sex, b :: b in Table(r, sex) ==> b in Table(s, sex) && Table(r, sex)[b] == Table(s, sex)[b]
  }

  lemma SetExistingKeepsPruned(s: Store, a: ActorId, isFemale: bool, morph: W.Name,
                               keyword: Option<W.KeywordId>, value: real)
    requires Valid(s) && Unshared(s) && WellPruned(s)
    requires a in Table(s, isFemale)
    ensures var r := SetMorph(s, Some(a), isFemale, morph, keyword, value);
      Unshared(r) && WellPruned(r)
  {
    var r := SetMorph(s, Some(a), isFemale, morph, keyword, value);
    var id := Table(s, isFemale)[a];
    var mvm := W.SetMorph(s.heap[id], morph, keyword, value);
    assert PrunedEntry(s, isFemale, a);
    assert r == SetExisting(s, a, isFemale, morph, keyword, value);
    assert SubTables(r, s);
    assert |mvm| == 0 ==> a !in Table(r, isFemale);
    forall sex, b | b in Table(r, sex) && Table(r, sex)[b] == id
      ensures sex == isFemale && b == a
    {
      assert SharesMap(s, sex, b, isFemale, a);
    }
    HeapWriteKeepsPruned(s, r, id, mvm);
  }

  /** Overwriting one map keeps the tables pruned when every entry still using it gets a pruned, non-empty map. */
  lemma HeapWriteKeepsPruned(s: Store, r: Store, id: MapId, mvm: W.MorphValueMap)
    requires Valid(s) && Valid(r) && Unshared(s) && WellPruned(s)
    requires r.heap == s.heap[id := mvm]
    requires SubTables(r, s)
    requires W.Pruned(mvm)
    requires forall sex, b :: b in Table(r, sex) && Table(r, sex)[b] == id ==> |mvm| > 0
    ensures Unshared(r) && WellPruned(r)
  {
    HeapWritePruned(s, r, id, mvm);
    forall sex1, a1, sex2, a2 | SharesMap(r, sex1, a1, sex2, a2)
      ensures sex1 == sex2 && a1 == a2
    {
      assert SharesMap(s, sex1, a1, sex2, a2);
    }
  }

  /** The pruning half of HeapWriteKeepsPruned. */
  lemma HeapWritePruned(s: Store, r: Store, id: MapId, mvm: W.MorphValueMap)
    requires Valid(s) && Valid(r) && WellPruned(s)
    requires r.heap == s.heap[id := mvm]
    requires SubTables(r, s)
    requires W.Pruned(mvm)
    requires forall sex, b :: b in Table(r, sex) && Table(r, sex)[b] == id ==> |mvm| > 0
    ensures WellPruned(r)
  {
    forall sex: bool, b: ActorId | b in Table(r, sex) ensures PrunedEntry(r, sex, b) {
      var j := Table(r, sex)[b];
      assert b in Table(s, sex) && Table(s, sex)[b] == j;
      if j != id {
        assert PrunedEntry(s, sex, b);
        assert r.heap[j] == s.heap[j];
      } else {
        assert r.heap[j] == mvm;
      }
    }
  }

  lemma SetNewKeepsPruned(s: Store, a: ActorId, isFemale: bool, morph: W.Name,
                          keyword: Option<W.KeywordId>, value: real)
    requires Valid(s) && Unshared(s) && WellPruned(s)
    requires a !in Table(s, isFemale)
    ensures var r := SetMorph(s, Some(a), isFemale, morph, keyword, value);
      Unshared(r) && WellPruned(r)
  {
    var r := SetMorph(s, Some(a), isFemale, morph, keyword, value);
    var mvm := W.SetMorph(map[], morph, keyword, value);
    if |mvm| != 0 {
      assert r.heap == s.heap[s.next := mvm];
      assert AddsEntry(r, s, isFemale, a, s.next);
      FreshEntryKeepsPruned(s, r, isFemale, a, mvm);
    }
  }

  /** r is s with one more entry, (isFemale, a) -> id. */
  ghost predicate AddsEntry(r: Store, s: Store, isFemale: bool, a: ActorId, id: MapId) {
    && a in Table(r, isFemale) && Table(r, isFemale)[a] == id
    && forall sex, b :: (sex != isFemale || b != a) ==>
         (b in Table(r, sex) <==> b in Table(s, sex)) &&
         (b in Table(r, sex) ==> Table(r, sex)[b] == Table(s, sex)[b])
  }

  /** Giving an absent actor a fresh, pruned, non-empty map keeps the tables pruned and unshared. */
  lemma FreshEntryKeepsPruned(s: Store, r: Store, isFemale: bool, a: ActorId, mvm: W.MorphValueMap)
    requires Valid(s) && Valid(r) && Unshared(s) && WellPruned(s)
    requires r.heap == s.heap[s.next := mvm]
    requires AddsEntry(r, s, isFemale, a, s.next)
    requires |mvm| > 0 && W.Pruned(mvm)
    ensures Unshared(r) && WellPruned(r)
  {
    FreshEntryPruned(s, r, isFemale, a, mvm);
    FreshEntryUnshared(s, r, isFemale, a);
  }

  lemma FreshEntryPruned(s: Store, r: Store, isFemale: bool, a: ActorId, mvm: W.MorphValueMap)
    requires Valid(s) && Valid(r) && WellPruned(s)
    requires r.heap == s.heap[s.next := mvm]
    requires AddsEntry(r, s, isFemale, a, s.next)
    requires |mvm| > 0 && W.Pruned(mvm)
    ensures WellPruned(r)
  {
    forall sex: bool, b: ActorId | b in Table(r, sex) ensures PrunedEntry(r, sex, b) {
      if sex != isFemale || b != a {
        var id := Table(s, sex)[b];
        assert PrunedEntry(s, sex, b);
        assert Table(r, sex)[b] == id && id in s.heap;
        assert id != s.next && r.heap[id] == s.heap[id];
      } else {
        assert r.heap[Table(r, sex)[b]] == mvm;
      }
    }
  }

  lemma FreshEntryUnshared(s: Store, r: Store, isFemale: bool, a: ActorId)
    requires Valid(s) && Unshared(s)
    requires AddsEntry(r, s, isFemale, a, s.next)
    ensures Unshared(r)
  {
    forall sex1, a1, sex2, a2 | SharesMap(r, sex1, a1, sex2, a2)
      ensures sex1 == sex2 && a1 == a2
    {
      if !(sex1 == isFemale && a1 == a) && !(sex2 == isFemale && a2 == a) {
        assert SharesMap(s, sex1, a1, sex2, a2);
      }
    }
  }

  /**
   * GetKeywords: a null actor or one without a map reports none; otherwise
   * every keyword whose weight for the morph reads non-zero is listed, and on
   * a pruned store nothing else is.
   */
  function GetKeywords(s: Store, actor: Option<ActorId>, isFemale: bool, morph: W.Name)
    : (r: set<W.KeywordId>)
    requires Valid(s)
    ensures actor.None? || actor.value !in Table(s, isFemale) ==> r == {}
    ensures actor.Some? ==> forall k :: GetMorph(s, actor, isFemale, morph, Some(k)) != 0.0 ==> k in r
    ensures WellPruned(s) ==>
      forall k :: k in r <==> actor.Some? && GetMorph(s, actor, isFemale, morph, Some(k)) != 0.0
  {
    match actor
    case None => {}
    case Some(a) =>
      if a in Table(s, isFemale) then
        EntryHasNoZero(s, a, isFemale, morph);
        W.GetKeywords(s.heap[Table(s, isFemale)[a]], morph)
      else {}
  }

  /**
   * GetMorphs: a null actor or one without a map reports none; otherwise
   * every morph with some keyword reading non-zero is listed, and on a
   * pruned store nothing else is.
   */
  function GetMorphs(s: Store, actor: Option<ActorId>, isFemale: bool): (r: set<W.Name>)
    requires Valid(s)
    ensures actor.None? || actor.value !in Table(s, isFemale) ==> r == {}
    ensures actor.Some? ==> forall m, k :: GetMorph(s, actor, isFemale, m, Some(k)) != 0.0 ==> m in r
    ensures WellPruned(s) ==>
      forall m :: m in r <==> actor.Some? && exists k :: GetMorph(s, actor, isFemale, m, Some(k)) != 0.0
  {
    match actor
    case None => {}
    case Some(a) =>
      if a in Table(s, isFemale) then
        MorphsRead(s, a, isFemale);
        s.heap[Table(s, isFemale)[a]].Keys
      else {}
  }

  /** On a pruned store, no weight of an actor's morph is stored as zero. */
  lemma EntryHasNoZero(s: Store, a: ActorId, isFemale: bool, morph: W.Name)
    requires Valid(s) && a in Table(s, isFemale)
    ensures WellPruned(s) && morph in s.heap[Table(s, isFemale)[a]] ==> W.NoZero(s.heap[Table(s, isFemale)[a]][morph])
  {
    if WellPruned(s) {
      assert PrunedEntry(s, isFemale, a);
    }
  }

  /** On a pruned store, each morph of an actor's map has a keyword that reads non-zero. */
  lemma MorphsRead(s: Store, a: ActorId, isFemale: bool)
    requires Valid(s) && a in Table(s, isFemale)
    ensures WellPruned(s) ==> forall m :: m in s.heap[Table(s, isFemale)[a]] ==>
      exists k :: GetMorph(s, Some(a), isFemale, m, Some(k)) != 0.0
  {
    if WellPruned(s) {
      var mvm := s.heap[Table(s, isFemale)[a]];
      assert PrunedEntry(s, isFemale, a);
      forall m | m in mvm
        ensures exists k :: GetMorph(s, Some(a), isFemale, m, Some(k)) != 0.0
      {
        assert |mvm[m]| > 0 && W.NoZero(mvm[m]);
        var k :| k in mvm[m];
        assert GetMorph(s, Some(a), isFemale, m, Some(k)) == mvm[m][k];
      }
    }
  }

  /** Applies f to the map an actor refers to, leaving every table as it is. */
  function UpdateShared(s: Store, actor: Option<ActorId>, isFemale: bool,
                        f: W.MorphValueMap -> W.MorphValueMap): (r: Store)
    requires Valid(s)
    ensures Valid(r)
    ensures r.male == s.male && r.female == s.female
    ensures actor.Some? ==> forall sex, b :: !SharesMap(s, sex, b, isFemale, actor.value) ==>
      GetMorphMap(r, Some(b), sex) == GetMorphMap(s, Some(b), sex)
    ensures actor.Some? ==> forall sex, b :: SharesMap(s, sex, b, isFemale, actor.value) ==>
      GetMorphMap(r, Some(b), sex) == Some(f(GetMorphMap(s, actor, isFemale).value))
  {
    match actor
    case None => s
    case Some(a) =>
      var t := Table(s, isFemale);
      if a in t then s.(heap := s.heap[t[a] := f(s.heap[t[a]])]) else s
  }

  /**
   * RemoveMorphsByName: erases that morph from the actor's (possibly shared)
   * map; the actor's entry stays even when its map becomes empty.
   */
  function RemoveMorphsByName(s: Store, actor: Option<ActorId>, isFemale: bool, morph: W.Name)
    : (r: Store)
    requires Valid(s)
    ensures Valid(r) && r.male == s.male && r.female == s.female
    ensures actor.Some? && actor.value in Table(s, isFemale) ==>
      forall k :: GetMorph(r, actor, isFemale, morph, Some(k)) == 0.0
    ensures actor.Some? && actor.value in Table(s, isFemale) ==>
      forall m, k :: m != morph ==> GetMorph(r, actor, isFemale, m, Some(k)) == GetMorph(s, actor, isFemale, m, Some(k))
    ensures actor.Some? ==> forall sex, b :: !SharesMap(s, sex, b, isFemale, actor.value) ==>
      GetMorphMap(r, Some(b), sex) == GetMorphMap(s, Some(b), sex)
  {
    UpdateShared(s, actor, isFemale, mvm => W.RemoveMorphsByName(mvm, morph))
  }

  /**
   * RemoveMorphsByKeyword: drops the keyword from every morph of the actor's
   * map; neither emptied morphs nor an emptied map are pruned.
   */
  function RemoveMorphsByKeyword(s: Store, actor: Option<ActorId>, isFemale: bool,
                                 keyword: Option<W.KeywordId>): (r: Store)
    requires Valid(s)
    ensures Valid(r) && r.male == s.male && r.female == s.female
    ensures actor.Some? && actor.value in Table(s, isFemale) ==>
      forall m :: GetMorph(r, actor, isFemale, m, keyword) == 0.0
    ensures actor.Some? && actor.value in Table(s, isFemale) ==>
      GetMorphs(r, actor, isFemale) == GetMorphs(s, actor, isFemale)
    ensures actor.Some? && actor.value in Table(s, isFemale) ==>
      forall m, k :: k != W.KeyOf(keyword) ==> GetMorph(r, actor, isFemale, m, Some(k)) == GetMorph(s, actor, isFemale, m, Some(k))
    ensures actor.Some? ==> forall sex, b :: !SharesMap(s, sex, b, isFemale, actor.value) ==>
      GetMorphMap(r, Some(b), sex) == GetMorphMap(s, Some(b), sex)
  {
    UpdateShared(s, actor, isFemale, mvm => W.RemoveMorphsByKeyword(mvm, keyword))
  }

  /** ClearMorphs: erases the actor's entry and no other. */
  function ClearMorphs(s: Store, actor: Option<ActorId>, isFemale: bool): (r: Store)
    requires Valid(s)
    ensures Valid(r)
    ensures actor.Some? ==> GetMorphMap(r, actor, isFemale).None?
    ensures forall sex, b :: (actor.None? || sex != isFemale || b != actor.value) ==>
      GetMorphMap(r, Some(b), sex) == GetMorphMap(s, Some(b), sex)
  {
    match actor
    case None => s
    case Some(a) => WithTable(s, isFemale, Table(s, isFemale) - {a})
  }

  /**
   * CloneMorphs: the target's entry, in the table of the source's sex, is made
   * to refer to the very map of the source (a shallow copy).
   */
  function CloneMorphs(s: Store, source: Option<ActorId>, target: Option<ActorId>,
                       sourceIsFemale: bool): (r: Store)
    requires Valid(s)
    ensures Valid(r)
    ensures source.Some? && target.Some? && source.value in Table(s, sourceIsFemale) ==>
      SharesMap(r, sourceIsFemale, target.value, sourceIsFemale, source.value)
    ensures source.Some? && target.Some? && source.value in Table(s, sourceIsFemale) ==>
      GetMorphMap(r, target, sourceIsFemale) == GetMorphMap(s, source, sourceIsFemale)
    ensures source.None? || target.None? || source.value !in Table(s, sourceIsFemale) ==> r == s
    ensures target.Some? ==> forall sex, b :: (sex != sourceIsFemale || b != target.value) ==>
      GetMorphMap(r, Some(b), sex) == GetMorphMap(s, Some(b), sex)
  {
    if source.None? || target.None? then s
    else
      var t := Table(s, sourceIsFemale);
      if source.value in t then WithTable(s, sourceIsFemale, t[target.value := t[source.value]])
      else s
  }

  /** Editing the clone edits the source: a weight set on the target is read back through the source. */
  lemma CloneIsShallow(s: Store, src: ActorId, tgt: ActorId, isFemale: bool, morph: W.Name,
                       keyword: Option<W.KeywordId>, value: real)
    requires Valid(s) && src != tgt && src in Table(s, isFemale)
    requires value != 0.0
    ensures var c := CloneMorphs(s, Some(src), Some(tgt), isFemale);
      GetMorph(SetMorph(c, Some(tgt), isFemale, morph, keyword, value), Some(src), isFemale, morph, keyword) == value
  {
    var c := CloneMorphs(s, Some(src), Some(tgt), isFemale);
    var r := SetMorph(c, Some(tgt), isFemale, morph, keyword, value);
    assert SharesMap(c, isFemale, src, isFemale, tgt);
    assert W.GetMorph(W.SetMorph(c.heap[Table(c, isFemale)[tgt]], morph, keyword, value), morph, keyword) == value;
  }

  /**
   * Sharing defeats pruning: after a clone, clearing the last weight through
   * the target erases the target's entry but leaves the source referring to
   * an empty map.
   */
  lemma ClonedMapCanBeLeftEmpty(isFemale: bool)
    ensures var s0 := SetMorph(Initial, Some(1), isFemale, "Thin", None, 0.5);
      var s1 := CloneMorphs(s0, Some(1), Some(2), isFemale);
      var s2 := SetMorph(s1, Some(2), isFemale, "Thin", None, 0.0);
      GetMorphMap(s2, Some(2), isFemale).None? && GetMorphMap(s2, Some(1), isFemale) == Some(map[])
  {
    var s0 := SetMorph(Initial, Some(1), isFemale, "Thin", None, 0.5);
    assert Table(s0, isFemale) == map[1 := 0];
    assert s0.heap == map[0 := map["Thin" := map[0 := 0.5]]];
    var s1 := CloneMorphs(s0, Some(1), Some(2), isFemale);
    assert Table(s1, isFemale) == map[1 := 0, 2 := 0];
    var s2 := SetMorph(s1, Some(2), isFemale, "Thin", None, 0.0);
    var emptied := W.SetMorph(map["Thin" := map[0 := 0.5]], "Thin", None, 0.0);
    assert emptied.Keys == {};
    assert s2.heap[0] == map[];
  }

  /** Setting 0 where nothing is stored is a no-op when no map is shared or empty. */
  lemma SetZeroOnAbsentIsNoOp(s: Store, a: ActorId, isFemale: bool, morph: W.Name,
                              keyword: Option<W.KeywordId>)
    requires Valid(s) && WellPruned(s)
    requires GetMorph(s, Some(a), isFemale, morph, keyword) == 0.0
    ensures SetMorph(s, Some(a), isFemale, morph, keyword, 0.0) == s
  {
    var t := Table(s, isFemale);
    if a in t {
      SetZeroOnExistingIsNoOp(s, a, isFemale, morph, keyword);
    } else {
      var mvm := W.SetMorph(map[], morph, keyword, 0.0);
      assert mvm.Keys == {};
    }
  }

  lemma SetZeroOnExistingIsNoOp(s: Store, a: ActorId, isFemale: bool, morph: W.Name,
                                keyword: Option<W.KeywordId>)
    requires Valid(s) && WellPruned(s)
    requires a in Table(s, isFemale)
    requires GetMorph(s, Some(a), isFemale, morph, keyword) == 0.0
    ensures SetMorph(s, Some(a), isFemale, morph, keyword, 0.0) == s
  {
    EntryUnchangedBySetZero(s, a, isFemale, morph, keyword);
    var id := Table(s, isFemale)[a];
    var mvm := W.SetMorph(s.heap[id], morph, keyword, 0.0);
    assert mvm == s.heap[id] && |mvm| != 0;
    RewriteSame(s.heap, id);
    assert SetMorph(s, Some(a), isFemale, morph, keyword, 0.0) == s.(heap := s.heap[id := mvm]);
  }

  /** Writing a map's own value back leaves it unchanged. */
  lemma RewriteSame<K, V>(m: map<K, V>, k: K)
    requires k in m
    ensures m[k := m[k]] == m
  {
  }

  lemma EntryUnchangedBySetZero(s: Store, a: ActorId, isFemale: bool, morph: W.Name,
                                keyword: Option<W.KeywordId>)
    requires Valid(s) && WellPruned(s)
    requires a in Table(s, isFemale)
    requires GetMorph(s, Some(a), isFemale, morph, keyword) == 0.0
    ensures |s.heap[Table(s, isFemale)[a]]| > 0
    ensures W.SetMorph(s.heap[Table(s, isFemale)[a]], morph, keyword, 0.0) == s.heap[Table(s, isFemale)[a]]
  {
    var mvm := s.heap[Table(s, isFemale)[a]];
    assert PrunedEntry(s, isFemale, a);
    W.SetZeroOnAbsentIsNoOp(mvm, morph, keyword);
  }

  /** BodyMorphInterface::Revert: both tables are emptied. */
  function Revert(s: Store): (r: Store)
    requires Valid(s)
    ensures Valid(r) && Unshared(r) && WellPruned(r)
    ensures forall sex, a, m, k :: GetMorph(r, Some(a), sex, m, k) == 0.0
  {
    s.(male := map[], female := map[])
  }
}

=== FILE: weights.dfy ===
/**
 * Per-actor weights: UserValues (keyword -> weight of one morph) and
 * MorphValueMap (morph name -> UserValues), with the pruning rules of
 * their Set/Remove operations and the max-wins effective value.
 */
module Weights {
  import opened Wrappers
  import opened Bytes

  /** The form id of a BGSKeyword; 0 stands for "no keyword". */
  type KeywordId = U32

  type Name = string

  /** Keyword -> weight for one morph of one actor. */
  type UserValues = map<KeywordId, real>

  /** Morph name -> the weights set for it. */
  type MorphValueMap = map<Name, UserValues>

  /** A null keyword pointer is stored under key 0. */
  function KeyOf(keyword: Option<KeywordId>): KeywordId {
    match keyword
    case None => 0
    case Some(id) => id
  }

  /** No explicit zero weight is ever stored. */
  ghost predicate NoZero(uv: UserValues) {
    forall k :: k in uv ==> uv[k] != 0.0
  }

  /** Every morph entry is non-empty and free of zeros. */
  ghost predicate Pruned(mvm: MorphValueMap) {
    forall m :: m in mvm ==> |mvm[m]| > 0 && NoZero(mvm[m])
  }

  // ---------------------------------------------------------------- UserValues

  /** UserValues::GetValue: the stored weight, 0 when the keyword has none. */
  function GetValue(uv: UserValues, keyword: Option<KeywordId>): (r: real)
    ensures r != 0.0 ==> KeyOf(keyword) in uv && uv[KeyOf(keyword)] == r
    ensures NoZero(uv) ==> (r != 0.0 <==> KeyOf(keyword) in uv)
  {
    var id := KeyOf(keyword);
    if id in uv then uv[id] else 0.0
  }

  /**
   * UserValues::SetValue: 0 erases the keyword's entry, anything else
   * inserts or overwrites it; no other keyword changes.
   */
  function SetValue(uv: UserValues, keyword: Option<KeywordId>, value: real): (r: UserValues)
    ensures value == 0.0 ==> KeyOf(keyword) !in r
    ensures value != 0.0 ==> KeyOf(keyword) in r && r[KeyOf(keyword)] == value
    ensures forall k :: k != KeyOf(keyword) ==> (k in r <==> k in uv)
    ensures forall k :: k != KeyOf(keyword) && k in r ==> r[k] == uv[k]
  {
    var id := KeyOf(keyword);
    if value == 0.0 then uv - {id} else uv[id := value]
  }

  /** Reading back after SetValue gives the value set, and every other keyword reads as before. */
  lemma GetAfterSetValue(uv: UserValues, keyword: Option<KeywordId>, value: real, other: Option<KeywordId>)
    ensures GetValue(SetValue(uv, keyword, value), keyword) == value
    ensures KeyOf(other) != KeyOf(keyword) ==> GetValue(SetValue(uv, keyword, value), other) == GetValue(uv, other)
  {
  }

  /** UserValues::RemoveKeyword: drops that keyword's entry, keeps every other one. */
  function RemoveKeyword(uv: UserValues, keyword: Option<KeywordId>): (r: UserValues)
    ensures KeyOf(keyword) !in r
    ensures forall k :: k != KeyOf(keyword) ==> (k in r <==> k in uv)
    ensures forall k :: k in r ==> r[k] == uv[k]
  {
    uv - {KeyOf(keyword)}
  }

  /** UserValues::Revert leaves no weight behind. */
  function RevertValues(uv: UserValues): (r: UserValues)
    ensures forall k :: GetValue(r, Some(k)) == 0.0
  {
    map[]
  }

  predicate IsLeastKey(k: KeywordId, s: set<KeywordId>) {
    k in s && forall j :: j in s ==> k <= j
  }

  /** A least element of a non-empty set of keyword ids, chosen by induction on the set. */
  ghost function LeastKeyOf(s: set<KeywordId>): (k: KeywordId)
    requires s != {}
    ensures IsLeastKey(k, s)
    decreases |s|
  {
    var x :| x in s;
    if s - {x} == {} then
      assert forall j :: j in s ==> j == x by {
        forall j | j in s ensures j == x {
          assert j !in s - {x};
        }
      }
      x
    else
      var m := LeastKeyOf(s - {x});
      var k := if x < m then x else m;
      assert forall j :: j in s ==> k <= j by {
        forall j | j in s ensures k <= j {
          if j != x { assert j in s - {x}; }
        }
      }
      k
  }

  /** The smallest keyword id of a non-empty set. */
  function MinKey(s: set<KeywordId>): (k: KeywordId)
    requires s != {}
    ensures IsLeastKey(k, s)
  {
    var w := LeastKeyOf(s);
    var k :| IsLeastKey(k, s);
    k
  }

  lemma RemoveOneKey(uv: UserValues, k: KeywordId)
    requires k in uv
    ensures (uv - {k}).Keys == uv.Keys - {k}
    ensures |(uv - {k}).Keys| < |uv.Keys|
    ensures forall j :: j in uv && j != k ==> j in (uv - {k}) && (uv - {k})[j] == uv[j]
  {
    assert (uv - {k}).Keys == uv.Keys - {k};
  }

  /**
   * UserValues::GetEffectiveValue: the largest stored weight (which may be
   * negative), or 0 when nothing is stored. Keys are visited smallest first;
   * the maximum does not depend on the visiting order.
   */
  function EffectiveValue(uv: UserValues): (r: real)
    ensures uv.Keys == {} ==> r == 0.0
    ensures uv.Keys != {} ==> exists k :: k in uv && uv[k] == r
    ensures forall k :: k in uv ==> uv[k] <= r
    decreases |uv.Keys|
  {
    if uv.Keys == {} then 0.0
    else
      var k := MinKey(uv.Keys);
      var rest := uv - {k};
      RemoveOneKey(uv, k);
      if rest.Keys == {} then uv[k]
      else
        var m := EffectiveValue(rest);
        if uv[k] < m then m else uv[k]
  }

  /** Three keywords at 0.3, 0.7 and 0.1: the effective value is 0.7. */
  lemma EffectiveValueExample()
    ensures EffectiveValue(map[1 := 0.3, 2 := 0.7, 3 := 0.1]) == 0.7
  {
    var uv: UserValues := map[1 := 0.3, 2 := 0.7, 3 := 0.1];
    var r := EffectiveValue(uv);
    assert uv[2] <= r;
    assert forall k :: k in uv ==> uv[k] <= 0.7;
  }

  // ------------------------------------------------------------- MorphValueMap

  /** MorphValueMap::GetMorph: the weight of (morph, keyword), 0 when either level is missing. */
  function GetMorph(mvm: MorphValueMap, morph: Name, keyword: Option<KeywordId>): (r: real)
    ensures morph !in mvm ==> r == 0.0
    ensures morph in mvm && KeyOf(keyword) !in mvm[morph] ==> r == 0.0
    ensures morph in mvm && KeyOf(keyword) in mvm[morph] ==> r == mvm[morph][KeyOf(keyword)]
  {
    if morph in mvm then GetValue(mvm[morph], keyword) else 0.0
  }

  /**
   * MorphValueMap::SetMorph: sets one weight and prunes the morph entry if it
   * is left empty; every other morph is untouched.
   */
  function SetMorph(mvm: MorphValueMap, morph: Name, keyword: Option<KeywordId>, value: real)
    : (r: MorphValueMap)
    ensures GetMorph(r, morph, keyword) == value
    ensures forall m :: m != morph ==> (m in r <==> m in mvm)
    ensures forall m :: m != morph && m in r ==> r[m] == mvm[m]
    ensures morph in r ==> |r[morph]| > 0
    ensures forall k :: k != KeyOf(keyword) ==> GetMorph(r, morph, Some(k)) == GetMorph(mvm, morph, Some(k))
    ensures Pruned(mvm) ==> Pruned(r)
  {
    var uv := if morph in mvm then mvm[morph] else map[];
    var uv' := SetValue(uv, keyword, value);
    PrunedAfterUpdate(mvm, morph, uv, keyword, value);
    if |uv'| == 0 then mvm - {morph} else mvm[morph := uv']
  }

  lemma PrunedAfterUpdate(mvm: MorphValueMap, morph: Name, uv: UserValues,
                          keyword: Option<KeywordId>, value: real)
    requires uv == if morph in mvm then mvm[morph] else map[]
    ensures var uv' := SetValue(uv, keyword, value);
      Pruned(mvm) ==> Pruned(if |uv'| == 0 then mvm - {morph} else mvm[morph := uv'])
  {
    var uv' := SetValue(uv, keyword, value);
    if Pruned(mvm) {
      assert NoZero(uv);
      assert NoZero(uv');
    }
  }

  /** Setting 0 where nothing is stored leaves a pruned map exactly as it was. */
  lemma SetZeroOnAbsentIsNoOp(mvm: MorphValueMap, morph: Name, keyword: Option<KeywordId>)
    requires Pruned(mvm)
    requires morph !in mvm || KeyOf(keyword) !in mvm[morph]
    ensures SetMorph(mvm, morph, keyword, 0.0) == mvm
  {
    var id := KeyOf(keyword);
    if morph in mvm {
      var uv := mvm[morph];
      assert SetValue(uv, keyword, 0.0) == uv - {id} == uv;
      assert |uv| > 0;
      assert mvm[morph := uv] == mvm;
    } else {
      var none: UserValues := map[];
      assert SetValue(none, keyword, 0.0) == none - {id} == none;
      assert mvm - {morph} == mvm;
    }
  }

  /**
   * MorphValueMap::GetKeywords: the keywords that hold a weight for the morph.
   * Every keyword that reads non-zero is listed, and when no zero is stored
   * (which SetValue guarantees) nothing else is.
   */
  function GetKeywords(mvm: MorphValueMap, morph: Name): (r: set<KeywordId>)
    ensures morph !in mvm ==> r == {}
    ensures forall k :: GetMorph(mvm, morph, Some(k)) != 0.0 ==> k in r
    ensures morph in mvm && NoZero(mvm[morph]) ==> forall k :: k in r <==> GetMorph(mvm, morph, Some(k)) != 0.0
  {
    if morph in mvm then mvm[morph].Keys else {}
  }

  /** Setting a weight adds its keyword to the listing, and clearing it removes the keyword. */
  lemma KeywordsAfterSetMorph(mvm: MorphValueMap, morph: Name, keyword: Option<KeywordId>, value: real)
    requires Pruned(mvm)
    ensures GetKeywords(SetMorph(mvm, morph, keyword, value), morph)
         == if value == 0.0 then GetKeywords(mvm, morph) - {KeyOf(keyword)}
            else GetKeywords(mvm, morph) + {KeyOf(keyword)}
  {
    var r := SetMorph(mvm, morph, keyword, value);
    var id := KeyOf(keyword);
    var before := GetKeywords(mvm, morph);
    var after := GetKeywords(r, morph);
    var expected := if value == 0.0 then before - {id} else before + {id};
    forall k ensures k in after <==> k in expected {
      ListedIffNonZero(r, morph, k);
      ListedIffNonZero(mvm, morph, k);
    }
  }

  /** On a pruned map, a keyword is listed exactly when its weight reads non-zero. */
  lemma ListedIffNonZero(mvm: MorphValueMap, morph: Name, k: KeywordId)
    requires Pruned(mvm)
    ensures k in GetKeywords(mvm, morph) <==> GetMorph(mvm, morph, Some(k)) != 0.0
  {
    if morph in mvm {
      assert NoZero(mvm[morph]);
    }
  }

  /** MorphValueMap::RemoveMorphsByName: erases that morph only. */
  function RemoveMorphsByName(mvm: MorphValueMap, morph: Name): (r: MorphValueMap)
    ensures morph !in r
    ensures forall m :: m != morph ==> (m in r <==> m in mvm)
    ensures forall m :: m in r ==> r[m] == mvm[m]
    ensures Pruned(mvm) ==> Pruned(r)
  {
    mvm - {morph}
  }

  /**
   * MorphValueMap::RemoveMorphsByKeyword: drops the keyword from every morph
   * but keeps morphs it leaves empty.
   */
  function RemoveMorphsByKeyword(mvm: MorphValueMap, keyword: Option<KeywordId>): (r: MorphValueMap)
    ensures r.Keys == mvm.Keys
    ensures forall m :: GetMorph(r, m, keyword) == 0.0
    ensures forall m, k :: k != KeyOf(keyword) ==> GetMorph(r, m, Some(k)) == GetMorph(mvm, m, Some(k))
  {
    map m | m in mvm :: RemoveKeyword(mvm[m], keyword)
  }

  /** An emptied entry survives RemoveMorphsByKeyword: the pruning rule is not applied there. */
  lemma RemoveByKeywordLeavesEmptyEntry()
    ensures var r := RemoveMorphsByKeyword(map["Thin" := map[7 := 1.0]], Some(7));
      "Thin" in r && |r["Thin"]| == 0
  {
    var r := RemoveMorphsByKeyword(map["Thin" := map[7 := 1.0]], Some(7));
    assert "Thin" in r;
    assert r["Thin"] == map[7 := 1.0] - {7};
    assert r["Thin"].Keys == {};
  }

  /** MorphValueMap::Revert leaves no morph behind. */
  function RevertMorphs(mvm: MorphValueMap): (r: MorphValueMap)
    ensures forall m, k :: GetMorph(r, m, Some(k)) == 0.0
    ensures Pruned(r)
  {
    map[]
  }
}

=== FILE: wrappers.dfy ===
/** Failure-carrying result types shared by every module of the model. */
module Wrappers {

  /** Stands in for a nullable pointer or an optional value. */
  datatype Option<+T> = None | Some(value: T)

  /** Either a value or the reason there is none. */
  datatype Result<+R, +E> = Success(value: R) | Failure(error: E)
}
